=== FILE: README.md ===
# Markdown-to-HTML core of a static site generator, in Dafny

This project models the pure core of a small static site generator written in
Python: the part that turns Markdown text into a tree of HTML nodes and
serializes that tree.

- **Text nodes** (`TextNodes`) are inline spans of one of six kinds: plain
  text, bold, italic, code, link and image. There are also six block kinds.
  Text-node equality is modelled too. A text node's url defaults to absent.
- **HTML nodes** (`Html`) are leaves and parents. The model covers the parent
  constructor's checks, attribute rendering and the recursive serializer.
- **The span-to-leaf mapping** (`Convert`) turns one text node into one HTML
  leaf.
- **The inline tokenizer** has four modules:
  - `Patterns`: the image and link extraction passes. A deterministic
    left-to-right scanner takes the place of the two regular expressions.
  - `Delimiters`: the `**`, `_` and backtick passes.
  - `Tokenizer`: the ambiguity guard and the order in which the passes run.
  - `Spans`: what a span stands for in the markup it came from.
- **The block splitter and block classifier** live in `Blocks`.
- **The repository's unit tests** of the delimiter, image and link passes, and one of the block splitter, are
  stated as lemmas in `Examples`.
- **The Python string operations the code relies on** are written out over
  `seq<char>` in `Strings`: `in`, `split`, `join`, `strip`, `splitlines`,
  `str(n)` and `[::-1]`.

## How the model is tied together

The tokenizer's main partner is `Spans.Markdown`. It renders a span sequence
back into the markup it stands for:

- plain text as is;
- styled text between its delimiters;
- images as `![alt](url)` and links as `[text](url)`.

Every pass keeps `Markdown` unchanged. As a result, `text_to_textnodes` always
returns spans that stand for exactly the input text.

Every pass also keeps the `WellFormed` invariant:

- no plain span is empty;
- styled text holds no delimiter;
- every image and link has a non-empty label and a non-empty url made of the
  allowed characters.

Keeping the markup does not say which spans a pass creates. Two more facts
pin the passes down, each with a converse:

- `Delimiters.SplitNodeDelimiterSegments`: a delimiter pass styles exactly
  the odd-indexed segments and keeps the non-empty even-indexed ones as plain
  text. Each styled span comes right after the plain spans of the segments
  before it (`Delimiters.Placed`), so the interleaving is fixed too.
- `Patterns.Extraction` states, span by span, what an image or link pass
  must make of one plain text. Every span of the pattern's kind is the
  match at its own position, read in the whole text. Every plain span is
  non-empty, holds no position where a match starts, and is followed by a
  match or by the end of the text. `Patterns.ScanExtraction` shows that the
  scan meets this. `Patterns.ExtractionUnique` shows that nothing else does.
  `Patterns.SplitNodesPatternPinned` lifts both facts to a whole pass.

The scanner is tied to the markup from both sides:

- `Patterns.MatchAtSound`: whatever it matches is well-formed markup.
- `Patterns.MatchAtComplete`: whatever is well-formed markup at a position, it
  matches.

## Python semantics

- Whitespace is Python's full `str.isspace` set, which `strip()` and the
  regex class `\s` also use.
- Line boundaries are the full `str.splitlines` set, and `\r\n` counts as one
  boundary. The model uses these exact sets rather than ASCII whitespace and
  `\n` only.
- A Python exception becomes the `Failure` case of a `Result`.
- Bold and italic spans become `b` and `i` leaves, as the code writes them
  (src/functions.py:10,13).

## Model

| member | source | states |
|---|---|---|
| `TextNodes.Equals` | src/textnode.py:24-31 | A text node equals another value exactly when that value is a text node with the same text, kind and url. Nothing of another type is ever equal to it. |
| `Html.PropsToHtml` | src/htmlnode.py:11-14 | Absent or empty attributes render as the empty string. Otherwise the rendering starts with a space. |
| `Html.AttrsHtmlInOrder` | src/htmlnode.py:14 | Attribute `i` is rendered as ` name="value"` after every earlier attribute and before every later one. Insertion order is kept. |
| `Html.AttrsHtmlRoundTrip` | src/htmlnode.py:11-14 | Rendering loses no information when names hold no `=` and values no `"`. The attribute list can be read back exactly from its rendering. No escaping is done. |
| `Html.ToHtml` | src/htmlnode.py:26-48 | Leaves always serialize, and an untagged leaf is its value, or nothing. A parent whose tag is absent or empty fails. The only error is the missing render tag. Every tagged output starts with `<tag` and ends with `</tag>`. |
| `Html.TaggedLeafHtml` | src/htmlnode.py:29-30 | A tagged leaf is `<tag attrs>`, then its value unchanged (empty when absent), then `</tag>`. For example, a `br` leaf with no value gives `<br></br>`. |
| `Html.ElementEnds` | src/htmlnode.py:30 | An element opens with `<tag` and closes with `</tag>`. |
| `Html.ToHtmlSucceedsIffRenderable` | src/htmlnode.py:40-48 | A tree serializes exactly when every parent in it has a non-empty tag. |
| `Html.ConcatAll` | src/htmlnode.py:47 | Joining the children's outputs succeeds exactly when every child succeeds. A failure is some child's failure. |
| `Html.ParentHtml` | src/htmlnode.py:46-48 | A parent with a non-empty tag is its children's serializations, unchanged and in order, between its open and close tags. With no children it is `<tag></tag>`. |
| `Html.ConcatAllSuccess` | src/htmlnode.py:47 | When every child yields its text, the joined output is the concatenation of those texts in order. |
| `Html.NewParent` | src/htmlnode.py:33-38 | The constructor refuses a missing tag first and missing children second. It accepts everything else, an empty tag included, and keeps the given fields. |
| `Html.EmptyTagAcceptedButNotRendered` | src/htmlnode.py:34-42 | A parent with an empty tag is constructed but then refuses to serialize. |
| `Html.NewParentRenders` | src/htmlnode.py:32-48 | A parent built with a non-empty tag over renderable children serializes. |
| `Convert.TextNodeToHtml` | src/functions.py:5-32 | The mapping fails exactly for a link or image whose url is absent or empty. Otherwise it yields a leaf that serializes. That leaf is untagged exactly for plain text. It carries the span's text as its value, except for images. Plain and styled spans get no attributes. |
| `Convert.TextNodeHtmlStyled` | src/functions.py:6-16 | Plain text serializes to itself. Bold, italic and code serialize to `<b>…</b>`, `<i>…</i>` and `<code>…</code>` around the text. |
| `Convert.TextNodeHtmlLink` | src/functions.py:18-21 | A link with a url serializes to `<a href="url">text</a>`. |
| `Convert.TextNodeHtmlImage` | src/functions.py:23-29 | An image with a url serializes to `<img src="url" alt="text"></img>`: `src` first, then `alt`, with an empty value. |
| `Strings.Split` | src/functions.py:46 | The parts joined by the separator give back the text. No part holds the separator. Each cut is at the leftmost occurrence that does not overlap the previous cut. |
| `Delimiters.SplitNodeDelimiter` | src/functions.py:38-66 | Covers one span. A non-plain span is kept. An empty plain span is dropped. A plain span without an odd, at-least-three segment split, or with a nested delimiter in a styled segment (not for backticks), is kept as is. Otherwise every emitted span is plain or of the pass's kind, holds no delimiter and has no url. |
| `Delimiters.SplitNodesDelimiter` | src/functions.py:34-68 | Every span out of the pass is an input span, a non-empty plain span or a span of the pass's kind. Which spans are emitted is stated by `SplitNodeDelimiterSegments`. |
| `Delimiters.SplitNodeDelimiterSegments` | src/functions.py:46-66 | When the split applies, the spans of the pass's kind carry exactly the odd-indexed segments, in order, empty ones included. The plain spans carry exactly the non-empty even-indexed segments, in order. The styled span for segment `2k+1` comes right after the plain spans of segments `0` to `2k`, so `*****` split at `**` gives an empty bold span and then `*`, never the other way round. No other kind is emitted and no span has a url. |
| `Delimiters.EmitStyledAt` | src/functions.py:60-66 | For segments emitted from an even index `i`, the styled span at position `j` carries segment `i+2k+1`, where `k` counts the styled spans before it. The plain spans before it are exactly the non-empty segments from `i` to `i+2k`. |
| `Delimiters.SplitAround` | src/functions.py:46-66 | A plain span `a d b d c` becomes `a` as plain text, `b` as the pass's kind, then `c` as plain text, with empty plain pieces dropped. This holds when no piece holds the delimiter's first character and, except for backticks, `b` holds no other delimiter. |
| `Delimiters.SplitAroundTwo` | src/functions.py:46-66 | A plain span with two backtick-quoted pieces gives plain, code-kind, plain, code-kind and plain spans, with empty plain pieces dropped. |
| `Delimiters.SplitUnmatched` | src/functions.py:46-49 | A plain span holding the delimiter once is kept as it is. |
| `Delimiters.SplitAbsentNode` | src/functions.py:46-49 | A non-empty plain span without the delimiter is kept as it is. |
| `Delimiters.SplitNodesDelimiterAppend` | src/functions.py:38-41 | The pass handles the spans one at a time and keeps their order. The pass over two runs of spans, one after the other, equals the pass over each run. |
| `Delimiters.SplitNodesDelimiterKeeps` | src/functions.py:39-41 | Spans none of which is plain text come through the delimiter pass unchanged and in order. |
| `Delimiters.EmitMarkdown` | src/functions.py:60-66 | The emitted spans stand for the segments joined by the delimiter. Dropping empty plain segments loses nothing, and a styled span stands for its text between two delimiters. |
| `Delimiters.SplitNodeDelimiterMarkdown` | src/functions.py:43-66 | One span through a delimiter pass stands for the same markup it stood for before. |
| `Delimiters.SplitNodesDelimiterMarkdown` | src/functions.py:34-68 | A delimiter pass never changes the markup the spans stand for. |
| `Delimiters.SplitNodesDelimiterWellFormed` | src/functions.py:34-68 | After a delimiter pass every span is well formed, provided the styled spans going in were. No plain span is empty, and styled text is clean. |
| `Patterns.MatchAtSound` | src/functions.py:82 | Covers the image and link patterns (lines 82 and 107). A match covers exactly the markup of its label and url. The label is non-empty and holds no `]`. The url is non-empty and made of the allowed characters: for images no parenthesis or whitespace, for links no `)`. A link never opens right after `!`. |
| `Patterns.MatchAtComplete` | src/functions.py:107 | Covers the image and link patterns (lines 82 and 107). Every occurrence of well-formed markup is matched whole, with its label and url. For a link, the occurrence must not follow a `!`. |
| `Patterns.FindMatch` | src/functions.py:90 | The search returns the leftmost match at or after the given position, or reports that there is none. |
| `Patterns.ScanMarkdown` | src/functions.py:89-101 | The spans of a scan stand for exactly the text scanned: the text between matches and the matched markup, in order. |
| `Patterns.ScanWellFormed` | src/functions.py:94-101 | A scan emits only non-empty plain spans and spans of the pattern's kind with a valid label and url. |
| `Patterns.SplitNodesPatternMarkdown` | src/functions.py:84-103 | An extraction pass never changes the markup the spans stand for. |
| `Patterns.SplitNodesPatternWellFormed` | src/functions.py:84-103 | An extraction pass keeps every non-plain span, creates only plain spans and spans of its kind, and keeps every span well formed. |
| `Patterns.SplitNodesPatternAppend` | src/functions.py:84-87 | An extraction pass handles the spans one at a time and keeps their order. The pass over two runs of spans, one after the other, equals the pass over each run. |
| `Patterns.SplitNodesPatternKeeps` | src/functions.py:85-87 | Spans none of which is plain text come through an extraction pass unchanged and in order. |
| `Patterns.ScanExhausted` | src/functions.py:89-101 | No plain span a scan emits holds a match of the pattern when the span is read on its own. Which spans a scan makes is stated by `ScanExtraction` and `ExtractionUnique`. |
| `Patterns.SplitNodesPatternExhausted` | src/functions.py:84-103 | After an extraction pass, no plain span holds a match of the pattern when the span is read on its own. Which spans the pass makes is stated by `SplitNodesPatternPinned`. |
| `Patterns.ScanExtraction` | src/functions.py:89-101 | A scan is an extraction of its text. Each image or link span is the match at its own position in the whole text. Each plain span is non-empty, no match starts inside it, and a match or the end of the text follows it. |
| `Patterns.ExtractionUnique` | src/functions.py:89-101 | Two extractions of the same text from the same position are equal. With `ScanExtraction`, the scan is the only sequence of spans that passes the checks. So `![a](b)` cannot become `![a](b` and `)`, since a match starts inside that plain span. |
| `Patterns.SplitNodesPatternPieces` | src/functions.py:84-103 | An extraction pass is its pieces, one after the other. A span that is not plain is its own piece, and a plain span's piece is an extraction of its text. |
| `Patterns.SplitNodesPatternUnique` | src/functions.py:84-103 | Any pieces of that kind, one after the other, are exactly what the pass returns. |
| `Patterns.SplitNodesPatternPinned` | src/functions.py:84-103 | Such pieces exist, and any such pieces give the pass's result. |
| `Patterns.ScanSingle` | src/functions.py:89-101 | Text with one piece of markup, where no text around it could open another, scans to the text before it, the span for the markup, and the text after it. Empty plain pieces are dropped. |
| `Patterns.ScanPair` | src/functions.py:89-101 | The same holds for two pieces of markup, with the text between them as a plain span. |
| `Patterns.FindMatchCloses` | src/functions.py:82 | Covers the image and link patterns (lines 82 and 107). A text in which a match is found holds a `)`. |
| `Patterns.ScanUnclosed` | src/functions.py:89-101 | Text without a `)` holds no match and scans to itself as one plain span. |
| `Patterns.SplitNodesImage` | src/functions.py:80-103 | Image extraction keeps the markup and the well-formedness of the spans. New spans are plain or images, and no plain span left holds an image. The result is the one sequence of pieces where each plain input span becomes the extraction of its text. |
| `Patterns.SplitNodesLink` | src/functions.py:105-128 | Link extraction keeps the markup and the well-formedness of the spans. New spans are plain or links, and no plain span left holds a link. The result is the one sequence of pieces where each plain input span becomes the extraction of its text. |
| `Strings.ContainsReverse` | src/functions.py:132 | The reversed text holds a pattern exactly when the text holds the reversed pattern. |
| `Tokenizer.AmbiguousEmphasisForward` | src/functions.py:131-133 | The guard holds exactly when the text contains `_**` or `**_`. The reversed-text checks and the outer `**`/`_` checks add nothing. |
| `Tokenizer.PassesSound` | src/functions.py:135-144 | Images, links, bold, italic and code in turn keep the markup and leave only well-formed spans. |
| `Tokenizer.TextToTextNodes` | src/functions.py:130-144 | The spans always stand for exactly the input text and are all well formed. Under the ambiguity guard the result is the text as one plain span. |
| `Tokenizer.TokensConvert` | src/functions.py:5-32 | Every span the tokenizer produces converts to an HTML leaf without error. |
| `Strings.Strip` | src/functions.py:148 | The result is empty exactly when the text is all whitespace. Otherwise it neither starts nor ends with whitespace. |
| `Strings.StripPadded` | src/functions.py:148 | Stripping removes only whitespace, and only at the two ends. |
| `Blocks.MarkdownToBlocks` | src/functions.py:146-149 | Every block is non-empty, has no whitespace at either end and holds no blank line. Where the document is cut is stated by `MarkdownToBlocksWoven` and `MarkdownToBlocksUnique`. |
| `Blocks.MarkdownToBlocksWoven` | src/functions.py:146-149 | The document is the blocks woven between whitespace gaps: gap, block, gap, …, block, gap. Every gap is all whitespace, and every gap between two blocks holds a blank line. So a single line break never separates two blocks. |
| `Blocks.MarkdownToBlocksUnique` | src/functions.py:146-149 | Any such weave of the document into blocks with no whitespace at either end and no blank line inside is the one `markdown_to_blocks` returns. |
| `Strings.StripAround` | src/functions.py:148 | The text is the stripped text with all-whitespace text in front of it and behind it. |
| `Blocks.MarkdownToBlocksEmpty` | src/functions.py:146-149 | There are no blocks exactly when the document is empty or all whitespace. |
| `Blocks.MarkdownToBlocksInOrder` | src/functions.py:146-149 | The blocks occur in the document one after another, in order and without overlap. |
| `Blocks.MarkdownToBlocksKeepsText` | src/functions.py:146-149 | The blocks keep all of the document's text. Their concatenation with whitespace removed equals the document with whitespace removed, so no other character is lost, added or reordered. |
| `Strings.SplitLines` | src/functions.py:152 | There are no lines exactly for the empty text. Lines hold no line-boundary character, and together they hold every other character of the text, in order. Where the lines are cut is stated by `SplitLinesCuts`. |
| `Strings.SplitLinesCuts` | src/functions.py:152 | The text is the lines, each followed by its boundary. A boundary is one line-break character or `\r\n`, and a `\r` boundary is never directly followed by `\n`. Only the last line may lack a boundary, and it is then non-empty. |
| `Strings.CutUnique` | src/functions.py:152 | Any cut of the text into break-free lines with such boundaries is the one `splitlines` makes. |
| `Strings.DecimalString` | src/functions.py:168 | The result is the decimal numeral of the number, with no leading zero: a numeral that starts with `0` is exactly `0`, the numeral of zero. |
| `Blocks.HeadingLineIff` | src/functions.py:157 | The heading test holds exactly when the line starts with one to six `#` followed by a space. |
| `Blocks.BlockToBlockType` | src/functions.py:151-174 | A code block is exactly a block whose first line opens and last line closes with three backticks. A heading starts with one to six `#` and a space. Every line of a quote starts with `>`, and of an unordered list with `- `. Line `i` of an ordered list starts with `i+1. `. A paragraph is exactly a block that passes none of these tests. |
| `Blocks.MeansUnique` | src/functions.py:151-174 | A non-empty line list has at most one meaning, so the kind the first-match-wins chain returns is the only one the meanings allow. |
| `Blocks.ClassifyMeans` | src/functions.py:154-174 | The first-match-wins classification of any non-empty line list has the meaning given above. |
| `Blocks.CheckOrdered` | src/functions.py:166-172 | The early-exit loop reports an ordered list exactly when every stripped line `i` starts with `i+1. `. |
| `Blocks.SevenHashesNotHeading` | src/functions.py:157 | Seven `#` never make a heading line. |
| `Blocks.NumberingGap` | src/functions.py:166-172 | A list whose second item is numbered `3.` is not ordered. |
| `Blocks.ParenMarker` | src/functions.py:166-172 | A list whose first item is marked `1)` is not ordered. |
| `Examples.SingleCode` | src/test_htmlnode.py:121-128 | ``This is `code` `` gives plain `This is ` and code `code`. The empty tail is dropped. |
| `Examples.MultipleCodeBlocks` | src/test_htmlnode.py:130-139 | `` `first` middle `second` end `` gives code `first`, plain ` middle `, code `second`, plain ` end`. |
| `Examples.NoDelimiters` | src/test_htmlnode.py:141-144 | `Just plain text` is kept as it is. |
| `Examples.OddDelimiters` | src/test_htmlnode.py:146-149 | ``Unmatched `delimiter here`` is kept as it is. |
| `Examples.ItalicText` | src/test_htmlnode.py:151-159 | `Some _italic_ text` gives plain, italic and plain spans. |
| `Examples.BoldStatement` | src/test_htmlnode.py:161-168 | `**Bold** statement` gives bold `Bold` and plain ` statement`. |
| `Examples.MixedNodeTypes` | src/test_htmlnode.py:170-179 | A bold span after a plain one passes through the backtick pass unchanged. |
| `Examples.EmptyText` | src/test_htmlnode.py:181-184 | An empty plain span is dropped. |
| `Examples.OnlyDelimiters` | src/test_htmlnode.py:186-189 | ` `` ` gives one empty code span. |
| `Examples.NestedNotHandled` | src/test_htmlnode.py:191-199 | ``This is _not `nested_ code` `` gives plain `This is _not ` and code `nested_ code`. |
| `Examples.SplitImages` | src/test_htmlnode.py:273-287 | Two images with text before and between them give four spans in order. |
| `Examples.ImageOnly` | src/test_htmlnode.py:289-294 | `![alt](https://img.com/pic.png)` alone gives the image span alone. |
| `Examples.ImageNonText` | src/test_htmlnode.py:296-299 | An image span passes through the image pass unchanged. |
| `Examples.ImageWithExtraText` | src/test_htmlnode.py:301-308 | `Before ![img](url.png) After` gives plain, image and plain spans. |
| `Examples.SplitLinks` | src/test_htmlnode.py:315-329 | Two links with text before and between them give four spans in order. |
| `Examples.LinkOnly` | src/test_htmlnode.py:331-336 | `[click](http://url.com)` alone gives the link span alone. |
| `Examples.LinkMalformed` | src/test_htmlnode.py:349-352 | `[bad](url` never closes and is kept as it is. |
| `Examples.LinkNonText` | src/test_htmlnode.py:354-357 | A bold span passes through the link pass unchanged. |
| `Examples.MultipleListBlocks` | src/test_htmlnode.py:409-424 | Two lists apart by a blank line give two blocks, each keeping its inner line break. |

## Left out

- `copy_static_files` (src/main.py:5-26): it deletes, creates and copies
  directories and prints progress, which is file-system I/O.
- `generate_page`, which src/main.py:3 imports and src/main.py:30 calls: it
  is not defined in any of the repository's source files, so there is nothing
  to model.
- `extract_markdown_images` and `extract_markdown_links`
  (src/functions.py:70-78): nothing in the modelled core calls them.
- Python's regular-expression engine: the two fixed patterns are replaced by
  the `Patterns` scanner. The leading-`#` pattern and the item-number pattern
  are replaced by `IsHeadingLine` and `IsNumbered`. `HeadingLineIff` ties the
  heading test back to the pattern.
- The `__repr__` methods: they only produce debugging text.
- The abstract `HTMLNode.to_html`: the node type is closed, with two variants.
  A plain `HTMLNode` child, which would raise on serialization, cannot be
  expressed.
- The `Unknown TextType` branch of `text_node_to_html_node`: the kind type is
  closed, so the branch cannot be reached.
- The render-time `children is None` check of `ParentNode.to_html`: the
  constructor makes it unreachable, and the model has no mutable fields that
  could undo this.
- Attributes are a sequence, not a dictionary: key uniqueness is not modelled,
  and insertion order is kept.
- `Blocks.BlockToBlockType`: it requires a non-empty block. On an empty block
  Python fails with an index error, and `markdown_to_blocks` never yields one.
- The tests of a malformed image (src/test_htmlnode.py:310-313) and of a
  link next to an image (src/test_htmlnode.py:338-347) are not stated as
  examples. Both turn on the pattern details that `Patterns.MatchAtSound`
  and `Patterns.MatchAtComplete` state for every input: no whitespace in an
  image url, and no link right after `!`.
- Of the block splitter's tests, only src/test_htmlnode.py:409-424 is stated
  as an example. The empty and whitespace-only documents (lines 380-388) are
  covered by `Blocks.MarkdownToBlocksEmpty` for every input. The two longer
  documents (lines 360-378 and 390-407) follow from
  `Blocks.MarkdownToBlocksUnique` in the same way but are not written out.
- Python's `str.split` with an empty separator raises. `Strings.Split`
  requires a non-empty separator, and every separator the code passes is a
  non-empty constant.
- `Html.PropsToHtml`: its own contract states only when the rendering is
  empty and that it starts with a space. The content and order of the
  attributes are stated by `Html.AttrsHtmlInOrder` and
  `Html.AttrsHtmlRoundTrip`.
- HTML escaping: the code does none, and neither does the model.
- ScanExhausted: it checks each plain span on its own text. It does not
  see the character before the span, and it does not say where the spans are
  cut. `Patterns.ScanExtraction` and `Patterns.ExtractionUnique` state the
  cuts, reading every position in the whole text.
- SplitNodesPatternExhausted: it is weaker in the same way, for a whole
  pass. `Patterns.SplitNodesPatternPinned` states the pass exactly.
- Values of types other than text nodes, in text-node equality: they are
  collapsed into one `OtherValue` case, since equality only asks whether the
  other value is a text node.

=== FILE: blocks.dfy ===
/** Splitting a document into blocks and telling what kind of block each
    one is. */
module Blocks {
  import opened Wrappers
  import opened Strings
  import opened TextNodes

  /** Blocks are separated by a blank line. */
  const BlankLine: string := "\n\n"

  /** Non-empty, with no whitespace at either end. */
  predicate Trimmed(b: string) {
    b != [] && !IsSpace(b[0]) && !IsSpace(b[|b| - 1])
  }

  /** The stripped pieces, in order, with the empty ones left out. */
  function StripAll(raw: seq<string>): (blocks: seq<string>)
    ensures |blocks| <= |raw|
    ensures forall i | 0 <= i < |blocks| :: Trimmed(blocks[i])
    decreases |raw|
  {
    if raw == [] then []
    else
      var b := Strip(raw[0]);
      var head := if b == "" then [] else [b];
      var rest := StripAll(raw[1..]);
      assert forall j | 0 <= j < |head| :: Trimmed(head[j]);
      assert forall j | 0 <= j < |rest| :: (head + rest)[|head| + j] == rest[j];
      head + rest
  }

  /** `markdown_to_blocks`: the pieces between blank lines, stripped, with
      the empty ones left out. Every block is non-empty, has no whitespace
      at either end and no blank line inside. */
  function MarkdownToBlocks(md: string): (blocks: seq<string>)
    ensures forall i | 0 <= i < |blocks| :: Trimmed(blocks[i])
    ensures forall i | 0 <= i < |blocks| :: !Contains(blocks[i], BlankLine)
  {
    var raw := Split(md, BlankLine);
    StripAllClean(raw, BlankLine);
    StripAll(raw)
  }

  /** A piece of a text free of `pat` is free of `pat` too. */
  lemma NotInPiece(a: string, b: string, pat: string)
    requires Contains(a, b) && !Contains(a, pat)
    ensures !Contains(b, pat)
  {
    if Contains(b, pat) {
      ContainsTransitive(a, b, pat);
    }
  }

  lemma {:induction false} StripAllClean(raw: seq<string>, pat: string)
    requires forall i | 0 <= i < |raw| :: !Contains(raw[i], pat)
    ensures forall i | 0 <= i < |StripAll(raw)| :: !Contains(StripAll(raw)[i], pat)
    decreases |raw|
  {
    if raw != [] {
      var b := Strip(raw[0]);
      var head := if b == "" then [] else [b];
      var rest := StripAll(raw[1..]);
      assert !Contains(b, pat) by {
        StripContains(raw[0]);
        NotInPiece(raw[0], b, pat);
      }
      assert forall j | 0 <= j < |rest| :: !Contains(rest[j], pat) by {
        StripAllClean(raw[1..], pat);
      }
      assert StripAll(raw) == head + rest;
      forall i | 0 <= i < |head + rest|
        ensures !Contains((head + rest)[i], pat)
      {
        if i >= |head| {
          assert (head + rest)[i] == rest[i - |head|];
        }
      }
    }
  }

  /** A document has no blocks exactly when it is all whitespace. */
  lemma MarkdownToBlocksEmpty(md: string)
    ensures MarkdownToBlocks(md) == [] <==> AllSpace(md)
  {
    var raw := Split(md, BlankLine);
    StripAllEmpty(raw);
    assert AllSpace(BlankLine);
    AllSpaceJoin(raw, BlankLine);
  }

  /** Nothing survives stripping exactly when every piece is whitespace. */
  lemma {:induction false} StripAllEmpty(raw: seq<string>)
    ensures StripAll(raw) == [] <==> forall i | 0 <= i < |raw| :: AllSpace(raw[i])
    decreases |raw|
  {
    if raw != [] {
      StripAllEmpty(raw[1..]);
      assert forall i | 1 <= i < |raw| :: raw[i] == raw[1..][i - 1];
    }
  }

  lemma AllSpaceAppend(a: string, b: string)
    ensures AllSpace(a + b) <==> AllSpace(a) && AllSpace(b)
  {
    assert forall k | 0 <= k < |a| :: (a + b)[k] == a[k];
    assert forall k | 0 <= k < |b| :: (a + b)[|a| + k] == b[k];
  }

  /** Pieces joined by whitespace are whitespace exactly when each piece is. */
  lemma {:induction false} AllSpaceJoin(parts: seq<string>, sep: string)
    requires AllSpace(sep)
    ensures AllSpace(Join(parts, sep)) <==> forall i | 0 <= i < |parts| :: AllSpace(parts[i])
    decreases |parts|
  {
    if |parts| > 1 {
      AllSpaceJoin(parts[1..], sep);
      AllSpaceAppend(parts[0], sep);
      AllSpaceAppend(parts[0] + sep, Join(parts[1..], sep));
      assert forall i | 1 <= i < |parts| :: parts[i] == parts[1..][i - 1];
    }
  }

  /** The pieces occur in `s` one after another, without overlapping. */
  predicate InOrder(s: string, pieces: seq<string>)
    decreases |pieces|
  {
    pieces == [] ||
    exists i | 0 <= i <= |s| - |pieces[0]| ::
      OccursAt(s, pieces[0], i) && InOrder(s[i + |pieces[0]|..], pieces[1..])
  }

  /** Text in front does not disturb the order. */
  lemma InOrderPrefix(x: string, t: string, pieces: seq<string>)
    requires InOrder(t, pieces)
    ensures InOrder(x + t, pieces)
  {
    if pieces != [] {
      var p := pieces[0];
      var i :| 0 <= i <= |t| - |p| && OccursAt(t, p, i) && InOrder(t[i + |p|..], pieces[1..]);
      var s, j := x + t, |x| + i;
      assert OccursAt(s, p, j) by {
        assert s[j..j + |p|] == t[i..i + |p|];
      }
      assert InOrder(s[j + |p|..], pieces[1..]) by {
        assert s[j + |p|..] == t[i + |p|..];
      }
    }
  }

  /** The blocks keep the order of the document. */
  lemma MarkdownToBlocksInOrder(md: string)
    ensures InOrder(md, MarkdownToBlocks(md))
  {
    StripAllInOrder(Split(md, BlankLine), BlankLine);
  }

  lemma {:induction false} StripAllInOrder(parts: seq<string>, sep: string)
    ensures InOrder(Join(parts, sep), StripAll(parts))
    decreases |parts|
  {
    if parts != [] {
      var p := parts[0];
      var rest := StripAll(parts[1..]);
      var tail := if |parts| == 1 then "" else sep + Join(parts[1..], sep);
      assert Join(parts, sep) == p + tail;
      assert InOrder(tail, rest) by {
        if |parts| > 1 {
          StripAllInOrder(parts[1..], sep);
          InOrderPrefix(sep, Join(parts[1..], sep), rest);
        } else {
          assert rest == [];
        }
      }
      if Strip(p) == "" {
        InOrderPrefix(p, tail, rest);
        assert StripAll(parts) == rest;
      } else {
        StripContains(p);
        HeadInOrder(p, tail, Strip(p), rest);
        assert StripAll(parts) == [Strip(p)] + rest;
      }
    }
  }

  /** A piece of `p` followed by pieces in order in what comes after `p`. */
  lemma HeadInOrder(p: string, tail: string, b: string, rest: seq<string>)
    requires Contains(p, b) && InOrder(tail, rest)
    ensures InOrder(p + tail, [b] + rest)
  {
    var i :| 0 <= i <= |p| - |b| && OccursAt(p, b, i);
    var s := p + tail;
    assert s[i..i + |b|] == p[i..i + |b|];
    assert s[i + |b|..] == p[i + |b|..] + tail;
    InOrderPrefix(p[i + |b|..], tail, rest);
    assert ([b] + rest)[0] == b && ([b] + rest)[1..] == rest;
    assert OccursAt(s, b, i) && InOrder(s[i + |b|..], rest);
  }

  /** `s` with its whitespace removed. */
  function RemoveSpace(s: string): string
    decreases |s|
  {
    if s == [] then "" else (if IsSpace(s[0]) then "" else [s[0]]) + RemoveSpace(s[1..])
  }

  /** The blocks hold every non-whitespace character of the document, in
      order: only whitespace is lost between the blocks and at their ends. */
  lemma MarkdownToBlocksKeepsText(md: string)
    ensures RemoveSpace(Concat(MarkdownToBlocks(md))) == RemoveSpace(md)
  {
    var raw := Split(md, BlankLine);
    assert AllSpace(BlankLine);
    RemoveSpaceJoin(raw, BlankLine);
    RemoveSpaceStripAll(raw);
  }

  lemma {:induction false} RemoveSpaceAppend(a: string, b: string)
    ensures RemoveSpace(a + b) == RemoveSpace(a) + RemoveSpace(b)
    decreases |a|
  {
    if a != [] {
      assert (a + b)[0] == a[0];
      assert (a + b)[1..] == a[1..] + b;
      RemoveSpaceAppend(a[1..], b);
      var h := if IsSpace(a[0]) then "" else [a[0]];
      assert RemoveSpace(a + b) == h + RemoveSpace(a[1..] + b);
      assert RemoveSpace(a) == h + RemoveSpace(a[1..]);
    } else {
      assert a + b == b;
    }
  }

  lemma {:induction false} RemoveSpaceAllSpace(s: string)
    requires AllSpace(s)
    ensures RemoveSpace(s) == ""
    decreases |s|
  {
    if s != [] {
      RemoveSpaceAllSpace(s[1..]);
    }
  }

  /** Stripping loses no non-whitespace character. */
  lemma RemoveSpaceStrip(s: string)
    ensures RemoveSpace(Strip(s)) == RemoveSpace(s)
  {
    var r := Strip(s);
    var front, back := StripAround(s);
    assert RemoveSpace(front) == "" && RemoveSpace(back) == "" by {
      RemoveSpaceAllSpace(front);
      RemoveSpaceAllSpace(back);
    }
    calc {
      RemoveSpace(s);
      RemoveSpace(front + r + back);
    == { RemoveSpaceAppend(front + r, back); RemoveSpaceAppend(front, r); }
      RemoveSpace(front) + RemoveSpace(r) + RemoveSpace(back);
    ==
      RemoveSpace(r);
    }
  }

  /** Joining by whitespace adds no non-whitespace character. */
  lemma {:induction false} RemoveSpaceJoin(parts: seq<string>, sep: string)
    requires AllSpace(sep)
    ensures RemoveSpace(Join(parts, sep)) == RemoveSpace(Concat(parts))
    decreases |parts|
  {
    if |parts| == 1 {
      assert Concat(parts) == parts[0] + Concat([]);
      assert parts[0] + "" == parts[0];
    } else if |parts| > 1 {
      var p, tail := parts[0], parts[1..];
      assert Join(parts, sep) == p + sep + Join(tail, sep);
      assert Concat(parts) == p + Concat(tail);
      RemoveSpaceJoin(tail, sep);
      RemoveSpaceAllSpace(sep);
      RemoveSpaceAppend(p, sep);
      RemoveSpaceAppend(p + sep, Join(tail, sep));
      RemoveSpaceAppend(p, Concat(tail));
    }
  }

  /** Stripping every piece and dropping the empty ones loses no
      non-whitespace character. */
  lemma {:induction false} RemoveSpaceStripAll(raw: seq<string>)
    ensures RemoveSpace(Concat(StripAll(raw))) == RemoveSpace(Concat(raw))
    decreases |raw|
  {
    if raw != [] {
      var b := Strip(raw[0]);
      var rest := StripAll(raw[1..]);
      RemoveSpaceStripAll(raw[1..]);
      RemoveSpaceStrip(raw[0]);
      RemoveSpaceAppend(raw[0], Concat(raw[1..]));
      if b == "" {
        assert StripAll(raw) == rest;
      } else {
        assert StripAll(raw) == [b] + rest;
        assert Concat([b] + rest) == b + Concat(rest);
        RemoveSpaceAppend(b, Concat(rest));
      }
    }
  }

  /** `gaps[0] + blocks[0] + gaps[1] + … + blocks[n - 1] + gaps[n]`. */
  function Weave(blocks: seq<string>, gaps: seq<string>): string
    requires |gaps| == |blocks| + 1
    decreases |blocks|
  {
    if blocks == [] then gaps[0] else gaps[0] + blocks[0] + Weave(blocks[1..], gaps[1..])
  }

  /** The gaps around the blocks are whitespace, and every gap between two
      blocks holds a blank line. */
  predicate Separated(blocks: seq<string>, gaps: seq<string>) {
    && |gaps| == |blocks| + 1
    && (forall i | 0 <= i < |gaps| :: AllSpace(gaps[i]))
    && (forall i | 0 < i < |blocks| :: Contains(gaps[i], BlankLine))
  }

  /** `s` is the blocks with such gaps around and between them. */
  predicate Woven(s: string, blocks: seq<string>, gaps: seq<string>) {
    Separated(blocks, gaps) && s == Weave(blocks, gaps)
  }

  /** The document is its blocks with whitespace around and between them,
      and two blocks are apart only where a blank line separates them. */
  lemma MarkdownToBlocksWoven(md: string)
    ensures exists gaps :: Woven(md, MarkdownToBlocks(md), gaps)
  {
    var raw := Split(md, BlankLine);
    JoinWoven(raw);
    var g :| Woven(Join(raw, BlankLine), StripAll(raw), g);
    assert Woven(md, MarkdownToBlocks(md), g);
  }

  lemma {:induction false} JoinWoven(raw: seq<string>)
    requires |raw| >= 1
    ensures exists gaps :: Woven(Join(raw, BlankLine), StripAll(raw), gaps)
    decreases |raw|
  {
    var r, rest := raw[0], raw[1..];
    var b := Strip(r);
    var front, back := StripAround(r);
    if rest == [] {
      assert Join(raw, BlankLine) == r;
      if b == "" {
        assert StripAll(raw) == [];
        assert Woven(r, [], [r]);
      } else {
        assert StripAll(raw) == [b];
        assert Weave([b], [front, back]) == front + b + back;
        assert Woven(r, [b], [front, back]);
      }
    } else {
      var t := Join(rest, BlankLine);
      var blocks := StripAll(rest);
      JoinWoven(rest);
      var g :| Woven(t, blocks, g);
      assert Join(raw, BlankLine) == r + BlankLine + t;
      if b == "" {
        assert StripAll(raw) == blocks;
        WovenDropped(r, t, blocks, g);
      } else {
        assert StripAll(raw) == [b] + blocks;
        WovenKept(front, b, back, t, blocks, g);
      }
    }
  }

  /** Text laid out as `a + pat + c` contains `pat`. */
  lemma ContainsBetween(a: string, pat: string, c: string)
    ensures Contains(a + pat + c, pat)
  {
    assert OccursAt(a + pat + c, pat, |a|);
  }

  /** Text in front of the first gap becomes part of it. */
  lemma WeavePrepend(x: string, blocks: seq<string>, g: seq<string>)
    requires |g| == |blocks| + 1
    ensures Weave(blocks, [x + g[0]] + g[1..]) == x + Weave(blocks, g)
  {
    var g2 := [x + g[0]] + g[1..];
    assert g2[0] == x + g[0] && g2[1..] == g[1..];
    if blocks != [] {
      var w := Weave(blocks[1..], g[1..]);
      calc {
        Weave(blocks, g2);
        x + g[0] + blocks[0] + w;
        { Assoc3(x, g[0], blocks[0], w); }
        x + (g[0] + blocks[0] + w);
      }
    }
  }

  /** A whitespace piece and a blank line in front join the first gap. */
  lemma WovenDropped(r: string, t: string, blocks: seq<string>, g: seq<string>)
    requires AllSpace(r) && Woven(t, blocks, g)
    ensures Woven(r + BlankLine + t, blocks, [r + BlankLine + g[0]] + g[1..])
  {
    var x := r + BlankLine;
    var g2 := [x + g[0]] + g[1..];
    assert Weave(blocks, g2) == x + t by { WeavePrepend(x, blocks, g); }
    assert AllSpace(g2[0]) by {
      assert AllSpace(BlankLine);
      AllSpaceAppend(r, BlankLine);
      AllSpaceAppend(x, g[0]);
    }
    assert forall i | 1 <= i < |g2| :: g2[i] == g[i];
  }

  /** A piece that strips to the block `b`: the whitespace in front of `b`
      becomes a gap of its own, and the whitespace behind it joins the blank
      line in the next gap. */
  lemma WovenKept(front: string, b: string, back: string, t: string, blocks: seq<string>, g: seq<string>)
    requires AllSpace(front) && AllSpace(back) && Woven(t, blocks, g)
    ensures Woven(front + b + back + BlankLine + t, [b] + blocks, [front, back + BlankLine + g[0]] + g[1..])
  {
    var g1 := [back + BlankLine + g[0]] + g[1..];
    var g2 := [front] + g1;
    assert g2 == [front, back + BlankLine + g[0]] + g[1..];
    assert Woven(back + BlankLine + t, blocks, g1) by { WovenDropped(back, t, blocks, g); }
    assert Weave([b] + blocks, g2) == front + b + (back + BlankLine + t) by {
      assert ([b] + blocks)[0] == b && ([b] + blocks)[1..] == blocks;
      assert g2[0] == front && g2[1..] == g1;
    }
    assert Contains(g1[0], BlankLine) by { ContainsBetween(back, BlankLine, g[0]); }
    assert forall i | 1 <= i < |g2| :: g2[i] == g1[i - 1];
  }

  /** Every block is trimmed and holds no blank line. */
  predicate Clean(blocks: seq<string>) {
    forall i | 0 <= i < |blocks| :: Trimmed(blocks[i]) && !Contains(blocks[i], BlankLine)
  }

  /** Conversely, any way of laying the document out as clean blocks with
      such gaps is the one `markdown_to_blocks` finds. */
  lemma MarkdownToBlocksUnique(md: string, blocks: seq<string>, gaps: seq<string>)
    requires Woven(md, blocks, gaps) && Clean(blocks)
    ensures blocks == MarkdownToBlocks(md)
  {
    MarkdownToBlocksWoven(md);
    var g :| Woven(md, MarkdownToBlocks(md), g);
    WovenUnique(md, blocks, gaps, MarkdownToBlocks(md), g);
  }

  /** Two layouts of one text as clean blocks and gaps have the same blocks. */
  lemma {:induction false} WovenUnique(s: string, b1: seq<string>, g1: seq<string>, b2: seq<string>, g2: seq<string>)
    requires Woven(s, b1, g1) && Woven(s, b2, g2) && Clean(b1) && Clean(b2)
    ensures b1 == b2
    decreases |b1|
  {
    if b1 == [] || b2 == [] {
      WovenEmpty(s, b1, g1);
      WovenEmpty(s, b2, g2);
    } else {
      var p := |g1[0]|;
      assert |g2[0]| == p by { FirstGap(s, b1, g1, b2, g2); }
      var n1, n2 := |b1[0]|, |b2[0]|;
      WovenTail(s, b1, g1);
      WovenTail(s, b2, g2);
      assert n2 <= n1 by { NotLonger(s, p, n1, b2[0], b1[1..], g1[1..]); }
      assert n1 <= n2 by { NotLonger(s, p, n2, b1[0], b2[1..], g2[1..]); }
      var t := s[p + n1..];
      WovenUnique(t, b1[1..], g1[1..], b2[1..], g2[1..]);
      HeadTail(b1, b2);
    }
  }

  /** A weave starts with its first gap; with no block it is that gap. */
  lemma WeaveHead(blocks: seq<string>, gaps: seq<string>)
    requires |gaps| == |blocks| + 1
    ensures var s, g := Weave(blocks, gaps), gaps[0];
      && |g| <= |s| && s[..|g|] == g
      && (blocks == [] ==> s == g)
      && (blocks != [] ==> s[|g|..] == blocks[0] + Weave(blocks[1..], gaps[1..]))
  {
    if blocks != [] {
      var g, w := gaps[0], blocks[0] + Weave(blocks[1..], gaps[1..]);
      assert Weave(blocks, gaps) == g + w by { Assoc(g, blocks[0], Weave(blocks[1..], gaps[1..])); }
    }
  }

  /** A text laid out as blocks and gaps has no blocks exactly when it is
      all whitespace. */
  lemma WovenEmpty(s: string, blocks: seq<string>, gaps: seq<string>)
    requires Woven(s, blocks, gaps) && Clean(blocks)
    ensures blocks == [] <==> AllSpace(s)
  {
    WeaveHead(blocks, gaps);
    if blocks != [] {
      var k := |gaps[0]|;
      assert s[k..][0] == blocks[0][0];
    }
  }

  /** The first block starts at the first non-space character. */
  lemma FirstBlock(s: string, blocks: seq<string>, gaps: seq<string>)
    requires Woven(s, blocks, gaps) && Clean(blocks) && blocks != []
    ensures |gaps[0]| < |s| && !IsSpace(s[|gaps[0]|])
    ensures forall k | 0 <= k < |gaps[0]| :: IsSpace(s[k])
  {
    WeaveHead(blocks, gaps);
    var k := |gaps[0]|;
    assert s[k..][0] == blocks[0][0];
    assert forall j | 0 <= j < k :: s[j] == s[..k][j];
  }

  /** Both layouts start their first block at the same place. */
  lemma FirstGap(s: string, b1: seq<string>, g1: seq<string>, b2: seq<string>, g2: seq<string>)
    requires Woven(s, b1, g1) && Woven(s, b2, g2) && Clean(b1) && Clean(b2)
    requires b1 != [] && b2 != []
    ensures |g1[0]| == |g2[0]|
  {
    FirstBlock(s, b1, g1);
    FirstBlock(s, b2, g2);
  }

  /** Past its first block, a layout is a layout of the rest of the text;
      when another block follows, the gap before it holds a blank line. */
  lemma WovenTail(s: string, blocks: seq<string>, gaps: seq<string>)
    requires Woven(s, blocks, gaps) && blocks != []
    ensures var p := |gaps[0]|; var q := p + |blocks[0]|;
      && q <= |s| && s[p..q] == blocks[0]
      && Woven(s[q..], blocks[1..], gaps[1..])
      && (blocks[1..] != [] ==> Contains(gaps[1..][0], BlankLine))
  {
    WeaveHead(blocks, gaps);
    var p := |gaps[0]|;
    var q := p + |blocks[0]|;
    var w := Weave(blocks[1..], gaps[1..]);
    assert s[p..] == blocks[0] + w;
    assert s[p..q] == blocks[0] && s[q..] == w by {
      assert s[p..][..|blocks[0]|] == blocks[0] && s[p..][|blocks[0]|..] == w;
    }
    assert Separated(blocks[1..], gaps[1..]) by {
      assert forall i | 0 <= i < |gaps[1..]| :: gaps[1..][i] == gaps[i + 1];
    }
  }

  /** A clean block starting where a block of length `n` starts is no longer:
      past `n` the text goes on with whitespace and then either ends or
      reaches a blank line before the next block. */
  lemma NotLonger(s: string, p: nat, n: nat, c: string, blocks: seq<string>, gaps: seq<string>)
    requires p + n <= |s| && Woven(s[p + n..], blocks, gaps)
    requires blocks != [] ==> Contains(gaps[0], BlankLine)
    requires OccursAt(s, c, p) && Trimmed(c) && !Contains(c, BlankLine)
    ensures |c| <= n
  {
    var q, g := p + n, gaps[0];
    var e := p + |c| - 1;
    assert s[e] == c[|c| - 1] by { assert s[p..p + |c|][|c| - 1] == s[e]; }
    WeaveHead(blocks, gaps);
    assert q + |g| <= |s| && s[q..q + |g|] == g by { assert s[q..][..|g|] == s[q..q + |g|]; }
    assert blocks == [] ==> q + |g| == |s|;
    GapSpaces(s, q, g);
    GapInside(s, p, c, q, g);
    ContainsChain(c, g, BlankLine);
  }

  /** The characters of a whitespace gap sitting at `q`. */
  lemma GapSpaces(s: string, q: nat, g: string)
    requires q + |g| <= |s| && s[q..q + |g|] == g && AllSpace(g)
    ensures forall k | q <= k < q + |g| :: IsSpace(s[k])
  {
    assert forall k | q <= k < q + |g| :: s[k] == g[k - q];
  }

  /** A piece of `s` that lies within an occurrence of `c` is a piece of `c`. */
  lemma GapInside(s: string, p: nat, c: string, q: nat, g: string)
    requires OccursAt(s, c, p) && p <= q && q + |g| <= |s| && s[q..q + |g|] == g
    ensures q + |g| <= p + |c| ==> Contains(c, g)
  {
    if q + |g| <= p + |c| {
      assert forall j | 0 <= j < |c| :: c[j] == s[p..p + |c|][j] == s[p + j];
      assert forall k | 0 <= k < |g| :: g[k] == s[q..q + |g|][k] == s[q + k];
      assert c[q - p..q - p + |g|] == g;
      assert OccursAt(c, g, q - p);
    }
  }

  lemma ContainsChain(a: string, b: string, c: string)
    ensures Contains(a, b) && Contains(b, c) ==> Contains(a, c)
  {
    if Contains(a, b) && Contains(b, c) {
      ContainsTransitive(a, b, c);
    }
  }

  /** A fenced code block: the first line, stripped, opens with three
      backticks and the last line, stripped, closes with them. */
  predicate IsCodeBlock(lines: seq<string>)
    requires |lines| > 0
  {
    StartsWith(Strip(lines[0]), "```") && EndsWith(Strip(lines[|lines| - 1]), "```")
  }

  predicate IsHash(c: char) {
    c == '#'
  }

  /** The first line of a heading: one to six `#` and then a space. The run
      of `#` is read in full, so a seventh `#` spoils it. */
  predicate IsHeadingLine(line: string) {
    var h := SkipWhile(line, 0, IsHash);
    1 <= h <= 6 && h < |line| && line[h] == ' '
  }

  function Hashes(n: nat): (r: string)
    ensures |r| == n && forall k | 0 <= k < n :: r[k] == '#'
  {
    seq(n, _ => '#')
  }

  /** The heading test is the pattern `#{1,6} ` anchored at the start: some
      count of one to six `#` followed by a space. */
  lemma HeadingLineIff(line: string)
    ensures IsHeadingLine(line) <==> exists n | 1 <= n <= 6 :: StartsWith(line, Hashes(n) + " ")
  {
    var h := SkipWhile(line, 0, IsHash);
    if IsHeadingLine(line) {
      assert line[..h + 1] == Hashes(h) + " ";
      assert StartsWith(line, Hashes(h) + " ");
    }
    if n :| 1 <= n <= 6 && StartsWith(line, Hashes(n) + " ") {
      assert forall k | 0 <= k < n :: line[k] == (Hashes(n) + " ")[k];
      assert line[n] == (Hashes(n) + " ")[n];
      SkipWhileAt(line, 0, IsHash, n);
    }
  }

  /** Every line, stripped, starts with `prefix`. */
  predicate AllStartWith(lines: seq<string>, prefix: string) {
    forall i | 0 <= i < |lines| :: StartsWith(Strip(lines[i]), prefix)
  }

  /** The marker of item `n` of an ordered list: `n. `. */
  function ItemMarker(n: nat): string {
    DecimalString(n) + ". "
  }

  /** Line `i`, stripped, starts with the marker of item `i + 1`. */
  predicate IsNumbered(lines: seq<string>) {
    forall i | 0 <= i < |lines| :: StartsWith(Strip(lines[i]), ItemMarker(i + 1))
  }

  /** The classification of a block's lines, first match wins: code,
      heading, quote, unordered list, ordered list, paragraph. */
  function Classify(lines: seq<string>): (t: BlockType)
    requires |lines| > 0
  {
    if IsCodeBlock(lines) then CodeBlock
    else if IsHeadingLine(lines[0]) then HeadingBlock
    else if AllStartWith(lines, ">") then QuoteBlock
    else if AllStartWith(lines, "- ") then UnorderedListBlock
    else if IsNumbered(lines) then OrderedListBlock
    else ParagraphBlock
  }

  /** `block_to_block_type` on a non-empty block (an empty one has no first
      line, and Python fails on it). */
  function BlockToBlockType(block: string): (t: BlockType)
    requires block != ""
    ensures |SplitLines(block)| > 0 && Means(SplitLines(block), t)
  {
    ClassifyMeans(SplitLines(block));
    Classify(SplitLines(block))
  }

  /** What each kind says about a block's lines: a code block is fenced; a
      heading's first line is one to six `#` and a space; every line of a
      quote starts with `>` and of an unordered list with `- `; line `i` of
      an ordered list starts with `i+1. `. A paragraph fails every test. */
  predicate Means(lines: seq<string>, t: BlockType)
    requires |lines| > 0
  {
    && (t == CodeBlock <==> IsCodeBlock(lines))
    && (t == HeadingBlock ==> exists n | 1 <= n <= 6 :: StartsWith(lines[0], Hashes(n) + " "))
    && (t == QuoteBlock ==> forall i | 0 <= i < |lines| :: StartsWith(Strip(lines[i]), ">"))
    && (t == UnorderedListBlock ==> forall i | 0 <= i < |lines| :: StartsWith(Strip(lines[i]), "- "))
    && (t == OrderedListBlock ==>
          forall i | 0 <= i < |lines| :: StartsWith(Strip(lines[i]), DecimalString(i + 1) + ". "))
    && (t == ParagraphBlock <==>
          (!IsCodeBlock(lines) && !IsHeadingLine(lines[0]) && !AllStartWith(lines, ">")
           && !AllStartWith(lines, "- ") && !IsNumbered(lines)))
  }

  lemma ClassifyMeans(lines: seq<string>)
    requires |lines| > 0
    ensures Means(lines, Classify(lines))
  {
    HeadingLineIff(lines[0]);
  }

  /** The meanings never overlap: a line list has at most one kind, so the
      kind `BlockToBlockType` reports is the only one its lines allow, and the
      order of the tests only matters for the code block. */
  lemma MeansUnique(lines: seq<string>, t1: BlockType, t2: BlockType)
    requires |lines| > 0 && Means(lines, t1) && Means(lines, t2)
    ensures t1 == t2
  {
    if IsMarked(t1) {
      MarkOf(lines[0], t1);
    }
    if IsMarked(t2) {
      MarkOf(lines[0], t2);
    }
  }

  /** The kinds told apart by the first character of the first line. */
  predicate IsMarked(t: BlockType) {
    t == HeadingBlock || t == QuoteBlock || t == UnorderedListBlock || t == OrderedListBlock
  }

  function Mark(t: BlockType): char {
    match t
    case HeadingBlock => '#'
    case QuoteBlock => '>'
    case UnorderedListBlock => '-'
    case _ => '1'
  }

  /** A heading, quote or list shows its kind in the first character of its
      first line, stripped. */
  lemma MarkOf(line: string, t: BlockType)
    requires IsMarked(t)
    requires t == HeadingBlock ==> exists n | 1 <= n <= 6 :: StartsWith(line, Hashes(n) + " ")
    requires t == QuoteBlock ==> StartsWith(Strip(line), ">")
    requires t == UnorderedListBlock ==> StartsWith(Strip(line), "- ")
    requires t == OrderedListBlock ==> StartsWith(Strip(line), DecimalString(1) + ". ")
    ensures Strip(line) != [] && Strip(line)[0] == Mark(t)
  {
    if t == HeadingBlock {
      var n :| 1 <= n <= 6 && StartsWith(line, Hashes(n) + " ");
      HeadingMark(line, n);
    } else if t == OrderedListBlock {
      PrefixMark(Strip(line), DecimalString(1) + ". ");
    } else if t == QuoteBlock {
      PrefixMark(Strip(line), ">");
    } else {
      PrefixMark(Strip(line), "- ");
    }
  }

  lemma HeadingMark(line: string, n: nat)
    requires 1 <= n <= 6 && StartsWith(line, Hashes(n) + " ")
    ensures Strip(line) != [] && Strip(line)[0] == '#'
  {
    assert line[0] == (Hashes(n) + " ")[0] == '#';
    StripKeepsFirst(line);
  }

  lemma PrefixMark(first: string, prefix: string)
    requires prefix != [] && StartsWith(first, prefix)
    ensures first != [] && first[0] == prefix[0]
  {
    assert first[0] == first[..|prefix|][0];
  }

  /** A line that starts with a character other than whitespace keeps that
      character first when stripped. */
  lemma StripKeepsFirst(line: string)
    requires line != [] && !IsSpace(line[0])
    ensures Strip(line) != [] && Strip(line)[0] == line[0]
  {
    StripPadded(line);
    var i :| 0 <= i <= |line| - |Strip(line)| && Padded(line, Strip(line), i);
    assert !AllSpace(line);
  }

  /** The ordered-list test as the source runs it: walk the lines, stop at
      the first one that does not carry its item marker. */
  method CheckOrdered(lines: seq<string>) returns (ordered: bool)
    ensures ordered <==> IsNumbered(lines)
  {
    ordered := true;
    var i := 0;
    while i < |lines|
      invariant 0 <= i <= |lines|
      invariant forall j | 0 <= j < i :: StartsWith(Strip(lines[j]), ItemMarker(j + 1))
    {
      if !StartsWith(Strip(lines[i]), ItemMarker(i + 1)) {
        ordered := false;
        break;
      }
      i := i + 1;
    }
  }

  /** Seven `#` do not make a heading. */
  lemma SevenHashesNotHeading(rest: string)
    ensures !IsHeadingLine(Hashes(7) + rest)
  {
    var line := Hashes(7) + rest;
    var h := SkipWhile(line, 0, IsHash);
    if h < 7 {
      assert line[h] == '#';
    }
  }

  /** A list numbered with a gap is not an ordered list. */
  lemma NumberingGap(lines: seq<string>)
    requires |lines| >= 2 && StartsWith(Strip(lines[1]), "3. ")
    ensures !IsNumbered(lines)
  {
    assert ItemMarker(2) == "2. ";
    assert Strip(lines[1])[0] == '3';
  }

  /** Items marked `1)` do not make an ordered list. */
  lemma ParenMarker(lines: seq<string>)
    requires |lines| >= 1 && StartsWith(Strip(lines[0]), "1)")
    ensures !IsNumbered(lines)
  {
    assert ItemMarker(1) == "1. ";
    assert Strip(lines[0])[1] == ')';
  }
}

=== FILE: convert.dfy ===
/** Turning one inline span into an HTML leaf. */
module Convert {
  import opened Wrappers
  import opened Strings
  import opened TextNodes
  import opened Html
  import opened Spans

  /** The error raised for a link or image span without a url. */
  datatype ConvertError = MissingUrl(kind: TextType)

  /** A url Python treats as present: not `None` and not empty. */
  predicate HasUrl(n: TextNode) {
    n.url.Some? && n.url.value != ""
  }

  /** The tag each styled kind is rendered with. */
  function StyleTag(k: TextType): string
    requires IsStyle(k)
  {
    match k
    case Bold => "b"
    case Italic => "i"
    case _ => "code"
  }

  /** `text_node_to_html_node`: plain text becomes an untagged leaf; bold,
      italic and code become `b`, `i` and `code` leaves; a link becomes an `a`
      leaf with an `href`; an image becomes an `img` leaf with an empty value
      and a `src` then an `alt`. A link or image with no url, or an empty
      one, is an error. */
  function TextNodeToHtml(n: TextNode): (r: Result<Node, ConvertError>)
    ensures r.Failure? <==> (n.textType == Link || n.textType == Image) && !HasUrl(n)
    ensures r.Failure? ==> r.error == MissingUrl(n.textType)
    ensures r.Success? ==> r.value.Leaf? && Renderable(r.value)
    ensures r.Success? ==> (r.value.tag.None? <==> n.textType == Text)
    ensures r.Success? && n.textType != Image ==> r.value.value == Some(n.text)
    ensures r.Success? && n.textType in {Text, Bold, Italic, Code} ==> r.value.props.None?
  {
    match n.textType
    case Text => Success(Leaf(None, Some(n.text), None))
    case Bold => Success(Leaf(Some(StyleTag(Bold)), Some(n.text), None))
    case Italic => Success(Leaf(Some(StyleTag(Italic)), Some(n.text), None))
    case Code => Success(Leaf(Some(StyleTag(Code)), Some(n.text), None))
    case Link =>
      if !HasUrl(n) then Failure(MissingUrl(Link))
      else Success(Leaf(Some("a"), Some(n.text), Some([Attr("href", n.url.value)])))
    case Image =>
      if !HasUrl(n) then Failure(MissingUrl(Image))
      else Success(Leaf(Some("img"), Some(""), Some([Attr("src", n.url.value), Attr("alt", n.text)])))
  }

  /** The HTML a plain, bold, italic or code span turns into. */
  lemma TextNodeHtmlStyled(n: TextNode)
    requires n.textType in {Text, Bold, Italic, Code}
    ensures TextNodeToHtml(n).Success?
    ensures n.textType == Text ==> ToHtml(TextNodeToHtml(n).value) == Success(n.text)
    ensures n.textType == Bold ==> ToHtml(TextNodeToHtml(n).value) == Success("<b>" + n.text + "</b>")
    ensures n.textType == Italic ==> ToHtml(TextNodeToHtml(n).value) == Success("<i>" + n.text + "</i>")
    ensures n.textType == Code ==> ToHtml(TextNodeToHtml(n).value) == Success("<code>" + n.text + "</code>")
  {
    if n.textType != Text {
      var tag := StyleTag(n.textType);
      WrappedElement(tag, n.text);
      assert "<" + "b" + ">" == "<b>" && "</" + "b" + ">" == "</b>";
      assert "<" + "i" + ">" == "<i>" && "</" + "i" + ">" == "</i>";
      assert "<" + "code" + ">" == "<code>" && "</" + "code" + ">" == "</code>";
    }
  }

  /** An element without attributes is its text between the open and close
      tags. */
  lemma WrappedElement(tag: string, t: string)
    ensures Element(tag, None, t) == ("<" + tag + ">") + t + ("</" + tag + ">")
  {
    Assoc3("<" + tag + ">" + t, "</", tag, ">");
  }

  /** The HTML a link span with a url turns into: `<a href="url">text</a>`. */
  lemma TextNodeHtmlLink(n: TextNode)
    requires n.textType == Link && HasUrl(n)
    ensures TextNodeToHtml(n).Success?
    ensures ToHtml(TextNodeToHtml(n).value) == Success("<a href=\"" + n.url.value + "\">" + n.text + "</a>")
  {
    var u, t := n.url.value, n.text;
    var props := Some([Attr("href", u)]);
    var attrs := " href=\"" + u + "\"";
    assert PropsToHtml(props) == attrs by {
      AttrsHtmlInOrder([Attr("href", u)], 0);
    }
    calc {
      Element("a", props, t);
      "<" + "a" + attrs + ">" + t + "</" + "a" + ">";
      { Assoc3("<" + "a" + attrs + ">" + t, "</", "a", ">"); }
      "<" + "a" + attrs + ">" + t + "</a>";
      { Assoc3("<" + "a", " href=\"" + u, "\"", ">");
        Assoc3("<", "a", " href=\"", u);
        assert "<" + "a" + " href=\"" == "<a href=\"";
        assert "\"" + ">" == "\">"; }
      "<a href=\"" + u + "\">" + t + "</a>";
    }
  }

  /** The HTML an image span with a url turns into:
      `<img src="url" alt="text"></img>`. */
  lemma TextNodeHtmlImage(n: TextNode)
    requires n.textType == Image && HasUrl(n)
    ensures TextNodeToHtml(n).Success?
    ensures ToHtml(TextNodeToHtml(n).value) == Success("<img src=\"" + n.url.value + "\" alt=\"" + n.text + "\"></img>")
  {
    ImageElement(n.url.value, n.text);
  }

  /** An `img` element with a `src` and an `alt`, written out. */
  lemma ImageElement(u: string, t: string)
    ensures Element("img", Some([Attr("src", u), Attr("alt", t)]), "") == "<img src=\"" + u + "\" alt=\"" + t + "\"></img>"
  {
    var ps := [Attr("src", u), Attr("alt", t)];
    var attrs := " src=\"" + u + "\"" + " alt=\"" + t + "\"";
    assert PropsToHtml(Some(ps)) == attrs by {
      AttrsHtmlInOrder(ps, 0);
      AttrsHtmlInOrder(ps[1..], 0);
      assert ps[1..][1..] == [];
    }
    ImageText(u, t, attrs);
  }

  /** The characters of the `img` element, regrouped. */
  lemma ImageText(u: string, t: string, attrs: string)
    requires attrs == " src=\"" + u + "\"" + " alt=\"" + t + "\""
    ensures "<" + "img" + attrs + ">" + "" + "</" + "img" + ">" == "<img src=\"" + u + "\" alt=\"" + t + "\"></img>"
  {
    var x, y, z := "<img src=\"", "\" alt=\"", "\"></img>";
    assert |"<" + "img" + attrs + ">" + "" + "</" + "img" + ">"| == |x + u + y + t + z|;
    forall k | 0 <= k < |x + u + y + t + z|
      ensures ("<" + "img" + attrs + ">" + "" + "</" + "img" + ">")[k] == (x + u + y + t + z)[k]
    {
    }
  }
}

=== FILE: delimiters.dfy ===
/** Splitting plain-text spans on one style delimiter (`**`, `_` or a
    backtick). */
module Delimiters {
  import opened Wrappers
  import opened Strings
  import opened TextNodes
  import opened Spans

  /** Some styled (odd-indexed) segment holds one of the other delimiters. */
  predicate HasNested(segments: seq<string>, delimiter: string) {
    exists i | 0 <= i < |segments| && i % 2 == 1 ::
      exists j | 0 <= j < |AllDelimiters| :: AllDelimiters[j] != delimiter && Contains(segments[i], AllDelimiters[j])
  }

  /** The spans for segments `i..`: even-indexed ones as plain text (dropped
      when empty), odd-indexed ones as `kind`. */
  function Emit(segments: seq<string>, kind: TextType, i: nat): seq<TextNode>
    decreases |segments| - i
  {
    if i >= |segments| then []
    else
      var head := if i % 2 == 1 then [TextNode(segments[i], kind)]
                  else if segments[i] == "" then []
                  else [TextNode(segments[i], Text)];
      head + Emit(segments, kind, i + 1)
  }

  /** Every emitted span is a non-empty plain span or a span of `kind`, and
      none has a url. */
  lemma {:induction false} EmitShape(segments: seq<string>, kind: TextType, i: nat)
    ensures forall j | 0 <= j < |Emit(segments, kind, i)| :: Emit(segments, kind, i)[j].url.None?
    ensures forall j | 0 <= j < |Emit(segments, kind, i)| ::
              var n := Emit(segments, kind, i)[j]; (n.textType == Text && n.text != "") || n.textType == kind
    decreases |segments| - i
  {
    if i < |segments| {
      EmitShape(segments, kind, i + 1);
      EmitUnfold(segments, kind, i);
      var head := SegmentNode(segments, kind, i);
      var rest := Emit(segments, kind, i + 1);
      assert forall j | 0 <= j < |rest| :: (head + rest)[|head| + j] == rest[j];
    }
  }

  /** The span, if any, for segment `i` alone. */
  function SegmentNode(segments: seq<string>, kind: TextType, i: nat): seq<TextNode>
    requires i < |segments|
  {
    if i % 2 == 1 then [TextNode(segments[i], kind)]
    else if segments[i] == "" then []
    else [TextNode(segments[i], Text)]
  }

  lemma EmitUnfold(segments: seq<string>, kind: TextType, i: nat)
    requires i < |segments|
    ensures Emit(segments, kind, i) == SegmentNode(segments, kind, i) + Emit(segments, kind, i + 1)
  {
  }

  /** A plain span whose text splits into three segments becomes the outer
      two as plain text, each dropped when empty, around the middle one as
      `kind`. */
  lemma SplitThree(text: string, delimiter: string, kind: TextType, a: string, b: string, c: string)
    requires |delimiter| > 0 && text != ""
    requires Split(text, delimiter) == [a, b, c]
    requires delimiter == "`" || !HasNested([a, b, c], delimiter)
    ensures SplitNodesDelimiter([TextNode(text, Text)], delimiter, kind)
         == PlainOf(a) + [TextNode(b, kind)] + PlainOf(c)
  {
    assert SplitNodesDelimiter([TextNode(text, Text)], delimiter, kind) == Emit([a, b, c], kind, 0) by {
      assert [TextNode(text, Text)][1..] == [];
    }
    EmitThree(a, b, c, kind);
  }

  lemma EmitThree(a: string, b: string, c: string, kind: TextType)
    ensures Emit([a, b, c], kind, 0) == PlainOf(a) + [TextNode(b, kind)] + PlainOf(c)
  {
    var segments := [a, b, c];
    assert Emit(segments, kind, 2) == PlainOf(c) by { EmitUnfold(segments, kind, 2); }
    assert Emit(segments, kind, 1) == [TextNode(b, kind)] + PlainOf(c) by { EmitUnfold(segments, kind, 1); }
    EmitUnfold(segments, kind, 0);
  }

  /** Three segments whose middle one holds no delimiter character have
      nothing nested. */
  lemma NoNestedThree(a: string, b: string, c: string, delimiter: string)
    requires '*' !in b && '_' !in b && '`' !in b
    ensures !HasNested([a, b, c], delimiter)
  {
    forall j | 0 <= j < |AllDelimiters|
      ensures !Contains(b, AllDelimiters[j])
    {
      NotContainsChar(b, AllDelimiters[j]);
    }
  }

  /** A plain span whose text holds the delimiter once is kept as it is. */
  lemma SplitTwo(text: string, delimiter: string, kind: TextType, a: string, b: string)
    requires |delimiter| > 0 && text != ""
    requires Split(text, delimiter) == [a, b]
    ensures SplitNodesDelimiter([TextNode(text, Text)], delimiter, kind) == [TextNode(text, Text)]
  {
    assert [TextNode(text, Text)][1..] == [];
  }

  /** A plain span `a d b d c`, where no piece holds the delimiter's first
      character and the middle one holds no other delimiter, becomes `b` as
      `kind` between the plain pieces around it. */
  lemma SplitAround(a: string, delimiter: string, b: string, c: string, kind: TextType)
    requires |delimiter| > 0
    requires delimiter[0] !in a && delimiter[0] !in b && delimiter[0] !in c
    requires delimiter == "`" || ('*' !in b && '_' !in b && '`' !in b)
    ensures SplitNodesDelimiter([TextNode(a + delimiter + b + delimiter + c, Text)], delimiter, kind)
         == PlainOf(a) + [TextNode(b, kind)] + PlainOf(c)
  {
    var text := a + delimiter + b + delimiter + c;
    assert Split(text, delimiter) == [a, b, c] by { SplitTwice(a, delimiter, b, c); }
    assert delimiter == "`" || !HasNested([a, b, c], delimiter) by {
      if delimiter != "`" {
        NoNestedThree(a, b, c, delimiter);
      }
    }
    assert |text| > 0;
    SplitThree(text, delimiter, kind, a, b, c);
  }

  /** A plain backtick span `a d b d c d e d f` becomes `b` and `e` as
      `kind`, with the plain pieces around them. */
  lemma SplitAroundTwo(a: string, delimiter: string, b: string, c: string, e: string, f: string, kind: TextType)
    requires delimiter == "`"
    requires delimiter[0] !in a && delimiter[0] !in b && delimiter[0] !in c && delimiter[0] !in e && delimiter[0] !in f
    ensures var text := a + (delimiter + b + delimiter) + c + (delimiter + e + delimiter) + f;
      SplitNodesDelimiter([TextNode(text, Text)], delimiter, kind)
         == PlainOf(a) + [TextNode(b, kind)] + PlainOf(c) + [TextNode(e, kind)] + PlainOf(f)
  {
    var text := a + (delimiter + b + delimiter) + c + (delimiter + e + delimiter) + f;
    assert Split(text, delimiter) == [a, b, c, e, f] by {
      Ungroup(a, delimiter, b, c, e, f);
      SplitFourTimes(a, delimiter, b, c, e, f);
    }
    SplitFive(text, delimiter, kind, a, b, c, e, f);
  }

  /** A plain backtick span whose text splits into five segments becomes
      the second and fourth as `kind` between the plain others. */
  lemma SplitFive(text: string, delimiter: string, kind: TextType, a: string, b: string, c: string, e: string, f: string)
    requires delimiter == "`" && text != ""
    requires Split(text, delimiter) == [a, b, c, e, f]
    ensures SplitNodesDelimiter([TextNode(text, Text)], delimiter, kind)
         == PlainOf(a) + [TextNode(b, kind)] + PlainOf(c) + [TextNode(e, kind)] + PlainOf(f)
  {
    assert SplitNodesDelimiter([TextNode(text, Text)], delimiter, kind) == Emit([a, b, c, e, f], kind, 0) by {
      assert [TextNode(text, Text)][1..] == [];
    }
    EmitFive(a, b, c, e, f, kind);
  }

  lemma Ungroup(a: string, d: string, b: string, c: string, e: string, f: string)
    ensures a + (d + b + d) + c + (d + e + d) + f == a + d + b + d + c + d + e + d + f
  {
  }

  lemma EmitFive(a: string, b: string, c: string, e: string, f: string, kind: TextType)
    ensures Emit([a, b, c, e, f], kind, 0)
         == PlainOf(a) + [TextNode(b, kind)] + PlainOf(c) + [TextNode(e, kind)] + PlainOf(f)
  {
    var segments := [a, b, c, e, f];
    var nb, ne := [TextNode(b, kind)], [TextNode(e, kind)];
    calc {
      Emit(segments, kind, 0);
    == { EmitUnfold(segments, kind, 0); }
      PlainOf(a) + Emit(segments, kind, 1);
    == { EmitUnfold(segments, kind, 1); }
      PlainOf(a) + (nb + Emit(segments, kind, 2));
    == { EmitUnfold(segments, kind, 2); }
      PlainOf(a) + (nb + (PlainOf(c) + Emit(segments, kind, 3)));
    == { EmitUnfold(segments, kind, 3); }
      PlainOf(a) + (nb + (PlainOf(c) + (ne + Emit(segments, kind, 4))));
    == { EmitUnfold(segments, kind, 4); assert Emit(segments, kind, 5) == []; }
      PlainOf(a) + (nb + (PlainOf(c) + (ne + (PlainOf(f) + []))));
    == { Flatten(PlainOf(a), nb, PlainOf(c), ne, PlainOf(f)); }
      PlainOf(a) + nb + PlainOf(c) + ne + PlainOf(f);
    }
  }

  lemma Flatten<T>(a: seq<T>, b: seq<T>, c: seq<T>, d: seq<T>, e: seq<T>)
    ensures a + (b + (c + (d + (e + [])))) == a + b + c + d + e
  {
    assert e + [] == e;
  }

  /** A plain span with no delimiter is kept as it is. */
  lemma SplitAbsentNode(a: string, delimiter: string, kind: TextType)
    requires |delimiter| > 0 && delimiter[0] !in a && a != ""
    ensures SplitNodesDelimiter([TextNode(a, Text)], delimiter, kind) == [TextNode(a, Text)]
  {
    SplitAbsent(a, delimiter);
    assert [TextNode(a, Text)][1..] == [];
  }

  /** A plain span `a d b` with a single delimiter is kept as it is. */
  lemma SplitUnmatched(a: string, delimiter: string, b: string, kind: TextType)
    requires |delimiter| > 0 && delimiter[0] !in a && delimiter[0] !in b
    ensures var n := TextNode(a + delimiter + b, Text);
      SplitNodesDelimiter([n], delimiter, kind) == [n]
  {
    var text := a + delimiter + b;
    assert Split(text, delimiter) == [a, b] by { SplitOnce(a, delimiter, b); }
    SplitTwo(text, delimiter, kind, a, b);
  }

  /** Whatever holds of every segment holds of every emitted span's text. */
  lemma {:induction false} EmitKeeps(segments: seq<string>, kind: TextType, i: nat, P: string -> bool)
    requires forall m | i <= m < |segments| :: P(segments[m])
    ensures forall j | 0 <= j < |Emit(segments, kind, i)| :: P(Emit(segments, kind, i)[j].text)
    decreases |segments| - i
  {
    if i < |segments| {
      EmitKeeps(segments, kind, i + 1, P);
    }
  }

  /** Emitted spans are well formed when every styled segment is clean. */
  lemma {:induction false} EmitWellFormed(segments: seq<string>, kind: TextType, i: nat)
    requires IsStyle(kind)
    requires forall m | i <= m < |segments| && m % 2 == 1 :: StyleClean(kind, segments[m])
    ensures AllWellFormed(Emit(segments, kind, i))
    decreases |segments| - i
  {
    if i < |segments| {
      EmitWellFormed(segments, kind, i + 1);
      EmitUnfold(segments, kind, i);
      assert AllWellFormed(SegmentNode(segments, kind, i));
      AllWellFormedAppend(SegmentNode(segments, kind, i), Emit(segments, kind, i + 1));
    }
  }

  /** The segments are turned into spans. */
  predicate SplitApplies(segments: seq<string>, delimiter: string) {
    && |segments| >= 3
    && |segments| % 2 == 1
    && (delimiter == "`" || !HasNested(segments, delimiter))
  }

  /** One span through the delimiter pass. A styled span, image or link is
      kept; an empty plain span is dropped; a plain span whose text has no
      delimiter, an odd number of them, or (for `**` and `_`) a styled segment
      holding another delimiter is kept as it is; otherwise its segments
      become alternating plain and styled spans, none holding the delimiter. */
  function SplitNodeDelimiter(n: TextNode, delimiter: string, kind: TextType): (r: seq<TextNode>)
    requires |delimiter| > 0
    ensures n.textType != Text ==> r == [n]
    ensures n.textType == Text && n.text == "" ==> r == []
    ensures n.textType == Text && n.text != "" && !SplitApplies(Split(n.text, delimiter), delimiter) ==> r == [n]
    ensures n.textType == Text && SplitApplies(Split(n.text, delimiter), delimiter) ==>
              forall j | 0 <= j < |r| :: !Contains(r[j].text, delimiter) && r[j].url.None?
    ensures forall j | 0 <= j < |r| :: r[j] == n || (r[j].textType == Text && r[j].text != "") || r[j].textType == kind
  {
    if n.textType != Text then [n]
    else if n.text == "" then []
    else
      var segments := Split(n.text, delimiter);
      if |segments| < 3 || |segments| % 2 == 0 then [n]
      else if delimiter != "`" && HasNested(segments, delimiter) then [n]
      else
        EmitKeeps(segments, kind, 0, t => !Contains(t, delimiter));
        EmitShape(segments, kind, 0);
        Emit(segments, kind, 0)
  }

  /** `split_nodes_delimiter`: every span through the pass, in order. */
  function SplitNodesDelimiter(nodes: seq<TextNode>, delimiter: string, kind: TextType): (r: seq<TextNode>)
    requires |delimiter| > 0
    ensures forall j | 0 <= j < |r| :: r[j] in nodes || (r[j].textType == Text && r[j].text != "") || r[j].textType == kind
    decreases |nodes|
  {
    if nodes == [] then []
    else
      var head := SplitNodeDelimiter(nodes[0], delimiter, kind);
      var rest := SplitNodesDelimiter(nodes[1..], delimiter, kind);
      assert forall j | 0 <= j < |rest| :: (head + rest)[|head| + j] == rest[j];
      head + rest
  }

  /** The pass works span by span and keeps their order: the pass over two
      runs of spans, one after the other, is the pass over each. */
  lemma {:induction false} SplitNodesDelimiterAppend(a: seq<TextNode>, b: seq<TextNode>, delimiter: string, kind: TextType)
    requires |delimiter| > 0
    ensures SplitNodesDelimiter(a + b, delimiter, kind)
         == SplitNodesDelimiter(a, delimiter, kind) + SplitNodesDelimiter(b, delimiter, kind)
    decreases |a|
  {
    if a == [] {
      assert a + b == b;
    } else {
      assert (a + b)[0] == a[0];
      assert (a + b)[1..] == a[1..] + b;
      SplitNodesDelimiterAppend(a[1..], b, delimiter, kind);
    }
  }

  /** Spans with no plain text among them come through the pass unchanged. */
  lemma {:induction false} SplitNodesDelimiterKeeps(nodes: seq<TextNode>, delimiter: string, kind: TextType)
    requires |delimiter| > 0
    requires forall i | 0 <= i < |nodes| :: nodes[i].textType != Text
    ensures SplitNodesDelimiter(nodes, delimiter, kind) == nodes
    decreases |nodes|
  {
    if nodes != [] {
      SplitNodesDelimiterKeeps(nodes[1..], delimiter, kind);
      assert [nodes[0]] + nodes[1..] == nodes;
    }
  }

  /** The texts of the spans of kind `k`, in order. */
  function TextsOf(ns: seq<TextNode>, k: TextType): seq<string>
    decreases |ns|
  {
    if ns == [] then [] else (if ns[0].textType == k then [ns[0].text] else []) + TextsOf(ns[1..], k)
  }

  lemma {:induction false} TextsOfAppend(a: seq<TextNode>, b: seq<TextNode>, k: TextType)
    ensures TextsOf(a + b, k) == TextsOf(a, k) + TextsOf(b, k)
    decreases |a|
  {
    if a == [] {
      assert a + b == b;
    } else {
      var head := if a[0].textType == k then [a[0].text] else [];
      calc {
        TextsOf(a + b, k);
        { assert (a + b)[0] == a[0] && (a + b)[1..] == a[1..] + b; }
        head + TextsOf(a[1..] + b, k);
        { TextsOfAppend(a[1..], b, k); }
        head + (TextsOf(a[1..], k) + TextsOf(b, k));
        head + TextsOf(a[1..], k) + TextsOf(b, k);
      }
    }
  }

  /** The odd-indexed segments from `i` on, in order. */
  function OddSegments(segments: seq<string>, i: nat): seq<string>
    decreases |segments| - i
  {
    if i >= |segments| then []
    else (if i % 2 == 1 then [segments[i]] else []) + OddSegments(segments, i + 1)
  }

  /** The non-empty even-indexed segments from `i` on, in order. */
  function PlainSegments(segments: seq<string>, i: nat): seq<string>
    decreases |segments| - i
  {
    if i >= |segments| then []
    else (if i % 2 == 0 && segments[i] != "" then [segments[i]] else []) + PlainSegments(segments, i + 1)
  }

  /** Which segment becomes which span: the styled spans carry the
      odd-indexed segments, empty ones included, and the plain spans carry the
      non-empty even-indexed ones, each in order. */
  lemma {:induction false} EmitSegments(segments: seq<string>, kind: TextType, i: nat)
    requires kind != Text
    ensures TextsOf(Emit(segments, kind, i), kind) == OddSegments(segments, i)
    ensures TextsOf(Emit(segments, kind, i), Text) == PlainSegments(segments, i)
    decreases |segments| - i
  {
    if i < |segments| {
      EmitUnfold(segments, kind, i);
      EmitSegments(segments, kind, i + 1);
      TextsOfAppend(SegmentNode(segments, kind, i), Emit(segments, kind, i + 1), kind);
      TextsOfAppend(SegmentNode(segments, kind, i), Emit(segments, kind, i + 1), Text);
    }
  }

  /** A plain span that the pass splits becomes one styled span per
      odd-indexed segment of its text and one plain span per non-empty
      even-indexed segment, each in order, and nothing else. The styled
      span for segment `2k+1` comes right after the plain spans of the
      segments before it. */
  lemma SplitNodeDelimiterSegments(n: TextNode, delimiter: string, kind: TextType)
    requires |delimiter| > 0 && kind != Text && n.textType == Text
    requires SplitApplies(Split(n.text, delimiter), delimiter)
    ensures var r, segments := SplitNodeDelimiter(n, delimiter, kind), Split(n.text, delimiter);
      && TextsOf(r, kind) == OddSegments(segments, 0)
      && TextsOf(r, Text) == PlainSegments(segments, 0)
      && (forall j | 0 <= j < |r| :: r[j].textType in {Text, kind} && r[j].url.None?)
      && forall j | 0 <= j < |r| && r[j].textType == kind :: Placed(segments, 0, r, j, kind)
  {
    var segments := Split(n.text, delimiter);
    SplitNodeEmits(n, delimiter, kind);
    EmitFacts(segments, kind);
  }

  /** A plain span the pass splits becomes the emission of its segments. */
  lemma SplitNodeEmits(n: TextNode, delimiter: string, kind: TextType)
    requires |delimiter| > 0 && n.textType == Text
    requires SplitApplies(Split(n.text, delimiter), delimiter)
    ensures SplitNodeDelimiter(n, delimiter, kind) == Emit(Split(n.text, delimiter), kind, 0)
  {
  }

  lemma EmitFacts(segments: seq<string>, kind: TextType)
    requires kind != Text
    ensures var r := Emit(segments, kind, 0);
      && TextsOf(r, kind) == OddSegments(segments, 0)
      && TextsOf(r, Text) == PlainSegments(segments, 0)
      && (forall j | 0 <= j < |r| :: r[j].textType in {Text, kind} && r[j].url.None?)
      && forall j | 0 <= j < |r| && r[j].textType == kind :: Placed(segments, 0, r, j, kind)
  {
    var r := Emit(segments, kind, 0);
    EmitSegments(segments, kind, 0);
    EmitShape(segments, kind, 0);
    forall j | 0 <= j < |r|
      ensures r[j].textType in {Text, kind}
    {
    }
    EmitStyledPlaces(segments, kind);
  }

  /** Every styled span of an emission, placed among the plain ones. */
  lemma EmitStyledPlaces(segments: seq<string>, kind: TextType)
    requires kind != Text
    ensures var r := Emit(segments, kind, 0);
      forall j | 0 <= j < |r| && r[j].textType == kind :: Placed(segments, 0, r, j, kind)
  {
    var r := Emit(segments, kind, 0);
    forall j | 0 <= j < |r| && r[j].textType == kind
      ensures Placed(segments, 0, r, j, kind)
    {
      EmitStyledAt(segments, kind, 0, j);
    }
  }

  /** The styled span at `j` of spans `r` emitted from the even segment `i`
      carries segment `i+2k+1`, where `k` counts the styled spans before it,
      and the plain spans before it are exactly those of segments `i` to
      `i+2k`. */
  predicate Placed(segments: seq<string>, i: nat, r: seq<TextNode>, j: nat, kind: TextType)
    requires j < |r|
  {
    var k := |TextsOf(r[..j], kind)|;
    && i + 2 * k + 1 < |segments| && r[j].text == segments[i + 2 * k + 1]
    && TextsOf(r[..j], Text) == PlainSegments(segments[..i + 2 * k + 1], i)
  }

  /** Where the styled spans of an emission from an even segment `i` sit:
      the `k`-th of them carries segment `i+2k+1`, and the plain spans before
      it are exactly those of segments `i` to `i+2k`. */
  lemma {:induction false} EmitStyledAt(segments: seq<string>, kind: TextType, i: nat, j: nat)
    requires kind != Text && i % 2 == 0
    requires j < |Emit(segments, kind, i)| && Emit(segments, kind, i)[j].textType == kind
    ensures Placed(segments, i, Emit(segments, kind, i), j, kind)
    decreases |segments| - i
  {
    var head := SegmentNode(segments, kind, i);
    assert i + 1 < |segments| && |head| <= j by {
      EmitAhead(segments, kind, i, j);
    }
    if j == |head| {
      EmitFirst(segments, kind, i, j);
    } else {
      var j' := j - |head| - 1;
      assert j' < |Emit(segments, kind, i + 2)| && Emit(segments, kind, i + 2)[j'] == Emit(segments, kind, i)[j] by {
        EmitAhead(segments, kind, i, j);
      }
      EmitStyledAt(segments, kind, i + 2, j');
      EmitLater(segments, kind, i, j);
    }
  }

  lemma EmitFirst(segments: seq<string>, kind: TextType, i: nat, j: nat)
    requires kind != Text && i % 2 == 0
    requires j < |Emit(segments, kind, i)| && Emit(segments, kind, i)[j].textType == kind
    requires j == |SegmentNode(segments, kind, i)|
    ensures Placed(segments, i, Emit(segments, kind, i), j, kind)
  {
    EmitAhead(segments, kind, i, j);
    StyledFirst(segments, kind, i, Emit(segments, kind, i), SegmentNode(segments, kind, i), Emit(segments, kind, i + 2));
  }

  lemma EmitLater(segments: seq<string>, kind: TextType, i: nat, j: nat)
    requires kind != Text && i % 2 == 0
    requires j < |Emit(segments, kind, i)| && Emit(segments, kind, i)[j].textType == kind
    requires j > |SegmentNode(segments, kind, i)| && i + 1 < |segments|
    requires j - |SegmentNode(segments, kind, i)| - 1 < |Emit(segments, kind, i + 2)|
    requires Placed(segments, i + 2, Emit(segments, kind, i + 2), j - |SegmentNode(segments, kind, i)| - 1, kind)
    ensures Placed(segments, i, Emit(segments, kind, i), j, kind)
  {
    var r, head, rest := Emit(segments, kind, i), SegmentNode(segments, kind, i), Emit(segments, kind, i + 2);
    var j' := j - |head| - 1;
    var x := TextNode(segments[i + 1], kind);
    assert r[j] == rest[j']
        && TextsOf(r[..j], kind) == [x.text] + TextsOf(rest[..j'], kind)
        && TextsOf(r[..j], Text) == TextsOf(head, Text) + TextsOf(rest[..j'], Text) by {
      EmitAhead(segments, kind, i, j);
      SegmentTexts(segments, kind, i);
      PrefixAfter(r, head, x, rest, j, kind);
    }
    StyledLater(segments, kind, i, r, head, rest, j, j');
  }

  /** The first styled span of an emission from an even segment `i`. */
  lemma StyledFirst(segments: seq<string>, kind: TextType, i: nat, r: seq<TextNode>, head: seq<TextNode>, rest: seq<TextNode>)
    requires kind != Text && i % 2 == 0 && i + 1 < |segments|
    requires head == SegmentNode(segments, kind, i)
    requires r == head + [TextNode(segments[i + 1], kind)] + rest
    ensures Placed(segments, i, r, |head|, kind)
  {
    assert r[..|head|] == head;
    PlainBefore(segments, kind, i, i + 1);
  }

  /** A later styled span: its place in the emission from `i + 2`, seen
      from `i`, where the spans before it are those for segment `i`, the
      styled span for segment `i + 1` and the first `j'` of `rest`. */
  lemma StyledLater(segments: seq<string>, kind: TextType, i: nat, r: seq<TextNode>, head: seq<TextNode>, rest: seq<TextNode>, j: nat, j': nat)
    requires kind != Text && i % 2 == 0 && i + 1 < |segments|
    requires head == SegmentNode(segments, kind, i)
    requires j < |r| && j' < |rest| && r[j] == rest[j']
    requires TextsOf(r[..j], kind) == [segments[i + 1]] + TextsOf(rest[..j'], kind)
    requires TextsOf(r[..j], Text) == TextsOf(head, Text) + TextsOf(rest[..j'], Text)
    requires Placed(segments, i + 2, rest, j', kind)
    ensures Placed(segments, i, r, j, kind)
  {
    var k' := |TextsOf(rest[..j'], kind)|;
    var e := i + 2 * k' + 3;
    assert e < |segments| && rest[j'].text == segments[e]
        && TextsOf(rest[..j'], Text) == PlainSegments(segments[..e], i + 2);
    assert |TextsOf(r[..j], kind)| == k' + 1;
    assert TextsOf(r[..j], Text) == PlainSegments(segments[..e], i) by {
      PlainBefore(segments, kind, i, e);
    }
  }

  /** An emission from an even segment with a styled span in it: the span
      for segment `i`, the styled span for segment `i+1`, and the rest. */
  lemma EmitAhead(segments: seq<string>, kind: TextType, i: nat, j: nat)
    requires kind != Text && i % 2 == 0
    requires j < |Emit(segments, kind, i)| && Emit(segments, kind, i)[j].textType == kind
    ensures i + 1 < |segments| && |SegmentNode(segments, kind, i)| <= j
    ensures Emit(segments, kind, i)
         == SegmentNode(segments, kind, i) + [TextNode(segments[i + 1], kind)] + Emit(segments, kind, i + 2)
  {
    var r := Emit(segments, kind, i);
    var head := SegmentNode(segments, kind, i);
    EmitUnfold(segments, kind, i);
    assert forall q | 0 <= q < |head| :: r[q] == head[q] && head[q].textType == Text;
    assert |r| == |head| + |Emit(segments, kind, i + 1)|;
    EmitUnfold(segments, kind, i + 1);
  }

  /** Position `j` past a styled span `x` in `head + [x] + rest`: what comes
      before it is `head`, `x` and the start of `rest`. */
  lemma PrefixAfter(r: seq<TextNode>, head: seq<TextNode>, x: TextNode, rest: seq<TextNode>, j: nat, kind: TextType)
    requires r == head + [x] + rest && |head| < j < |r|
    requires kind != Text && x.textType == kind && TextsOf(head, kind) == []
    ensures var j' := j - |head| - 1;
      && r[j] == rest[j']
      && TextsOf(r[..j], kind) == [x.text] + TextsOf(rest[..j'], kind)
      && TextsOf(r[..j], Text) == TextsOf(head, Text) + TextsOf(rest[..j'], Text)
  {
    var j' := j - |head| - 1;
    var front := rest[..j'];
    assert r[..j] == head + [x] + front;
    assert TextsOf(r[..j], kind) == [x.text] + TextsOf(front, kind) by {
      TextsOfThree(head, x, front, kind);
      TextsOfSingle(x, kind);
      assert [] + [x.text] == [x.text];
    }
    assert TextsOf(r[..j], Text) == TextsOf(head, Text) + TextsOf(front, Text) by {
      TextsOfThree(head, x, front, Text);
      TextsOfSingle(x, Text);
      assert TextsOf(head, Text) + [] == TextsOf(head, Text);
    }
  }

  lemma TextsOfThree(head: seq<TextNode>, x: TextNode, front: seq<TextNode>, t: TextType)
    ensures TextsOf(head + [x] + front, t) == TextsOf(head, t) + TextsOf([x], t) + TextsOf(front, t)
  {
    TextsOfAppend(head + [x], front, t);
    TextsOfAppend(head, [x], t);
  }

  lemma TextsOfSingle(n: TextNode, t: TextType)
    ensures TextsOf([n], t) == if n.textType == t then [n.text] else []
  {
    assert [n][1..] == [];
  }

  /** The plain spans of segment `i` and the segments after it up to `e`,
      for an even `i` with `i < e`. */
  lemma PlainBefore(segments: seq<string>, kind: TextType, i: nat, e: nat)
    requires kind != Text && i % 2 == 0 && i < e <= |segments|
    ensures TextsOf(SegmentNode(segments, kind, i), kind) == []
    ensures e == i + 1 ==> PlainSegments(segments[..e], i) == TextsOf(SegmentNode(segments, kind, i), Text)
    ensures e >= i + 2 ==> PlainSegments(segments[..e], i) == TextsOf(SegmentNode(segments, kind, i), Text) + PlainSegments(segments[..e], i + 2)
  {
    var t := segments[..e];
    SegmentTexts(segments, kind, i);
    PlainPair(t, i);
    assert t[i] == segments[i];
  }

  /** The texts of the span, if any, for the even segment `i`. */
  lemma SegmentTexts(segments: seq<string>, kind: TextType, i: nat)
    requires kind != Text && i % 2 == 0 && i < |segments|
    ensures TextsOf(SegmentNode(segments, kind, i), kind) == []
    ensures TextsOf(SegmentNode(segments, kind, i), Text) == if segments[i] != "" then [segments[i]] else []
  {
    if segments[i] != "" {
      TextsOfSingle(TextNode(segments[i], Text), kind);
      TextsOfSingle(TextNode(segments[i], Text), Text);
    }
  }

  /** The plain segments from an even `i`: segment `i` if non-empty, then
      those from `i + 2`. */
  lemma PlainPair(t: seq<string>, i: nat)
    requires i % 2 == 0 && i < |t|
    ensures PlainSegments(t, i) == (if t[i] != "" then [t[i]] else []) + (if i + 1 < |t| then PlainSegments(t, i + 2) else [])
  {
    assert (i + 1) % 2 == 1;
  }

  lemma JoinUnfold(parts: seq<string>, sep: string, i: nat)
    requires i + 1 < |parts|
    ensures Join(parts[i..], sep) == parts[i] + sep + Join(parts[i + 1..], sep)
  {
    assert parts[i..][1..] == parts[i + 1..];
  }

  lemma Regroup(a: string, d: string, b: string, t: string)
    ensures a + (((d + b) + d) + t) == (a + d) + ((b + d) + t)
  {
  }

  /** The spans of an odd number of segments stand for the segments joined
      by the delimiter. */
  lemma {:induction false} EmitMarkdown(segments: seq<string>, kind: TextType, i: nat)
    requires IsStyle(kind)
    requires |segments| % 2 == 1 && i % 2 == 0 && i < |segments|
    ensures Markdown(Emit(segments, kind, i)) == Join(segments[i..], DelimiterOf(kind))
    decreases |segments| - i
  {
    if i + 1 == |segments| {
      EmitLastMarkdown(segments, kind, i);
    } else {
      assert (i + 2) % 2 == 0;
      EmitMarkdown(segments, kind, i + 2);
      EmitMarkdownStep(segments, kind, i);
    }
  }

  /** The last segment alone. */
  lemma EmitLastMarkdown(segments: seq<string>, kind: TextType, i: nat)
    requires IsStyle(kind) && i + 1 == |segments| && i % 2 == 0
    ensures Markdown(Emit(segments, kind, i)) == Join(segments[i..], DelimiterOf(kind))
  {
    EmitUnfold(segments, kind, i);
    PlainSegmentMarkdown(segments, kind, i);
    assert segments[i..] == [segments[i]];
    assert SegmentNode(segments, kind, i) + [] == SegmentNode(segments, kind, i);
  }

  lemma PlainSegmentMarkdown(segments: seq<string>, kind: TextType, i: nat)
    requires i < |segments| && i % 2 == 0
    ensures Markdown(SegmentNode(segments, kind, i)) == segments[i]
  {
    if segments[i] != "" {
      MarkdownSingle(TextNode(segments[i], Text));
    }
  }

  lemma StyledSegmentMarkdown(segments: seq<string>, kind: TextType, i: nat)
    requires IsStyle(kind) && i < |segments| && i % 2 == 1
    ensures Markdown(SegmentNode(segments, kind, i)) == DelimiterOf(kind) + segments[i] + DelimiterOf(kind)
  {
    MarkdownSingle(TextNode(segments[i], kind));
  }

  /** A plain segment and the styled one after it, followed by the rest. */
  lemma EmitMarkdownStep(segments: seq<string>, kind: TextType, i: nat)
    requires IsStyle(kind)
    requires i % 2 == 0 && i + 2 < |segments|
    requires Markdown(Emit(segments, kind, i + 2)) == Join(segments[i + 2..], DelimiterOf(kind))
    ensures Markdown(Emit(segments, kind, i)) == Join(segments[i..], DelimiterOf(kind))
  {
    var d := DelimiterOf(kind);
    var tail := Join(segments[i + 2..], d);
    EmitPairMarkdown(segments, kind, i);
    JoinPair(segments, d, i);
    Regroup(segments[i], d, segments[i + 1], tail);
  }

  /** The markup of the spans from a plain segment on. */
  lemma EmitPairMarkdown(segments: seq<string>, kind: TextType, i: nat)
    requires IsStyle(kind)
    requires i % 2 == 0 && i + 2 < |segments|
    ensures Markdown(Emit(segments, kind, i)) ==
      segments[i] + ((DelimiterOf(kind) + segments[i + 1] + DelimiterOf(kind)) + Markdown(Emit(segments, kind, i + 2)))
  {
    var head := SegmentNode(segments, kind, i);
    var styled := SegmentNode(segments, kind, i + 1);
    var rest := Emit(segments, kind, i + 2);
    calc {
      Markdown(Emit(segments, kind, i));
    == { EmitUnfold(segments, kind, i);
         assert (i + 1) % 2 == 1;
         EmitUnfold(segments, kind, i + 1); }
      Markdown(head + (styled + rest));
    == { MarkdownThree(head, styled, rest); }
      Markdown(head) + (Markdown(styled) + Markdown(rest));
    == { PlainSegmentMarkdown(segments, kind, i);
         StyledSegmentMarkdown(segments, kind, i + 1); }
      segments[i] + ((DelimiterOf(kind) + segments[i + 1] + DelimiterOf(kind)) + Markdown(rest));
    }
  }

  lemma MarkdownThree(a: seq<TextNode>, b: seq<TextNode>, c: seq<TextNode>)
    ensures Markdown(a + (b + c)) == Markdown(a) + (Markdown(b) + Markdown(c))
  {
    MarkdownAppend(a, b + c);
    MarkdownAppend(b, c);
  }

  /** Two segments off the front of a join. */
  lemma JoinPair(segments: seq<string>, d: string, i: nat)
    requires i + 2 < |segments|
    ensures Join(segments[i..], d) == segments[i] + d + (segments[i + 1] + d + Join(segments[i + 2..], d))
  {
    JoinUnfold(segments, d, i);
    JoinUnfold(segments, d, i + 1);
  }

  /** The delimiter pass never changes the markup a span stands for. */
  lemma SplitNodeDelimiterMarkdown(n: TextNode, kind: TextType)
    requires IsStyle(kind)
    ensures Markdown(SplitNodeDelimiter(n, DelimiterOf(kind), kind)) == NodeMarkdown(n)
  {
    var d := DelimiterOf(kind);
    if n.textType == Text && n.text != "" {
      var segments := Split(n.text, d);
      if SplitApplies(segments, d) {
        EmitMarkdown(segments, kind, 0);
      }
    }
  }

  /** The delimiter pass never changes the markup a sequence of spans stands
      for. */
  lemma {:induction false} SplitNodesDelimiterMarkdown(nodes: seq<TextNode>, kind: TextType)
    requires IsStyle(kind)
    ensures Markdown(SplitNodesDelimiter(nodes, DelimiterOf(kind), kind)) == Markdown(nodes)
    decreases |nodes|
  {
    if nodes != [] {
      var d := DelimiterOf(kind);
      SplitNodeDelimiterMarkdown(nodes[0], kind);
      SplitNodesDelimiterMarkdown(nodes[1..], kind);
      MarkdownAppend(SplitNodeDelimiter(nodes[0], d, kind), SplitNodesDelimiter(nodes[1..], d, kind));
    }
  }

  /** The spans the pass creates are well formed: plain ones non-empty,
      styled ones clean. */
  lemma SplitNodeDelimiterWellFormed(n: TextNode, kind: TextType)
    requires IsStyle(kind)
    requires n.textType != Text ==> WellFormed(n)
    ensures AllWellFormed(SplitNodeDelimiter(n, DelimiterOf(kind), kind))
  {
    var d := DelimiterOf(kind);
    var r := SplitNodeDelimiter(n, d, kind);
    if n.textType == Text && n.text != "" {
      var segments := Split(n.text, d);
      if SplitApplies(segments, d) {
        forall m | 0 <= m < |segments| && m % 2 == 1
          ensures StyleClean(kind, segments[m])
        {
          assert !Contains(segments[m], d);
          if kind != Code {
            assert !HasNested(segments, d);
          }
        }
        EmitWellFormed(segments, kind, 0);
      }
    }
  }

  lemma {:induction false} SplitNodesDelimiterWellFormed(nodes: seq<TextNode>, kind: TextType)
    requires IsStyle(kind)
    requires StyledWellFormed(nodes)
    ensures AllWellFormed(SplitNodesDelimiter(nodes, DelimiterOf(kind), kind))
    decreases |nodes|
  {
    if nodes != [] {
      var d := DelimiterOf(kind);
      SplitNodeDelimiterWellFormed(nodes[0], kind);
      SplitNodesDelimiterWellFormed(nodes[1..], kind);
      AllWellFormedAppend(SplitNodeDelimiter(nodes[0], d, kind), SplitNodesDelimiter(nodes[1..], d, kind));
    }
  }
}

=== FILE: examples.dfy ===
/** The repository's unit tests of the delimiter, image and link passes and
    of the block splitter (src/test_htmlnode.py), stated as facts about the
    model. Each test is one
    call of a general lemma (`Around`, `Single`, `Pair`) whose conditions are
    checked on the test's literals. */
module Examples {
  import opened Wrappers
  import opened Strings
  import opened TextNodes
  import opened Spans
  import opened Delimiters
  import opened Patterns
  import opened Blocks

  // ---------------------------------------------------------------------
  // The delimiter pass
  // ---------------------------------------------------------------------

  /** The pass over the plain span `a d b d c`, given as one literal `text`,
      against the spans a test expects. */
  lemma Around(text: string, a: string, delimiter: string, b: string, c: string, kind: TextType, expected: seq<TextNode>)
    requires |delimiter| > 0 && text == a + delimiter + b + delimiter + c
    requires delimiter[0] !in a && delimiter[0] !in b && delimiter[0] !in c
    requires delimiter == "`" || ('*' !in b && '_' !in b && '`' !in b)
    requires expected == PlainOf(a) + [TextNode(b, kind)] + PlainOf(c)
    ensures SplitNodesDelimiter([TextNode(text, Text)], delimiter, kind) == expected
  {
    SplitAround(a, delimiter, b, c, kind);
  }

  /** `**Bold** statement` split on `**` gives a bold span and the rest. */
  lemma BoldStatement()
    ensures SplitNodesDelimiter([TextNode("**Bold** statement", Text)], "**", Bold)
         == [TextNode("Bold", Bold), TextNode(" statement", Text)]
  {
    Around("**Bold** statement", "", "**", "Bold", " statement", Bold,
      [TextNode("Bold", Bold), TextNode(" statement", Text)]);
  }

  /** `Some _italic_ text` split on `_` gives plain, italic and plain spans. */
  lemma ItalicText()
    ensures SplitNodesDelimiter([TextNode("Some _italic_ text", Text)], "_", Italic)
         == [TextNode("Some ", Text), TextNode("italic", Italic), TextNode(" text", Text)]
  {
    Around("Some _italic_ text", "Some ", "_", "italic", " text", Italic,
      [TextNode("Some ", Text), TextNode("italic", Italic), TextNode(" text", Text)]);
  }

  /** `This is `code`` split on a backtick: the empty plain tail is dropped. */
  lemma SingleCode()
    ensures SplitNodesDelimiter([TextNode("This is `code`", Text)], "`", Code)
         == [TextNode("This is ", Text), TextNode("code", Code)]
  {
    Around("This is `code`", "This is ", "`", "code", "", Code,
      [TextNode("This is ", Text), TextNode("code", Code)]);
  }

  /** Two code spans among plain text (`` `first` middle `second` end ``,
      written as four literals); the empty plain head is dropped. */
  lemma MultipleCodeBlocks()
    ensures SplitNodesDelimiter([TextNode("`first`" + " middle " + "`second`" + " end", Text)], "`", Code)
         == [TextNode("first", Code), TextNode(" middle ", Text), TextNode("second", Code), TextNode(" end", Text)]
  {
    AroundTwo("`first`", "first", " middle ", "`second`", "second", " end",
      [TextNode("first", Code), TextNode(" middle ", Text), TextNode("second", Code), TextNode(" end", Text)]);
  }

  /** The backtick pass over the plain span `` `b`c`e`f ``, given as the
      literals `m1`, `c`, `m2`, `f`, against the spans a test expects. */
  lemma AroundTwo(m1: string, b: string, c: string, m2: string, e: string, f: string, expected: seq<TextNode>)
    requires m1 == "`" + b + "`" && m2 == "`" + e + "`"
    requires '`' !in b && '`' !in c && '`' !in e && '`' !in f
    requires expected == [TextNode(b, Code)] + PlainOf(c) + [TextNode(e, Code)] + PlainOf(f)
    ensures SplitNodesDelimiter([TextNode(m1 + c + m2 + f, Text)], "`", Code) == expected
  {
    var text := "" + ("`" + b + "`") + c + ("`" + e + "`") + f;
    assert text == m1 + c + m2 + f by {
      assert "" + m1 == m1;
    }
    SplitAroundTwo("", "`", b, c, e, f, Code);
    assert PlainOf("") + [TextNode(b, Code)] + PlainOf(c) + [TextNode(e, Code)] + PlainOf(f) == expected by {
      assert PlainOf("") == [];
      assert [] + [TextNode(b, Code)] == [TextNode(b, Code)];
    }
  }

  /** Text without the delimiter is kept as it is. */
  lemma NoDelimiters()
    ensures SplitNodesDelimiter([TextNode("Just plain text", Text)], "`", Code)
         == [TextNode("Just plain text", Text)]
  {
    SplitAbsentNode("Just plain text", "`", Code);
  }

  /** Two backticks with nothing between give one empty code span. */
  lemma OnlyDelimiters()
    ensures SplitNodesDelimiter([TextNode("``", Text)], "`", Code) == [TextNode("", Code)]
  {
    Around("``", "", "`", "", "", Code,
      [TextNode("", Code)]);
  }

  /** A single backtick leaves the span as it is. */
  lemma OddDelimiters()
    ensures SplitNodesDelimiter([TextNode("Unmatched `delimiter here", Text)], "`", Code)
         == [TextNode("Unmatched `delimiter here", Text)]
  {
    assert "Unmatched `delimiter here" == "Unmatched " + "`" + "delimiter here";
    SplitUnmatched("Unmatched ", "`", "delimiter here", Code);
  }

  /** An empty plain span is dropped. */
  lemma EmptyText()
    ensures SplitNodesDelimiter([TextNode("", Text)], "`", Code) == []
  {
  }

  /** A backtick split does not look for other delimiters inside code. */
  lemma NestedNotHandled()
    ensures SplitNodesDelimiter([TextNode("This is _not `nested_ code`", Text)], "`", Code)
         == [TextNode("This is _not ", Text), TextNode("nested_ code", Code)]
  {
    Around("This is _not `nested_ code`", "This is _not ", "`", "nested_ code", "", Code,
      [TextNode("This is _not ", Text), TextNode("nested_ code", Code)]);
  }

  /** A span of another kind passes through next to a split one. */
  lemma MixedNodeTypes()
    ensures SplitNodesDelimiter([TextNode("Text with `code`", Text), TextNode("Already bold", Bold)], "`", Code)
         == [TextNode("Text with ", Text), TextNode("code", Code), TextNode("Already bold", Bold)]
  {
    CodeWithText();
    BoldUntouched();
    Joined(TextNode("Text with `code`", Text), TextNode("Already bold", Bold), "`", Code,
      [TextNode("Text with ", Text), TextNode("code", Code)], [TextNode("Already bold", Bold)],
      [TextNode("Text with ", Text), TextNode("code", Code), TextNode("Already bold", Bold)]);
  }

  lemma BoldUntouched()
    ensures SplitNodesDelimiter([TextNode("Already bold", Bold)], "`", Code) == [TextNode("Already bold", Bold)]
  {
  }

  lemma CodeWithText()
    ensures SplitNodesDelimiter([TextNode("Text with `code`", Text)], "`", Code)
         == [TextNode("Text with ", Text), TextNode("code", Code)]
  {
    Around("Text with `code`", "Text with ", "`", "code", "", Code,
      [TextNode("Text with ", Text), TextNode("code", Code)]);
  }

  /** The pass over two spans is the pass over each, one after the other. */
  lemma Joined(n1: TextNode, n2: TextNode, delimiter: string, kind: TextType,
               r1: seq<TextNode>, r2: seq<TextNode>, expected: seq<TextNode>)
    requires |delimiter| > 0
    requires SplitNodesDelimiter([n1], delimiter, kind) == r1 && SplitNodesDelimiter([n2], delimiter, kind) == r2
    requires expected == r1 + r2
    ensures SplitNodesDelimiter([n1, n2], delimiter, kind) == expected
  {
    assert [n1, n2] == [n1] + [n2];
    SplitNodesDelimiterAppend([n1], [n2], delimiter, kind);
  }


  // ---------------------------------------------------------------------
  // The image and link passes. The tests' markup is written through
  // `PatternText`: `![alt](url)` is `PatternText(ImagePattern, "alt", "url")`
  // and `[text](url)` is `PatternText(LinkPattern, "text", "url")`.
  // ---------------------------------------------------------------------

  /** The pass over a single plain span is the scan of its text. */
  lemma PassOne(s: string, p: Pattern)
    ensures SplitNodesPattern([TextNode(s, Text)], p) == Scan(s, 0, p)
  {
    assert [TextNode(s, Text)][1..] == [];
  }

  /** Printable ASCII from `*` to `~`: no space, no parenthesis. */
  predicate Printable(s: string) {
    s != [] && forall k | 0 <= k < |s| :: '*' <= s[k] <= '~'
  }

  lemma PrintableUrl(p: Pattern, url: string)
    requires Printable(url)
    ensures ValidUrl(p, url)
  {
  }

  /** The pass over the plain span `a`, one piece of markup, `b`, against
      the spans a test expects. */
  lemma Single(a: string, p: Pattern, name: string, url: string, b: string, expected: seq<TextNode>)
    requires Leads(a, p) && NoOpen(b, p)
    requires ValidLabel(name) && Printable(url)
    requires expected == PlainOf(a) + [TextNode(name, PatternKind(p), Some(url))] + PlainOf(b)
    ensures SplitNodesPattern([TextNode(a + PatternText(p, name, url) + b, Text)], p) == expected
  {
    var text := a + PatternText(p, name, url) + b;
    assert ValidUrl(p, url) by { PrintableUrl(p, url); }
    assert Scan(text, 0, p) == expected by { ScanSingle(a, p, name, url, b); }
    PassOne(text, p);
  }

  /** The same for two pieces of markup, the text ending with the second. */
  lemma Pair(a: string, p: Pattern, name1: string, url1: string, b: string,
             name2: string, url2: string, expected: seq<TextNode>)
    requires Leads(a, p) && Leads(b, p)
    requires ValidLabel(name1) && Printable(url1) && ValidLabel(name2) && Printable(url2)
    requires expected == PlainOf(a) + [TextNode(name1, PatternKind(p), Some(url1))]
                       + PlainOf(b) + [TextNode(name2, PatternKind(p), Some(url2))]
    ensures var text := a + PatternText(p, name1, url1) + b + PatternText(p, name2, url2);
      SplitNodesPattern([TextNode(text, Text)], p) == expected
  {
    var text := a + PatternText(p, name1, url1) + b + PatternText(p, name2, url2);
    assert text + "" == text;
    assert ValidUrl(p, url1) by { PrintableUrl(p, url1); }
    assert ValidUrl(p, url2) by { PrintableUrl(p, url2); }
    assert Scan(text, 0, p) == expected by { ScanPair(a, p, name1, url1, b, name2, url2, ""); }
    PassOne(text, p);
  }

  /** Two images with text before and between them. */
  lemma SplitImages()
    ensures SplitNodesImage([TextNode("This is text with an "
                                      + PatternText(ImagePattern, "image", "https://i.imgur.com/zjjcJKZ.png")
                                      + " and another "
                                      + PatternText(ImagePattern, "second image", "https://i.imgur.com/3elNhQu.png"), Text)])
         == [TextNode("This is text with an ", Text),
             TextNode("image", Image, Some("https://i.imgur.com/zjjcJKZ.png")),
             TextNode(" and another ", Text),
             TextNode("second image", Image, Some("https://i.imgur.com/3elNhQu.png"))]
  {
    ImagesPlain();
    Pair("This is text with an ", ImagePattern, "image", "https://i.imgur.com/zjjcJKZ.png",
      " and another ", "second image", "https://i.imgur.com/3elNhQu.png",
      [TextNode("This is text with an ", Text),
       TextNode("image", Image, Some("https://i.imgur.com/zjjcJKZ.png")),
       TextNode(" and another ", Text),
       TextNode("second image", Image, Some("https://i.imgur.com/3elNhQu.png"))]);
  }

  lemma ImagesPlain()
    ensures Leads("This is text with an ", ImagePattern) && Leads(" and another ", ImagePattern)
    ensures Printable("https://i.imgur.com/zjjcJKZ.png") && Printable("https://i.imgur.com/3elNhQu.png")
  {
  }

  /** Two links with text before and between them. */
  lemma SplitLinks()
    ensures SplitNodesLink([TextNode("This is text with a link "
                                     + PatternText(LinkPattern, "to boot dev", "https://www.boot.dev")
                                     + " and "
                                     + PatternText(LinkPattern, "to youtube", "https://www.youtube.com/@bootdotdev"), Text)])
         == [TextNode("This is text with a link ", Text),
             TextNode("to boot dev", Link, Some("https://www.boot.dev")),
             TextNode(" and ", Text),
             TextNode("to youtube", Link, Some("https://www.youtube.com/@bootdotdev"))]
  {
    LinksPlain();
    Pair("This is text with a link ", LinkPattern, "to boot dev", "https://www.boot.dev",
      " and ", "to youtube", "https://www.youtube.com/@bootdotdev",
      [TextNode("This is text with a link ", Text),
       TextNode("to boot dev", Link, Some("https://www.boot.dev")),
       TextNode(" and ", Text),
       TextNode("to youtube", Link, Some("https://www.youtube.com/@bootdotdev"))]);
  }

  lemma LinksPlain()
    ensures Leads("This is text with a link ", LinkPattern) && Leads(" and ", LinkPattern)
    ensures Printable("https://www.boot.dev") && Printable("https://www.youtube.com/@bootdotdev")
  {
  }

  /** `Before ![img](url.png) After` gives plain, image and plain spans. */
  lemma ImageWithExtraText()
    ensures SplitNodesImage([TextNode("Before " + PatternText(ImagePattern, "img", "url.png") + " After", Text)])
         == [TextNode("Before ", Text), TextNode("img", Image, Some("url.png")), TextNode(" After", Text)]
  {
    Single("Before ", ImagePattern, "img", "url.png", " After",
      [TextNode("Before ", Text), TextNode("img", Image, Some("url.png")), TextNode(" After", Text)]);
  }

  /** `![alt](https://img.com/pic.png)` alone gives the image span alone. */
  lemma ImageOnly()
    ensures SplitNodesImage([TextNode(PatternText(ImagePattern, "alt", "https://img.com/pic.png"), Text)])
         == [TextNode("alt", Image, Some("https://img.com/pic.png"))]
  {
    Single("", ImagePattern, "alt", "https://img.com/pic.png", "",
      [TextNode("alt", Image, Some("https://img.com/pic.png"))]);
    assert "" + PatternText(ImagePattern, "alt", "https://img.com/pic.png") + ""
        == PatternText(ImagePattern, "alt", "https://img.com/pic.png");
  }

  /** An image span passes through the image pass unchanged. */
  lemma ImageNonText()
    ensures var n := TextNode("![alt](https://img.com/pic.png)", Image, Some("https://img.com/pic.png"));
      SplitNodesImage([n]) == [n]
  {
  }

  /** `[click](http://url.com)` alone gives the link span alone. */
  lemma LinkOnly()
    ensures SplitNodesLink([TextNode(PatternText(LinkPattern, "click", "http://url.com"), Text)])
         == [TextNode("click", Link, Some("http://url.com"))]
  {
    Single("", LinkPattern, "click", "http://url.com", "",
      [TextNode("click", Link, Some("http://url.com"))]);
    assert "" + PatternText(LinkPattern, "click", "http://url.com") + ""
        == PatternText(LinkPattern, "click", "http://url.com");
  }

  /** `[bad](url` never closes, so the link pass keeps it as it is. */
  lemma LinkMalformed()
    ensures SplitNodesLink([TextNode("[bad](url", Text)]) == [TextNode("[bad](url", Text)]
  {
    ScanUnclosed("[bad](url", LinkPattern);
    PassOne("[bad](url", LinkPattern);
  }

  /** A bold span passes through the link pass unchanged. */
  lemma LinkNonText()
    ensures SplitNodesLink([TextNode("Some link", Bold)]) == [TextNode("Some link", Bold)]
  {
  }

  // ---------------------------------------------------------------------
  // The block splitter
  // ---------------------------------------------------------------------

  /** Two lists apart by a blank line are two blocks; the single line break
      inside each list does not cut it. */
  lemma MultipleListBlocks()
    ensures MarkdownToBlocks("\n" + ("- Item 1" + "\n" + "- Item 2") + "\n\n" + ("- Item A" + "\n" + "- Item B") + "\n")
         == ["- Item 1" + "\n" + "- Item 2", "- Item A" + "\n" + "- Item B"]
  {
    var b1, b2 := "- Item 1" + "\n" + "- Item 2", "- Item A" + "\n" + "- Item B";
    var md := "\n" + b1 + "\n\n" + b2 + "\n";
    var gaps := ["\n", "\n\n", "\n"];
    assert Woven(md, [b1, b2], gaps) by {
      WeaveTwo("\n", b1, "\n\n", b2, "\n");
      assert OccursAt("\n\n", BlankLine, 0);
    }
    assert Clean([b1, b2]) by {
      OneBreak("- Item 1", "- Item 2");
      OneBreak("- Item A", "- Item B");
    }
    MarkdownToBlocksUnique(md, [b1, b2], gaps);
  }

  lemma WeaveTwo(g0: string, b1: string, g1: string, b2: string, g2: string)
    ensures Weave([b1, b2], [g0, g1, g2]) == g0 + b1 + g1 + b2 + g2
  {
    assert [b1, b2][1..] == [b2] && [g0, g1, g2][1..] == [g1, g2];
    assert [b2][1..] == [] && [g1, g2][1..] == [g2];
    assert Weave([b2], [g1, g2]) == g1 + b2 + g2;
    assert g0 + b1 + (g1 + b2 + g2) == g0 + b1 + g1 + b2 + g2;
  }

  /** Two lines joined by one line break are one block: no blank line, and
      no whitespace at either end. */
  lemma OneBreak(a: string, b: string)
    requires a != "" && b != "" && '\n' !in a && '\n' !in b
    requires !IsSpace(a[0]) && !IsSpace(b[|b| - 1])
    ensures Trimmed(a + "\n" + b) && !Contains(a + "\n" + b, BlankLine)
  {
    var s := a + "\n" + b;
    forall i | 0 <= i <= |s| - 2
      ensures !OccursAt(s, BlankLine, i)
    {
      if i < |a| {
        assert s[i] == a[i];
      } else {
        assert s[i + 1] == b[i + 1 - |a| - 1];
      }
    }
  }
}

=== FILE: htmlnode.dfy ===
/** The output tree: leaves and parents, attribute rendering, and the
    recursive serializer. */
module Html {
  import opened Wrappers
  import opened Strings

  /** One attribute, `name="value"`. */
  datatype Attr = Attr(name: string, value: string)

  /** Attributes in insertion order. */
  type Props = seq<Attr>

  /** A leaf has an optional tag and an optional value; a parent has a tag
      (optional only because nothing but the constructor check keeps it
      present) and its children. Both may carry attributes. */
  datatype Node =
    | Leaf(tag: Option<string>, value: Option<string>, props: Option<Props>)
    | Parent(tag: Option<string>, children: seq<Node>, props: Option<Props>)

  datatype HtmlError =
    | ParentTagMissing        // the parent constructor was given no tag
    | ParentChildrenMissing   // the parent constructor was given no children
    | RenderTagMissing        // a parent with no tag or an empty one was serialized

  function AttrHtml(a: Attr): string {
    " " + a.name + "=\"" + a.value + "\""
  }

  function AttrsHtml(ps: Props): (r: string)
    ensures r == [] <==> ps == []
    ensures r != [] ==> r[0] == ' '
    decreases |ps|
  {
    if ps == [] then "" else AttrHtml(ps[0]) + AttrsHtml(ps[1..])
  }

  /** The attribute string of a node: empty when there are no attributes,
      otherwise ` name="value"` for each one in order, with no escaping. */
  function PropsToHtml(props: Option<Props>): (r: string)
    ensures props.None? || props.value == [] ==> r == ""
    ensures props.Some? && props.value != [] ==> r != [] && r[0] == ' '
  {
    match props
    case None => ""
    case Some(ps) => AttrsHtml(ps)
  }

  lemma {:induction false} AttrsHtmlAppend(a: Props, b: Props)
    ensures AttrsHtml(a + b) == AttrsHtml(a) + AttrsHtml(b)
    decreases |a|
  {
    if a == [] {
      assert a + b == b;
    } else {
      assert (a + b)[0] == a[0];
      assert (a + b)[1..] == a[1..] + b;
      AttrsHtmlAppend(a[1..], b);
    }
  }

  /** Attribute `i` is rendered after every earlier one and before every later
      one. */
  lemma AttrsHtmlInOrder(ps: Props, i: nat)
    requires i < |ps|
    ensures AttrsHtml(ps) == AttrsHtml(ps[..i]) + AttrHtml(ps[i]) + AttrsHtml(ps[i + 1..])
  {
    PropsAround(ps, i);
    AttrsHtmlAppend(ps[..i], [ps[i]] + ps[i + 1..]);
    Assoc(AttrsHtml(ps[..i]), AttrHtml(ps[i]), AttrsHtml(ps[i + 1..]));
  }

  lemma PropsAround(ps: Props, i: nat)
    requires i < |ps|
    ensures ps == ps[..i] + ([ps[i]] + ps[i + 1..])
    ensures ([ps[i]] + ps[i + 1..])[0] == ps[i] && ([ps[i]] + ps[i + 1..])[1..] == ps[i + 1..]
  {
  }

  predicate NotEquals(c: char) {
    c != '='
  }

  predicate NotQuote(c: char) {
    c != '"'
  }

  /** Reads attributes back from a string of ` name="value"` items. */
  function ParseAttrs(s: string): Option<Props>
    decreases |s|
  {
    if s == [] then Some([])
    else if s[0] != ' ' then None
    else
      var eq := SkipWhile(s, 1, NotEquals);
      if eq + 1 >= |s| || s[eq + 1] != '"' then None
      else
        var close := SkipWhile(s, eq + 2, NotQuote);
        if close >= |s| then None
        else
          match ParseAttrs(s[close + 1..])
          case None => None
          case Some(rest) => Some([Attr(s[1..eq], s[eq + 2..close])] + rest)
  }

  /** An attribute that survives rendering unambiguously: no `=` in its name
      and no `"` in its value (nothing is escaped). */
  predicate Readable(a: Attr) {
    (forall k | 0 <= k < |a.name| :: a.name[k] != '=') && (forall k | 0 <= k < |a.value| :: a.value[k] != '"')
  }

  /** Reading back one rendered attribute in front of `rest`. */
  lemma ParseOneAttr(a: Attr, rest: string)
    requires Readable(a)
    ensures ParseAttrs(AttrHtml(a) + rest) ==
              match ParseAttrs(rest)
              case None => None
              case Some(tail) => Some([a] + tail)
  {
    var s := AttrHtml(a) + rest;
    var eq, close := AttrLayout(s, a, rest);
    forall k | 1 <= k < eq
      ensures NotEquals(s[k])
    {
      assert s[k] == s[1..eq][k - 1];
    }
    SkipWhileAt(s, 1, NotEquals, eq);
    forall k | eq + 2 <= k < close
      ensures NotQuote(s[k])
    {
      assert s[k] == s[eq + 2..close][k - eq - 2];
    }
    SkipWhileAt(s, eq + 2, NotQuote, close);
  }

  /** Where the name, the value and what follows sit in a rendered
      attribute. */
  lemma AttrLayout(s: string, a: Attr, rest: string) returns (eq: nat, close: nat)
    requires s == AttrHtml(a) + rest
    ensures eq == 1 + |a.name| && close == eq + 2 + |a.value| && close < |s|
    ensures s[0] == ' ' && s[eq] == '=' && s[eq + 1] == '"' && s[close] == '"'
    ensures s[1..eq] == a.name && s[eq + 2..close] == a.value && s[close + 1..] == rest
  {
    eq := 1 + |a.name|;
    close := eq + 2 + |a.value|;
    var x := " " + a.name + "=\"" + a.value + "\"";
    assert s == x + rest;
    assert x[1..eq] == a.name;
    assert x[eq + 2..close] == a.value;
  }

  /** Rendering attributes loses nothing as long as names hold no `=` and
      values no `"`. */
  lemma {:induction false} AttrsHtmlRoundTrip(ps: Props)
    requires forall i | 0 <= i < |ps| :: Readable(ps[i])
    ensures ParseAttrs(AttrsHtml(ps)) == Some(ps)
    decreases |ps|
  {
    if ps != [] {
      AttrsHtmlRoundTrip(ps[1..]);
      ParseOneAttr(ps[0], AttrsHtml(ps[1..]));
      assert [ps[0]] + ps[1..] == ps;
    }
  }

  /** `<tag attrs>inner</tag>`. */
  function Element(tag: string, props: Option<Props>, inner: string): string {
    "<" + tag + PropsToHtml(props) + ">" + inner + "</" + tag + ">"
  }

  /** The concatenation of the outputs, or the first failure among them. */
  function ConcatAll<E>(rs: seq<Result<string, E>>): (r: Result<string, E>)
    ensures r.Success? <==> forall i | 0 <= i < |rs| :: rs[i].Success?
    ensures r.Failure? ==> exists i | 0 <= i < |rs| :: rs[i] == Failure(r.error)
    decreases |rs|
  {
    if rs == [] then Success("")
    else
      match rs[0]
      case Failure(e) => Failure(e)
      case Success(s) =>
        match ConcatAll(rs[1..])
        case Failure(e) => assert rs[1..][0] == rs[1]; Failure(e)
        case Success(t) => Success(s + t)
  }

  /** A tree the serializer accepts: every parent in it has a non-empty tag. */
  predicate Renderable(n: Node)
    decreases n
  {
    match n
    case Leaf(_, _, _) => true
    case Parent(tag, children, _) =>
      tag.Some? && tag.value != "" && forall i | 0 <= i < |children| :: Renderable(children[i])
  }

  /** Serialization. An untagged leaf is its value (or nothing); a tagged leaf
      is its value wrapped in the open and close tags; a parent is its
      children's serializations, in order, wrapped the same way, and fails
      when its tag is absent or empty. */
  function ToHtml(n: Node): (r: Result<string, HtmlError>)
    ensures n.Leaf? ==> r.Success?
    ensures n.Leaf? && n.tag.None? ==> r.value == n.value.GetOr("")
    ensures n.Parent? && (n.tag.None? || n.tag.value == "") ==> r == Failure(RenderTagMissing)
    ensures r.Failure? ==> r.error == RenderTagMissing
    ensures r.Success? && n.tag.Some? ==>
              StartsWith(r.value, "<" + n.tag.value) && EndsWith(r.value, "</" + n.tag.value + ">")
    decreases n
  {
    match n
    case Leaf(tag, value, props) =>
      if tag.None? then Success(value.GetOr(""))
      else
        ElementEnds(tag.value, props, value.GetOr(""));
        Success(Element(tag.value, props, value.GetOr("")))
    case Parent(tag, children, props) =>
      if tag.None? || tag.value == "" then Failure(RenderTagMissing)
      else
        var parts := seq(|children|, i requires 0 <= i < |children| => ToHtml(children[i]));
        match ConcatAll(parts)
        case Failure(e) => Failure(e)
        case Success(inner) =>
          ElementEnds(tag.value, props, inner);
          Success(Element(tag.value, props, inner))
  }

  /** An element opens with its tag and closes with its closing tag. */
  lemma ElementEnds(tag: string, props: Option<Props>, inner: string)
    ensures StartsWith(Element(tag, props, inner), "<" + tag)
    ensures EndsWith(Element(tag, props, inner), "</" + tag + ">")
  {
    var open, close := "<" + tag, "</" + tag + ">";
    var e := Element(tag, props, inner);
    var middle := PropsToHtml(props) + ">" + inner;
    assert e == open + middle + close by {
      Assoc3(open, PropsToHtml(props), ">", inner);
      assert e == open + PropsToHtml(props) + ">" + inner + "</" + tag + ">";
      Assoc3(open + middle, "</", tag, ">");
    }
    assert e[..|open|] == open;
    assert e[|e| - |close|..] == close;
  }

  /** A tagged leaf is its value, unchanged, between `<tag attrs>` and
      `</tag>`; an absent value counts as empty. */
  lemma TaggedLeafHtml(tag: string, value: Option<string>, props: Option<Props>)
    ensures ToHtml(Leaf(Some(tag), value, props)).Success?
    ensures var open, v, close := "<" + tag + PropsToHtml(props) + ">", value.GetOr(""), "</" + tag + ">";
      var e := ToHtml(Leaf(Some(tag), value, props)).value;
      && |e| == |open| + |v| + |close|
      && e[..|open|] == open && e[|open|..|open| + |v|] == v && e[|open| + |v|..] == close
  {
    var open, v, close := "<" + tag + PropsToHtml(props) + ">", value.GetOr(""), "</" + tag + ">";
    var e := Element(tag, props, v);
    assert e == open + v + close by {
      Assoc3(open + v, "</", tag, ">");
    }
  }

  /** Serialization succeeds exactly on the trees whose parents all carry a
      non-empty tag. */
  lemma {:induction false} ToHtmlSucceedsIffRenderable(n: Node)
    ensures ToHtml(n).Success? <==> Renderable(n)
    decreases n
  {
    match n
    case Leaf(_, _, _) =>
    case Parent(tag, children, props) =>
      if tag.Some? && tag.value != "" {
        var parts := seq(|children|, i requires 0 <= i < |children| => ToHtml(children[i]));
        forall i | 0 <= i < |children|
          ensures parts[i].Success? <==> Renderable(children[i])
        {
          ToHtmlSucceedsIffRenderable(children[i]);
        }
      }
  }

  /** The children's serializations appear, in order and unchanged, between
      the parent's open and close tags. */
  lemma ParentHtml(tag: string, children: seq<Node>, props: Option<Props>, inner: seq<string>)
    requires tag != ""
    requires |inner| == |children|
    requires forall i | 0 <= i < |children| :: ToHtml(children[i]) == Success(inner[i])
    ensures ToHtml(Parent(Some(tag), children, props)) == Success(Element(tag, props, Concat(inner)))
  {
    var parts := seq(|children|, i requires 0 <= i < |children| => ToHtml(children[i]));
    ConcatAllSuccess(parts, inner);
  }

  lemma {:induction false} ConcatAllSuccess<E>(rs: seq<Result<string, E>>, ss: seq<string>)
    requires |rs| == |ss|
    requires forall i | 0 <= i < |rs| :: rs[i] == Success(ss[i])
    ensures ConcatAll(rs) == Success(Concat(ss))
    decreases |rs|
  {
    if rs != [] {
      ConcatAllSuccess(rs[1..], ss[1..]);
    }
  }

  /** The parent constructor: a missing tag is refused first, then missing
      children; anything else, including an empty tag, is accepted. */
  function NewParent(tag: Option<string>, children: Option<seq<Node>>, props: Option<Props>): (r: Result<Node, HtmlError>)
    ensures tag.None? ==> r == Failure(ParentTagMissing)
    ensures tag.Some? && children.None? ==> r == Failure(ParentChildrenMissing)
    ensures r.Success? <==> tag.Some? && children.Some?
    ensures r.Success? ==> r.value.Parent? && r.value.tag == tag
                           && Some(r.value.children) == children && r.value.props == props
  {
    if tag.None? then Failure(ParentTagMissing)
    else if children.None? then Failure(ParentChildrenMissing)
    else Success(Parent(tag, children.value, props))
  }

  /** The constructor accepts an empty tag that serialization then refuses. */
  lemma EmptyTagAcceptedButNotRendered(children: seq<Node>)
    ensures NewParent(Some(""), Some(children), None).Success?
    ensures ToHtml(NewParent(Some(""), Some(children), None).value) == Failure(RenderTagMissing)
  {
  }

  /** A parent built with a non-empty tag over renderable children serializes. */
  lemma NewParentRenders(tag: string, children: seq<Node>, props: Option<Props>)
    requires tag != ""
    requires forall i | 0 <= i < |children| :: Renderable(children[i])
    ensures NewParent(Some(tag), Some(children), props).Success?
    ensures ToHtml(NewParent(Some(tag), Some(children), props).value).Success?
  {
    ToHtmlSucceedsIffRenderable(Parent(Some(tag), children, props));
  }
}

=== FILE: patterns.dfy ===
/** Extracting images `![alt](url)` and links `[text](url)` from plain-text
    spans with a left-to-right scanner that takes the leftmost match and
    resumes after it. */
module Patterns {
  import opened Wrappers
  import opened Strings
  import opened TextNodes
  import opened Spans

  /** A match of a pattern: where it starts and ends, its label and its url. */
  datatype Match = Match(start: nat, end: nat, text: string, url: string)

  /** The opening of `p` sits at `i`: `![` for an image; for a link `[`
      not preceded by `!`. */
  predicate OpensAt(s: string, i: nat, p: Pattern) {
    && OccursAt(s, PatternPrefix(p), i)
    && (p == LinkPattern ==> i == 0 || s[i - 1] != '!')
  }

  /** The end of the run of url characters of `p` starting at `k`. */
  function SkipUrl(s: string, k: nat, p: Pattern): (e: nat)
    requires k <= |s|
    ensures k <= e <= |s|
    ensures forall j | k <= j < e :: IsUrlChar(p, s[j])
    ensures e == |s| || !IsUrlChar(p, s[e])
  {
    if p == ImagePattern then SkipWhile(s, k, IsImageUrlChar) else SkipWhile(s, k, IsLinkUrlChar)
  }

  /** The match of `p` starting exactly at `i`, if any. A label is the run of
      characters up to the first `]` and must be non-empty; an image url is
      the run of characters other than parentheses and whitespace, a link url
      the run up to the first `)`, and either must be non-empty and be closed
      by `)`. A link never starts right after a `!`. */
  function MatchAt(s: string, i: nat, p: Pattern): (r: Option<Match>)
    ensures r.Some? ==> r.value.start == i && i < r.value.end <= |s|
  {
    if !OpensAt(s, i, p) then None
    else
      var open := i + |PatternPrefix(p)|;
      var close := SkipWhile(s, open, IsLabelChar);
      if close == open || close + 1 >= |s| || s[close + 1] != '(' then None
      else
        var urlEnd := SkipUrl(s, close + 2, p);
        if urlEnd == close + 2 || urlEnd >= |s| || s[urlEnd] != ')' then None
        else Some(Match(i, urlEnd + 1, s[open..close], s[close + 2..urlEnd]))
  }

  /** A match spells out its label and url in the markup of `p`; the label is
      non-empty and holds no `]`; the url is non-empty and made of the
      characters `p` allows; and it is opened as `p` requires. */
  lemma MatchAtSound(s: string, i: nat, p: Pattern)
    requires MatchAt(s, i, p).Some?
    ensures var m := MatchAt(s, i, p).value;
      && s[i..m.end] == PatternText(p, m.text, m.url)
      && ValidLabel(m.text) && ValidUrl(p, m.url)
      && OpensAt(s, i, p)
  {
    MatchSpells(s, i, p);
    MatchValid(s, i, p);
  }

  lemma MatchSpells(s: string, i: nat, p: Pattern)
    requires MatchAt(s, i, p).Some?
    ensures var m := MatchAt(s, i, p).value;
      && s[i..m.end] == PatternText(p, m.text, m.url)
      && OpensAt(s, i, p)
  {
    var close, urlEnd := MatchAtParts(s, i, p);
    PatternTextAt(s, i, p, close, urlEnd);
  }

  lemma MatchValid(s: string, i: nat, p: Pattern)
    requires MatchAt(s, i, p).Some?
    ensures ValidLabel(MatchAt(s, i, p).value.text) && ValidUrl(p, MatchAt(s, i, p).value.url)
  {
    var close, urlEnd := MatchAtParts(s, i, p);
  }

  /** Where the label and url of a match sit. */
  lemma MatchAtParts(s: string, i: nat, p: Pattern) returns (close: nat, urlEnd: nat)
    requires MatchAt(s, i, p).Some?
    ensures OpensAt(s, i, p)
    ensures i + |PatternPrefix(p)| < close && close + 2 < urlEnd < |s|
    ensures close == SkipWhile(s, i + |PatternPrefix(p)|, IsLabelChar) && urlEnd == SkipUrl(s, close + 2, p)
    ensures s[close] == ']' && s[close + 1] == '(' && s[urlEnd] == ')'
    ensures MatchAt(s, i, p).value == Match(i, urlEnd + 1, s[i + |PatternPrefix(p)|..close], s[close + 2..urlEnd])
  {
    close := SkipWhile(s, i + |PatternPrefix(p)|, IsLabelChar);
    urlEnd := SkipUrl(s, close + 2, p);
  }

  /** The characters of `s` from `i` through `urlEnd` spell the markup of
      the label and url they enclose. */
  lemma PatternTextAt(s: string, i: nat, p: Pattern, close: nat, urlEnd: nat)
    requires i + |PatternPrefix(p)| <= close && close + 2 <= urlEnd < |s|
    requires s[i..i + |PatternPrefix(p)|] == PatternPrefix(p)
    requires s[close] == ']' && s[close + 1] == '(' && s[urlEnd] == ')'
    ensures s[i..urlEnd + 1] == PatternText(p, s[i + |PatternPrefix(p)|..close], s[close + 2..urlEnd])
  {
    var n := i + |PatternPrefix(p)|;
    SliceFive(s, i, n, close, close + 2, urlEnd, urlEnd + 1);
    assert s[close..close + 2] == "](";
    assert s[urlEnd..urlEnd + 1] == ")";
    PatternTextParts(p, s[n..close], s[close + 2..urlEnd]);
  }

  /** Conversely, well-formed image or link markup, opened as `p` requires,
      is matched at `i` as a whole. */
  lemma MatchAtComplete(s: string, i: nat, p: Pattern, text: string, url: string)
    requires ValidLabel(text) && ValidUrl(p, url)
    requires OccursAt(s, PatternText(p, text, url), i)
    requires p == LinkPattern ==> i == 0 || s[i - 1] != '!'
    ensures MatchAt(s, i, p) == Some(Match(i, i + |PatternText(p, text, url)|, text, url))
  {
    var open, close, urlEnd := MarkupAt(s, i, p, text, url);
    MarkupMatches(s, i, p, text, url, open, close, urlEnd, i + |PatternText(p, text, url)|);
  }

  /** Markup laid out as `MarkupAt` finds it is matched as a whole. */
  lemma MarkupMatches(s: string, i: nat, p: Pattern, text: string, url: string, open: nat, close: nat, urlEnd: nat, end: nat)
    requires ValidLabel(text) && ValidUrl(p, url)
    requires open == i + |PatternPrefix(p)| && close == open + |text| && urlEnd == close + 2 + |url|
    requires urlEnd + 1 == end && urlEnd < |s|
    requires s[open..close] == text && s[close + 2..urlEnd] == url
    requires s[close] == ']' && s[close + 1] == '(' && s[urlEnd] == ')'
    requires OpensAt(s, i, p)
    ensures MatchAt(s, i, p) == Some(Match(i, end, text, url))
  {
    RunsStop(s, open, p, text, url);
    MatchAtWhen(s, i, p, close, urlEnd, text, url, end);
  }

  /** The label run stops at the `]` after the label, and the url run at the
      `)` after the url. */
  lemma RunsStop(s: string, open: nat, p: Pattern, text: string, url: string)
    requires ValidLabel(text) && ValidUrl(p, url)
    requires open + |text| + 2 + |url| < |s|
    requires s[open..open + |text|] == text && s[open + |text| + 2..open + |text| + 2 + |url|] == url
    requires s[open + |text|] == ']' && s[open + |text| + 2 + |url|] == ')'
    ensures SkipWhile(s, open, IsLabelChar) == open + |text|
    ensures SkipUrl(s, open + |text| + 2, p) == open + |text| + 2 + |url|
  {
    RunUntil(s, open, open + |text|, text, IsLabelChar);
    UrlRunUntil(s, open + |text| + 2, open + |text| + 2 + |url|, url, p);
  }

  /** A url of `p` stopped by `)`. */
  lemma UrlRunUntil(s: string, from: nat, to: nat, url: string, p: Pattern)
    requires from <= to < |s| && s[from..to] == url
    requires ValidUrl(p, url) && s[to] == ')'
    ensures SkipUrl(s, from, p) == to
  {
    if p == ImagePattern {
      RunUntil(s, from, to, url, IsImageUrlChar);
    } else {
      RunUntil(s, from, to, url, IsLinkUrlChar);
    }
  }

  /** Where the parts of well-formed markup at `i` sit in `s`. */
  lemma MarkupAt(s: string, i: nat, p: Pattern, text: string, url: string) returns (open: nat, close: nat, urlEnd: nat)
    requires OccursAt(s, PatternText(p, text, url), i)
    requires p == LinkPattern ==> i == 0 || s[i - 1] != '!'
    ensures open == i + |PatternPrefix(p)| && close == open + |text| && urlEnd == close + 2 + |url|
    ensures urlEnd + 1 == i + |PatternText(p, text, url)| && urlEnd < |s|
    ensures s[open..close] == text && s[close + 2..urlEnd] == url
    ensures s[close] == ']' && s[close + 1] == '(' && s[urlEnd] == ')'
    ensures OpensAt(s, i, p)
  {
    open := i + |PatternPrefix(p)|;
    close := open + |text|;
    urlEnd := close + 2 + |url|;
    MarkupLength(s, i, p, text, url, urlEnd);
    MarkupSlices(s, i, p, text, url, open, close, urlEnd);
    MarkupChars(s, i, p, text, url, close, urlEnd);
  }

  lemma MarkupLength(s: string, i: nat, p: Pattern, text: string, url: string, urlEnd: nat)
    requires OccursAt(s, PatternText(p, text, url), i)
    requires urlEnd == i + |PatternPrefix(p)| + |text| + 2 + |url|
    ensures urlEnd + 1 == i + |PatternText(p, text, url)| && urlEnd < |s|
  {
  }

  lemma MarkupSlices(s: string, i: nat, p: Pattern, text: string, url: string, open: nat, close: nat, urlEnd: nat)
    requires OccursAt(s, PatternText(p, text, url), i)
    requires p == LinkPattern ==> i == 0 || s[i - 1] != '!'
    requires open == i + |PatternPrefix(p)| && close == open + |text| && urlEnd == close + 2 + |url|
    ensures urlEnd < |s|
    ensures s[open..close] == text && s[close + 2..urlEnd] == url
    ensures OpensAt(s, i, p)
  {
    PrefixSlice(s, i, p, text, url);
    LabelSlice(s, i, p, text, url);
    UrlSlice(s, i, p, text, url);
  }

  lemma PrefixSlice(s: string, i: nat, p: Pattern, text: string, url: string)
    requires OccursAt(s, PatternText(p, text, url), i)
    ensures OccursAt(s, PatternPrefix(p), i)
  {
    PatternTextLayout(p, text, url);
    SliceWithin(s, i, PatternText(p, text, url), 0, |PatternPrefix(p)|, PatternPrefix(p));
  }

  lemma LabelSlice(s: string, i: nat, p: Pattern, text: string, url: string)
    requires OccursAt(s, PatternText(p, text, url), i)
    ensures i + |PatternPrefix(p)| + |text| <= |s|
    ensures s[i + |PatternPrefix(p)|..i + |PatternPrefix(p)| + |text|] == text
  {
    var n := |PatternPrefix(p)|;
    PatternTextLayout(p, text, url);
    SliceWithin(s, i, PatternText(p, text, url), n, n + |text|, text);
  }

  lemma UrlSlice(s: string, i: nat, p: Pattern, text: string, url: string)
    requires OccursAt(s, PatternText(p, text, url), i)
    ensures i + |PatternPrefix(p)| + |text| + 2 + |url| < |s|
    ensures s[i + |PatternPrefix(p)| + |text| + 2..i + |PatternPrefix(p)| + |text| + 2 + |url|] == url
  {
    var n := |PatternPrefix(p)|;
    PatternTextLayout(p, text, url);
    SliceWithin(s, i, PatternText(p, text, url), n + |text| + 2, n + |text| + 2 + |url|, url);
  }

  /** A piece of an occurrence is a piece of the text. */
  lemma SliceWithin(s: string, i: nat, m: string, a: nat, b: nat, x: string)
    requires OccursAt(s, m, i) && a <= b <= |m| && m[a..b] == x
    ensures s[i + a..i + b] == x
  {
    SliceOfSlice(s, i, i + |m|, a, b);
  }

  lemma MarkupChars(s: string, i: nat, p: Pattern, text: string, url: string, close: nat, urlEnd: nat)
    requires OccursAt(s, PatternText(p, text, url), i)
    requires close == i + |PatternPrefix(p)| + |text| && urlEnd == close + 2 + |url|
    ensures urlEnd < |s|
    ensures s[close] == ']' && s[close + 1] == '(' && s[urlEnd] == ')'
  {
    var m := PatternText(p, text, url);
    PatternTextLayout(p, text, url);
    assert s[close] == m[close - i] && s[close + 1] == m[close + 1 - i];
    assert s[urlEnd] == m[|m| - 1];
  }

  /** A run of characters passing `q`, stopped by one that fails it. */
  lemma RunUntil(s: string, from: nat, to: nat, run: string, q: char -> bool)
    requires from <= to < |s| && s[from..to] == run
    requires forall k | 0 <= k < |run| :: q(run[k])
    requires !q(s[to])
    ensures SkipWhile(s, from, q) == to
  {
    forall k | from <= k < to
      ensures q(s[k])
    {
      assert s[k] == run[k - from];
    }
    SkipWhileAt(s, from, q, to);
  }

  /** `MatchAt` on the path where every check passes. */
  lemma MatchAtWhen(s: string, i: nat, p: Pattern, close: nat, urlEnd: nat, text: string, url: string, end: nat)
    requires OpensAt(s, i, p)
    requires i + |PatternPrefix(p)| < close && close + 2 < urlEnd < |s|
    requires SkipWhile(s, i + |PatternPrefix(p)|, IsLabelChar) == close
    requires s[close + 1] == '('
    requires SkipUrl(s, close + 2, p) == urlEnd
    requires s[urlEnd] == ')'
    requires s[i + |PatternPrefix(p)|..close] == text && s[close + 2..urlEnd] == url
    requires end == urlEnd + 1
    ensures MatchAt(s, i, p) == Some(Match(i, end, text, url))
  {
  }

  /** Nothing matches at or past the end. */
  lemma NoMatchBeyond(s: string, from: nat, p: Pattern)
    requires from >= |s|
    ensures forall j | from <= j :: MatchAt(s, j, p).None?
  {
    forall j | from <= j
      ensures MatchAt(s, j, p).None?
    {
      assert !OccursAt(s, PatternPrefix(p), j);
    }
  }

  /** The leftmost match of `p` starting at or after `from`. */
  function FindMatch(s: string, from: nat, p: Pattern): (r: Option<Match>)
    ensures r.Some? ==> from <= r.value.start && MatchAt(s, r.value.start, p) == r
    ensures r.Some? ==> forall j | from <= j < r.value.start :: MatchAt(s, j, p).None?
    ensures r.None? ==> forall j | from <= j :: MatchAt(s, j, p).None?
    decreases |s| - from
  {
    if from >= |s| then
      NoMatchBeyond(s, from, p);
      None
    else
      match MatchAt(s, from, p)
      case Some(m) => Some(m)
      case None =>
        var r := FindMatch(s, from + 1, p);
        NoMatchAtFrom(s, from, p, r);
        r
  }

  /** Extending a search result one position to the left, where nothing
      matches. */
  lemma NoMatchAtFrom(s: string, from: nat, p: Pattern, r: Option<Match>)
    requires MatchAt(s, from, p).None?
    requires r.Some? ==> from + 1 <= r.value.start
    requires r.Some? ==> forall j | from + 1 <= j < r.value.start :: MatchAt(s, j, p).None?
    requires r.None? ==> forall j | from + 1 <= j :: MatchAt(s, j, p).None?
    ensures r.Some? ==> forall j | from <= j < r.value.start :: MatchAt(s, j, p).None?
    ensures r.None? ==> forall j | from <= j :: MatchAt(s, j, p).None?
  {
  }

  /** A plain span for `s[a..b]`, or nothing when that is empty. */
  function Plain(s: string, a: nat, b: nat): seq<TextNode>
    requires a <= b <= |s|
  {
    if a < b then [TextNode(s[a..b], Text)] else []
  }

  lemma PlainSpans(s: string, a: nat, b: nat)
    requires a <= b <= |s|
    ensures Markdown(Plain(s, a, b)) == s[a..b]
    ensures AllWellFormed(Plain(s, a, b))
    ensures forall j | 0 <= j < |Plain(s, a, b)| :: Plain(s, a, b)[j].textType == Text
  {
    if a < b {
      MarkdownSingle(TextNode(s[a..b], Text));
    }
  }

  /** The span a match becomes. */
  function MatchNode(m: Match, p: Pattern): TextNode {
    TextNode(m.text, PatternKind(p), Some(m.url))
  }

  /** The spans for `s[last..]`: each leftmost match becomes an image or link
      span, the text before, between and after matches becomes plain spans,
      and empty plain text is left out. */
  function Scan(s: string, last: nat, p: Pattern): (r: seq<TextNode>)
    requires last <= |s|
    ensures FindMatch(s, last, p).None? ==> r == Plain(s, last, |s|)
    decreases |s| - last
  {
    match FindMatch(s, last, p)
    case None => Plain(s, last, |s|)
    case Some(m) => Plain(s, last, m.start) + [MatchNode(m, p)] + Scan(s, m.end, p)
  }

  /** Together the spans of a scan stand for exactly the text scanned. */
  lemma {:induction false} ScanMarkdown(s: string, last: nat, p: Pattern)
    requires last <= |s|
    ensures Markdown(Scan(s, last, p)) == s[last..]
    decreases |s| - last
  {
    match FindMatch(s, last, p)
    case None =>
      PlainSpans(s, last, |s|);
    case Some(m) =>
      ScanMarkdown(s, m.end, p);
      ScanStepMarkdown(s, last, p, m);
  }

  /** A scan that finds `m` first: the text before it, its span, and the
      scan of the rest. */
  lemma ScanUnfold(s: string, last: nat, p: Pattern, m: Match)
    requires last <= |s| && FindMatch(s, last, p) == Some(m)
    ensures last <= m.start < m.end <= |s|
    ensures Scan(s, last, p) == Plain(s, last, m.start) + [MatchNode(m, p)] + Scan(s, m.end, p)
  {
  }

  /** The span of a match stands for the markup matched, and is well formed. */
  lemma MatchNodeSound(s: string, p: Pattern, m: Match)
    requires MatchAt(s, m.start, p) == Some(m)
    ensures Markdown([MatchNode(m, p)]) == s[m.start..m.end]
    ensures WellFormed(MatchNode(m, p))
  {
    MatchAtSound(s, m.start, p);
    MarkdownSingle(MatchNode(m, p));
  }

  lemma ScanStepMarkdown(s: string, last: nat, p: Pattern, m: Match)
    requires last <= |s| && FindMatch(s, last, p) == Some(m)
    requires Markdown(Scan(s, m.end, p)) == s[m.end..]
    ensures Markdown(Scan(s, last, p)) == s[last..]
  {
    ScanUnfold(s, last, p, m);
    MatchNodeSound(s, p, m);
    var before := Plain(s, last, m.start);
    var node := [MatchNode(m, p)];
    var rest := Scan(s, m.end, p);
    PlainSpans(s, last, m.start);
    assert Markdown(before + node) == s[last..m.end] by {
      MarkdownAppend(before, node);
      SliceSplit(s, last, m.start, m.end);
    }
    MarkdownAppend(before + node, rest);
    SliceTail(s, last, m.end);
  }

  /** Every span is plain or of the pattern's kind. */
  predicate ScanKinds(ns: seq<TextNode>, p: Pattern) {
    forall j | 0 <= j < |ns| :: ns[j].textType == Text || ns[j].textType == PatternKind(p)
  }

  /** Every span of a scan is well formed, and is plain or of the pattern's
      kind. */
  lemma {:induction false} ScanWellFormed(s: string, last: nat, p: Pattern)
    requires last <= |s|
    ensures AllWellFormed(Scan(s, last, p))
    ensures ScanKinds(Scan(s, last, p), p)
    decreases |s| - last
  {
    match FindMatch(s, last, p)
    case None =>
      PlainSpans(s, last, |s|);
    case Some(m) =>
      ScanWellFormed(s, m.end, p);
      ScanUnfold(s, last, p, m);
      MatchNodeSound(s, p, m);
      PlainSpans(s, last, m.start);
      JoinWellFormed(Plain(s, last, m.start), MatchNode(m, p), Scan(s, m.end, p));
      JoinKinds(Plain(s, last, m.start), MatchNode(m, p), Scan(s, m.end, p), p);
  }

  lemma JoinWellFormed(before: seq<TextNode>, node: TextNode, rest: seq<TextNode>)
    requires AllWellFormed(before) && WellFormed(node) && AllWellFormed(rest)
    ensures AllWellFormed(before + [node] + rest)
  {
    AllWellFormedAppend(before, [node]);
    AllWellFormedAppend(before + [node], rest);
  }

  lemma JoinKinds(before: seq<TextNode>, node: TextNode, rest: seq<TextNode>, p: Pattern)
    requires ScanKinds(before, p) && node.textType == PatternKind(p) && ScanKinds(rest, p)
    ensures ScanKinds(before + [node] + rest, p)
  {
    var all := before + [node] + rest;
    forall j | 0 <= j < |all|
      ensures all[j].textType == Text || all[j].textType == PatternKind(p)
    {
      if j < |before| {
        assert all[j] == before[j];
      } else if j == |before| {
        assert all[j] == node;
      } else {
        assert all[j] == rest[j - |before| - 1];
      }
    }
  }

  /** Nothing in `t` matches `p`, at any position. */
  predicate Unmatched(t: string, p: Pattern) {
    forall j | 0 <= j < |t| :: MatchAt(t, j, p).None?
  }

  /** No plain span holds a match of `p`: every match has been extracted. */
  predicate Exhausted(ns: seq<TextNode>, p: Pattern) {
    forall k | 0 <= k < |ns| :: ns[k].textType == Text ==> Unmatched(ns[k].text, p)
  }

  /** A match ends with the `)` that closes its url. */
  lemma MatchEndsWithParen(s: string, i: nat, p: Pattern, m: Match)
    requires MatchAt(s, i, p) == Some(m)
    ensures 0 < m.end <= |s| && s[m.end - 1] == ')'
  {
    var close, urlEnd := MatchAtParts(s, i, p);
  }

  /** Whenever the search finds a match, the text holds a `)`. */
  lemma FindMatchCloses(s: string, from: nat, p: Pattern)
    ensures FindMatch(s, from, p).Some? ==> ')' in s
  {
    var r := FindMatch(s, from, p);
    if r.Some? {
      MatchEndsWithParen(s, r.value.start, p, r.value);
      assert s[r.value.end - 1] in s;
    }
  }

  /** Text without a `)` holds no match: its scan is the text as one plain
      span (dropped when empty). */
  lemma ScanUnclosed(s: string, p: Pattern)
    requires ')' !in s
    ensures Scan(s, 0, p) == PlainOf(s)
  {
    FindMatchCloses(s, 0, p);
    assert s[0..|s|] == s;
  }

  /** A match inside the piece `s[a..b]` is a match in `s` too, provided the
      piece does not start right after a `!`. */
  lemma MatchInPiece(s: string, a: nat, b: nat, j: nat, p: Pattern)
    requires a <= b <= |s| && (a == 0 || s[a - 1] != '!')
    requires MatchAt(s[a..b], j, p).Some?
    ensures MatchAt(s, a + j, p).Some?
  {
    var end, text, url := MatchFacts(s[a..b], j, p);
    var i := PieceMarkup(s, a, b, s[a..b], j, end, PatternText(p, text, url), p);
    MatchFromMarkup(s, i, p, text, url);
  }

  /** Markup `m` at `j` inside the piece `t`, which is `s[a..b]`, seen in
      `s`. */
  lemma PieceMarkup(s: string, a: nat, b: nat, t: string, j: nat, end: nat, m: string, p: Pattern) returns (i: nat)
    requires a <= b <= |s| && (a == 0 || s[a - 1] != '!') && t == s[a..b]
    requires j < end <= |t| && t[j..end] == m
    requires p == LinkPattern && j > 0 ==> t[j - 1] != '!'
    ensures i == a + j
    ensures OccursAt(s, m, i)
    ensures p == LinkPattern ==> i == 0 || s[i - 1] != '!'
  {
    i := a + j;
    assert s[i..a + end] == t[j..end] by {
      SliceOfSlice(s, a, b, j, end);
    }
    PlacedAt(s, m, i, a + end);
    if p == LinkPattern && j > 0 {
      assert s[i - 1] == t[j - 1];
    }
  }

  /** A string found between two positions occurs at the first. */
  lemma PlacedAt(s: string, m: string, i: nat, e: nat)
    requires i <= e <= |s| && s[i..e] == m
    ensures OccursAt(s, m, i)
  {
  }

  /** The markup a match spells, where it ends, and how it is opened. */
  lemma MatchFacts(t: string, j: nat, p: Pattern) returns (end: nat, text: string, url: string)
    requires MatchAt(t, j, p).Some?
    ensures j < end <= |t| && t[j..end] == PatternText(p, text, url)
    ensures ValidLabel(text) && ValidUrl(p, url)
    ensures p == LinkPattern && j > 0 ==> t[j - 1] != '!'
  {
    var m := MatchAt(t, j, p).value;
    end, text, url := m.end, m.text, m.url;
    MatchAtSound(t, j, p);
  }


  /** Markup laid out in full makes a match. */
  lemma MatchFromMarkup(s: string, i: nat, p: Pattern, text: string, url: string)
    requires ValidLabel(text) && ValidUrl(p, url)
    requires OccursAt(s, PatternText(p, text, url), i)
    requires p == LinkPattern ==> i == 0 || s[i - 1] != '!'
    ensures MatchAt(s, i, p).Some?
  {
    MatchAtComplete(s, i, p, text, url);
  }


  /** The plain span for a stretch where no match starts holds no match. */
  lemma PlainExhausted(s: string, a: nat, b: nat, p: Pattern)
    requires a <= b <= |s| && (a == 0 || s[a - 1] == ')')
    requires forall j | a <= j < b :: MatchAt(s, j, p).None?
    ensures Exhausted(Plain(s, a, b), p)
  {
    if a < b {
      forall j | 0 <= j < b - a
        ensures MatchAt(s[a..b], j, p).None?
      {
        if MatchAt(s[a..b], j, p).Some? {
          MatchInPiece(s, a, b, j, p);
        }
      }
    }
  }

  lemma JoinExhausted(before: seq<TextNode>, node: TextNode, rest: seq<TextNode>, p: Pattern)
    requires Exhausted(before, p) && node.textType != Text && Exhausted(rest, p)
    ensures Exhausted(before + [node] + rest, p)
  {
    var all := before + [node] + rest;
    forall k | 0 <= k < |all| && all[k].textType == Text
      ensures Unmatched(all[k].text, p)
    {
      if k < |before| {
        assert all[k] == before[k];
      } else {
        assert all[k] == rest[k - |before| - 1];
      }
    }
  }

  /** No plain span of a scan holds a match: the scan extracts every match
      there is. */
  lemma {:induction false} ScanExhausted(s: string, last: nat, p: Pattern)
    requires last <= |s| && (last == 0 || s[last - 1] == ')')
    ensures Exhausted(Scan(s, last, p), p)
    decreases |s| - last
  {
    match FindMatch(s, last, p)
    case None =>
      PlainExhausted(s, last, |s|, p);
    case Some(m) =>
      assert last < m.end <= |s| && s[m.end - 1] == ')' by {
        MatchEndsWithParen(s, m.start, p, m);
      }
      ScanExhausted(s, m.end, p);
      ScanFoundExhausted(s, last, p, m);
  }

  /** A scan step keeps the scan exhausted: the plain text before the first
      match holds none, the match becomes a span that is not plain. */
  lemma ScanFoundExhausted(s: string, last: nat, p: Pattern, m: Match)
    requires last <= |s| && (last == 0 || s[last - 1] == ')')
    requires FindMatch(s, last, p) == Some(m)
    requires m.end <= |s| && Exhausted(Scan(s, m.end, p), p)
    ensures Exhausted(Scan(s, last, p), p)
  {
    var before, node, after := Plain(s, last, m.start), MatchNode(m, p), Scan(s, m.end, p);
    assert Exhausted(before, p) by {
      PlainExhausted(s, last, m.start, p);
    }
    assert Exhausted(before + [node] + after, p) by {
      JoinExhausted(before, node, after, p);
    }
    ScanUnfold(s, last, p, m);
  }

  /** The match of `p` at each position of `s` up to `n`, as a table. */
  function StartsUpTo(s: string, p: Pattern, n: nat): (t: seq<Option<Match>>)
    ensures |t| == n
    decreases n
  {
    if n == 0 then [] else StartsUpTo(s, p, n - 1) + [MatchAt(s, n - 1, p)]
  }

  /** The match of `p` at each position of `s`, the end included. */
  function Starts(s: string, p: Pattern): (t: seq<Option<Match>>)
    ensures |t| == |s| + 1
  {
    StartsUpTo(s, p, |s| + 1)
  }

  /** Each entry of the table is the match at its position. */
  lemma {:induction false} StartsUpToAt(s: string, p: Pattern, n: nat, j: nat)
    requires j < n
    ensures StartsUpTo(s, p, n)[j] == MatchAt(s, j, p)
    decreases n
  {
    if j < n - 1 {
      StartsUpToAt(s, p, n - 1, j);
    }
  }

  lemma StartsAt(s: string, p: Pattern, j: nat)
    requires j <= |s|
    ensures Starts(s, p)[j] == MatchAt(s, j, p)
  {
    StartsUpToAt(s, p, |s| + 1, j);
  }

  /** `r` is an extraction of `s[at..]` by `p`, checked span by span
      against the whole of `s`, whose match at each position `j` is
      `Starts(s, p)[j]`. Laid end to end the spans spell out `s[at..]`. A
      span of the pattern's kind is the match of `p` at its own position.
      A plain span is non-empty, no match of `p` starts anywhere inside it
      (read in all of `s`, so the character before it counts for a link),
      and the span after it is not plain. */
  predicate Extraction(s: string, at: nat, r: seq<TextNode>, p: Pattern)
    decreases |r|
  {
    var t := Starts(s, p);
    if r == [] then at == |s|
    else if r[0].textType == Text then
      var end := at + |r[0].text|;
      && at < end <= |s| && r[0] == TextNode(s[at..end], Text)
      && (forall j | at <= j < end :: t[j].None?)
      && (|r| > 1 ==> r[1].textType != Text)
      && Extraction(s, end, r[1..], p)
    else
      && at <= |s| && t[at].Some?
      && r[0] == MatchNode(t[at].value, p)
      && Extraction(s, t[at].value.end, r[1..], p)
  }

  /** A scan is an extraction: the leftmost-first search makes spans that
      pass every local check. */
  lemma {:induction false} ScanExtraction(s: string, last: nat, p: Pattern)
    requires last <= |s|
    ensures Extraction(s, last, Scan(s, last, p), p)
    decreases |s| - last
  {
    match FindMatch(s, last, p)
    case None =>
      PlainExtraction(s, last, |s|, [], p);
      assert Scan(s, last, p) == Plain(s, last, |s|) + [];
    case Some(m) =>
      ScanUnfold(s, last, p, m);
      ScanExtraction(s, m.end, p);
      ExtractionStep(s, last, m, Scan(s, m.end, p), p);
  }

  /** The plain text before the leftmost match, then the match, in front of
      an extraction. */
  lemma ExtractionStep(s: string, last: nat, m: Match, rest: seq<TextNode>, p: Pattern)
    requires last <= |s| && FindMatch(s, last, p) == Some(m) && Extraction(s, m.end, rest, p)
    ensures Extraction(s, last, Plain(s, last, m.start) + [MatchNode(m, p)] + rest, p)
  {
    var tail := [MatchNode(m, p)] + rest;
    MatchExtraction(s, m, rest, p);
    PlainExtraction(s, last, m.start, tail, p);
    assert Plain(s, last, m.start) + [MatchNode(m, p)] + rest == Plain(s, last, m.start) + tail;
  }

  /** A match in front of an extraction. */
  lemma MatchExtraction(s: string, m: Match, rest: seq<TextNode>, p: Pattern)
    requires MatchAt(s, m.start, p) == Some(m) && Extraction(s, m.end, rest, p)
    ensures m.start < m.end <= |s|
    ensures Extraction(s, m.start, [MatchNode(m, p)] + rest, p)
  {
    StartsAt(s, p, m.start);
    var r := [MatchNode(m, p)] + rest;
    assert r[0] == MatchNode(m, p) && r[0].textType != Text && r[1..] == rest;
  }

  /** Plain text in front of an extraction, when no match starts in it. */
  lemma PlainExtraction(s: string, a: nat, b: nat, rest: seq<TextNode>, p: Pattern)
    requires a <= b <= |s| && Extraction(s, b, rest, p)
    requires forall j | a <= j < b :: MatchAt(s, j, p).None?
    requires rest != [] ==> rest[0].textType != Text
    ensures Extraction(s, a, Plain(s, a, b) + rest, p)
  {
    if a < b {
      forall j | a <= j < b
        ensures Starts(s, p)[j].None?
      {
        StartsAt(s, p, j);
      }
      var r := Plain(s, a, b) + rest;
      assert r[0] == TextNode(s[a..b], Text) && r[1..] == rest;
    } else {
      assert Plain(s, a, b) + rest == rest;
    }
  }

  /** A plain span of an extraction runs up to the end of the text or to
      the start of a match. */
  lemma PlainRunEnds(s: string, at: nat, r: seq<TextNode>, p: Pattern)
    requires Extraction(s, at, r, p) && r != [] && r[0].textType == Text
    ensures var end := at + |r[0].text|; end == |s| || Starts(s, p)[end].Some?
  {
    if |r| > 1 {
      assert r[1..][0] == r[1];
    }
  }

  /** Nothing is left to extract at the end of the text. */
  lemma ExtractionAtEnd(s: string, r: seq<TextNode>, p: Pattern)
    requires Extraction(s, |s|, r, p)
    ensures r == []
  {
    StartsAt(s, p, |s|);
  }

  /** An extraction starts with a plain span exactly where no match starts. */
  lemma HeadKind(s: string, at: nat, r: seq<TextNode>, p: Pattern)
    requires Extraction(s, at, r, p) && r != []
    ensures at < |s| && (r[0].textType == Text <==> Starts(s, p)[at].None?)
  {
    StartsAt(s, p, at);
  }

  /** Two plain runs from the same position, each free of matches and each
      ending at the end of the text or at a match, have the same length. */
  lemma PlainRunsAgree(t: seq<Option<Match>>, at: nat, n1: nat, n2: nat)
    requires at + n1 < |t| && at + n2 < |t|
    requires forall j | at <= j < at + n1 :: t[j].None?
    requires forall j | at <= j < at + n2 :: t[j].None?
    requires at + n1 == |t| - 1 || t[at + n1].Some?
    requires at + n2 == |t| - 1 || t[at + n2].Some?
    ensures n1 == n2
  {
  }

  /** Two extractions from the same position start with the same span and
      go on from the same position. */
  lemma ExtractionHeads(s: string, at: nat, r1: seq<TextNode>, r2: seq<TextNode>, p: Pattern) returns (next: nat)
    requires Extraction(s, at, r1, p) && Extraction(s, at, r2, p) && r1 != [] && r2 != []
    ensures r1[0] == r2[0] && Extraction(s, next, r1[1..], p) && Extraction(s, next, r2[1..], p)
  {
    HeadKind(s, at, r1, p);
    HeadKind(s, at, r2, p);
    if Starts(s, p)[at].None? {
      PlainRunEnds(s, at, r1, p);
      PlainRunEnds(s, at, r2, p);
      PlainRunsAgree(Starts(s, p), at, |r1[0].text|, |r2[0].text|);
      next := at + |r1[0].text|;
      PlainTail(s, at, r1, p);
      PlainTail(s, at, r2, p);
    } else {
      next := Starts(s, p)[at].value.end;
      MatchTail(s, at, r1, p);
      MatchTail(s, at, r2, p);
    }
  }

  /** After a plain span, the rest is an extraction from where it ends. */
  lemma PlainTail(s: string, at: nat, r: seq<TextNode>, p: Pattern)
    requires Extraction(s, at, r, p) && r != [] && r[0].textType == Text
    ensures Extraction(s, at + |r[0].text|, r[1..], p)
  {
  }

  /** After a match, the rest is an extraction from where the match ends. */
  lemma MatchTail(s: string, at: nat, r: seq<TextNode>, p: Pattern)
    requires Extraction(s, at, r, p) && r != [] && r[0].textType != Text
    ensures at <= |s| && Starts(s, p)[at].Some? && Extraction(s, Starts(s, p)[at].value.end, r[1..], p)
  {
  }

  /** There is only one extraction: any two extractions of the same text
      are the same spans. With `ScanExtraction`, an extraction is exactly
      what the scan makes. */
  lemma {:induction false} ExtractionUnique(s: string, at: nat, r1: seq<TextNode>, r2: seq<TextNode>, p: Pattern)
    requires Extraction(s, at, r1, p) && Extraction(s, at, r2, p)
    ensures r1 == r2
    decreases |r1|
  {
    if r1 == [] {
      ExtractionAtEnd(s, r2, p);
    } else if r2 == [] {
      ExtractionAtEnd(s, r1, p);
    } else {
      var next := ExtractionHeads(s, at, r1, r2, p);
      ExtractionUnique(s, next, r1[1..], r2[1..], p);
      HeadTail(r1, r2);
    }
  }

  /** No match starts at a character that cannot open the pattern. */
  lemma NoOpenNoMatch(s: string, j: nat, p: Pattern)
    requires j < |s| && s[j] != PatternPrefix(p)[0]
    ensures MatchAt(s, j, p).None?
  {
    assert !OccursAt(s, PatternPrefix(p), j) by {
      if j + |PatternPrefix(p)| <= |s| {
        assert s[j..j + |PatternPrefix(p)|][0] == s[j];
      }
    }
  }

  /** With no opening character before `i`, the search from `last` finds the
      match at `i`. */
  lemma FindMatchAt(s: string, last: nat, i: nat, p: Pattern)
    requires last <= i && MatchAt(s, i, p).Some?
    requires forall j | last <= j < i :: s[j] != PatternPrefix(p)[0]
    ensures FindMatch(s, last, p) == MatchAt(s, i, p)
  {
    var r := FindMatch(s, last, p);
    assert r.None? ==> MatchAt(s, i, p).None?;
    var start := r.value.start;
    assert i < start ==> MatchAt(s, i, p).None?;
    MatchOpens(s, start, p);
    assert start == i;
  }

  /** A match starts with the opening character of its pattern. */
  lemma MatchOpens(s: string, i: nat, p: Pattern)
    requires MatchAt(s, i, p).Some?
    ensures i < |s| && s[i] == PatternPrefix(p)[0]
  {
    assert OccursAt(s, PatternPrefix(p), i);
    assert s[i..i + |PatternPrefix(p)|][0] == s[i];
  }

  /** With no opening character from `last` on, the search finds nothing. */
  lemma FindMatchAbsent(s: string, last: nat, p: Pattern)
    requires forall j | last <= j < |s| :: s[j] != PatternPrefix(p)[0]
    ensures FindMatch(s, last, p).None?
  {
    forall j: nat | last <= j
      ensures MatchAt(s, j, p).None?
    {
      if j < |s| {
        NoOpenNoMatch(s, j, p);
      }
    }
  }

  /** The search from `last` finds markup laid out in full at `i` when no
      opening character comes before it. */
  lemma FindMarkup(s: string, last: nat, i: nat, p: Pattern, text: string, url: string)
    requires OccursAt(s, PatternText(p, text, url), i)
    requires last <= i && forall j | last <= j < i :: s[j] != PatternPrefix(p)[0]
    requires ValidLabel(text) && ValidUrl(p, url)
    requires p == LinkPattern ==> i == 0 || s[i - 1] != '!'
    ensures FindMatch(s, last, p) == Some(Match(i, i + |PatternText(p, text, url)|, text, url))
  {
    MatchAtComplete(s, i, p, text, url);
    FindMatchAt(s, last, i, p);
  }

  /** A scan step at a match the search has found, its fields spelled out. */
  lemma ScanFound(s: string, last: nat, i: nat, p: Pattern, text: string, url: string, end: nat)
    requires last <= i <= end <= |s|
    requires FindMatch(s, last, p) == Some(Match(i, end, text, url))
    ensures Scan(s, last, p) == Plain(s, last, i) + [TextNode(text, PatternKind(p), Some(url))] + Scan(s, end, p)
  {
    ScanUnfold(s, last, p, Match(i, end, text, url));
  }

  /** The last step of a scan: no opening character from `last` on. */
  lemma ScanRest(s: string, last: nat, p: Pattern)
    requires last <= |s| && forall j | last <= j < |s| :: s[j] != PatternPrefix(p)[0]
    ensures Scan(s, last, p) == Plain(s, last, |s|)
  {
    FindMatchAbsent(s, last, p);
  }

  /** `a` holds no character that could open `p`. */
  predicate NoOpen(a: string, p: Pattern) {
    forall j | 0 <= j < |a| :: a[j] != PatternPrefix(p)[0]
  }

  /** `a` can come right before markup of `p` without hiding it: it holds no
      opening character and, for a link, does not end with `!`. */
  predicate Leads(a: string, p: Pattern) {
    NoOpen(a, p) && (p == LinkPattern ==> a == [] || a[|a| - 1] != '!')
  }

  /** The scan of one piece of markup between two runs of plain text. */
  lemma ScanSingle(a: string, p: Pattern, text: string, url: string, b: string)
    requires Leads(a, p) && NoOpen(b, p)
    requires ValidLabel(text) && ValidUrl(p, url)
    ensures Scan(a + PatternText(p, text, url) + b, 0, p)
         == PlainOf(a) + [TextNode(text, PatternKind(p), Some(url))] + PlainOf(b)
  {
    var m := PatternText(p, text, url);
    var s := a + m + b;
    var node := TextNode(text, PatternKind(p), Some(url));
    assert Scan(s, 0, p) == PlainOf(a) + [node] + Scan(s, |a + m|, p) by {
      ScanLeading(s, 0, a, m, p, text, url, |a + m|);
    }
    assert Scan(s, |a + m|, p) == PlainOf(b) by {
      ScanTrailing(s, a + m, b, p);
    }
  }

  /** The scan of two pieces of markup among three runs of plain text. */
  lemma ScanPair(a: string, p: Pattern, text1: string, url1: string, b: string, text2: string, url2: string, c: string)
    requires Leads(a, p) && Leads(b, p) && NoOpen(c, p)
    requires ValidLabel(text1) && ValidUrl(p, url1) && ValidLabel(text2) && ValidUrl(p, url2)
    ensures Scan(a + PatternText(p, text1, url1) + b + PatternText(p, text2, url2) + c, 0, p)
         == PlainOf(a) + [TextNode(text1, PatternKind(p), Some(url1))]
          + PlainOf(b) + [TextNode(text2, PatternKind(p), Some(url2))] + PlainOf(c)
  {
    var m1, m2 := PatternText(p, text1, url1), PatternText(p, text2, url2);
    var front := a + m1 + b + m2;
    PairLayout(a, m1, b, m2, c);
    PatternTextEnds(p, text1, url1);
    ScanPairAt(front + c, front, a, m1, b, m2, c, p, text1, url1, text2, url2);
  }

  /** Where the runs and pieces of `ScanPair` sit in its text. */
  lemma PairLayout(a: string, m1: string, b: string, m2: string, c: string)
    requires |m1| > 0
    ensures var s := a + m1 + b + m2 + c;
      && s[0..|a| + |m1|] == a + m1
      && s[|a| + |m1|..|a| + |m1| + |b| + |m2|] == b + m2
      && s[|a| + |m1| - 1] == m1[|m1| - 1]
  {
    var s := a + m1 + b + m2 + c;
    assert s == (a + m1) + (b + m2) + c;
    assert (a + m1)[|a| + |m1| - 1] == m1[|m1| - 1];
  }

  /** `ScanPair` for a text `s` laid out as its two runs and pieces and then
      `c`. */
  lemma ScanPairAt(s: string, front: string, a: string, m1: string, b: string, m2: string, c: string, p: Pattern,
                   text1: string, url1: string, text2: string, url2: string)
    requires m1 == PatternText(p, text1, url1) && m2 == PatternText(p, text2, url2)
    requires s == front + c && |front| == |a| + |m1| + |b| + |m2|
    requires s[0..|a| + |m1|] == a + m1 && s[|a| + |m1|..|front|] == b + m2 && s[|a| + |m1| - 1] == ')'
    requires Leads(a, p) && Leads(b, p) && NoOpen(c, p)
    requires ValidLabel(text1) && ValidUrl(p, url1) && ValidLabel(text2) && ValidUrl(p, url2)
    ensures Scan(s, 0, p) == PlainOf(a) + [TextNode(text1, PatternKind(p), Some(url1))]
          + PlainOf(b) + [TextNode(text2, PatternKind(p), Some(url2))] + PlainOf(c)
  {
    var node1, node2 := TextNode(text1, PatternKind(p), Some(url1)), TextNode(text2, PatternKind(p), Some(url2));
    var second := |a| + |m1|;
    ScanLastPiece(s, front, second, b, m2, c, p, text2, url2);
    ScanLeading(s, 0, a, m1, p, text1, url1, second);
    JoinOne(Scan(s, 0, p), Scan(s, second, p), PlainOf(a), PlainOf(b), PlainOf(c), node1, node2);
  }

  /** The scan of `s` from `last`, where `s[last..]` is a run of plain text,
      a piece of markup, and a last run of plain text. */
  lemma ScanLastPiece(s: string, front: string, last: nat, b: string, m: string, c: string, p: Pattern, text: string, url: string)
    requires m == PatternText(p, text, url)
    requires s == front + c && last + |b| + |m| == |front| && s[last..|front|] == b + m
    requires last > 0 && s[last - 1] == ')'
    requires Leads(b, p) && NoOpen(c, p) && ValidLabel(text) && ValidUrl(p, url)
    ensures Scan(s, last, p) == PlainOf(b) + [TextNode(text, PatternKind(p), Some(url))] + PlainOf(c)
  {
    assert Scan(s, last, p) == PlainOf(b) + [TextNode(text, PatternKind(p), Some(url))] + Scan(s, |front|, p) by {
      ScanLeading(s, last, b, m, p, text, url, |front|);
    }
    ScanTrailing(s, front, c, p);
  }

  /** A scan step in front of another that ends the scan. */
  lemma JoinOne<T>(x: seq<T>, y: seq<T>, a: seq<T>, b: seq<T>, c: seq<T>, n1: T, n2: T)
    requires x == a + [n1] + y && y == b + [n2] + c
    ensures x == a + [n1] + b + [n2] + c
  {
  }

  /** The markup of an image or link ends with `)`. */
  lemma PatternTextEnds(p: Pattern, text: string, url: string)
    ensures var m := PatternText(p, text, url); |m| > 0 && m[|m| - 1] == ')'
  {
  }

  /** A step of a scan of `s` from `last` where `s[last..]` starts with `a`
      and then the markup `m` of a label and url. */
  lemma ScanLeading(s: string, last: nat, a: string, m: string, p: Pattern, text: string, url: string, next: nat)
    requires m == PatternText(p, text, url) && next == last + |a| + |m| <= |s|
    requires s[last..next] == a + m
    requires Leads(a, p) && (p == LinkPattern && a == [] ==> last == 0 || s[last - 1] != '!')
    requires ValidLabel(text) && ValidUrl(p, url)
    ensures Scan(s, last, p) == PlainOf(a) + [TextNode(text, PatternKind(p), Some(url))] + Scan(s, next, p)
  {
    LeadingLayout(s, last, a, m, p);
    ScanPast(s, last, last + |a|, p, text, url, a, m, next);
  }

  /** Where the pieces of `s[last..]` sit when it starts with `a` and then
      `m`. */
  lemma LeadingLayout(s: string, last: nat, a: string, m: string, p: Pattern)
    requires last + |a| + |m| <= |s| && s[last..last + |a| + |m|] == a + m
    requires Leads(a, p) && (p == LinkPattern && a == [] ==> last == 0 || s[last - 1] != '!')
    ensures OccursAt(s, m, last + |a|)
    ensures forall j | last <= j < last + |a| :: s[j] != PatternPrefix(p)[0]
    ensures p == LinkPattern ==> last + |a| == 0 || s[last + |a| - 1] != '!'
    ensures Plain(s, last, last + |a|) == PlainOf(a)
  {
    var i := last + |a|;
    assert s[i..i + |m|] == (a + m)[|a|..];
    forall j | last <= j < i
      ensures s[j] != PatternPrefix(p)[0]
    {
      assert s[j] == (a + m)[j - last];
    }
    if p == LinkPattern && a != [] {
      assert s[i - 1] == (a + m)[|a| - 1];
    }
    assert s[last..i] == (a + m)[..|a|];
  }

  /** A scan step with the text before the markup and the position after it
      named. */
  lemma ScanPast(s: string, last: nat, i: nat, p: Pattern, text: string, url: string, a: string, m: string, next: nat)
    requires m == PatternText(p, text, url) && i == last + |a| && next == i + |m|
    requires OccursAt(s, m, i)
    requires last <= i && forall j | last <= j < i :: s[j] != PatternPrefix(p)[0]
    requires ValidLabel(text) && ValidUrl(p, url)
    requires p == LinkPattern ==> i == 0 || s[i - 1] != '!'
    requires Plain(s, last, i) == PlainOf(a)
    ensures Scan(s, last, p) == PlainOf(a) + [TextNode(text, PatternKind(p), Some(url))] + Scan(s, next, p)
  {
    assert FindMatch(s, last, p) == Some(Match(i, next, text, url)) by {
      FindMarkup(s, last, i, p, text, url);
    }
    ScanFound(s, last, i, p, text, url, next);
  }

  /** The last step of a scan of `s` that ends with `b`. */
  lemma ScanTrailing(s: string, front: string, b: string, p: Pattern)
    requires s == front + b && NoOpen(b, p)
    ensures Scan(s, |front|, p) == PlainOf(b)
  {
    forall j | |front| <= j < |s|
      ensures s[j] != PatternPrefix(p)[0]
    {
      assert s[j] == b[j - |front|];
    }
    ScanRest(s, |front|, p);
    assert s[|front|..|s|] == b;
  }

  /** One span through an extraction pass: anything but plain text is kept,
      plain text is scanned. */
  function SplitNodePattern(n: TextNode, p: Pattern): seq<TextNode>
  {
    if n.textType != Text then [n] else Scan(n.text, 0, p)
  }

  /** An extraction pass over a sequence of spans. */
  function SplitNodesPattern(nodes: seq<TextNode>, p: Pattern): seq<TextNode>
    decreases |nodes|
  {
    if nodes == [] then []
    else SplitNodePattern(nodes[0], p) + SplitNodesPattern(nodes[1..], p)
  }

  /** The pass works span by span and keeps their order: the pass over two
      runs of spans, one after the other, is the pass over each. */
  lemma {:induction false} SplitNodesPatternAppend(a: seq<TextNode>, b: seq<TextNode>, p: Pattern)
    ensures SplitNodesPattern(a + b, p) == SplitNodesPattern(a, p) + SplitNodesPattern(b, p)
    decreases |a|
  {
    if a == [] {
      assert a + b == b;
    } else {
      assert (a + b)[0] == a[0];
      assert (a + b)[1..] == a[1..] + b;
      SplitNodesPatternAppend(a[1..], b, p);
    }
  }

  /** Spans with no plain text among them come through the pass unchanged. */
  lemma {:induction false} SplitNodesPatternKeeps(nodes: seq<TextNode>, p: Pattern)
    requires forall i | 0 <= i < |nodes| :: nodes[i].textType != Text
    ensures SplitNodesPattern(nodes, p) == nodes
    decreases |nodes|
  {
    if nodes != [] {
      SplitNodesPatternKeeps(nodes[1..], p);
      assert [nodes[0]] + nodes[1..] == nodes;
    }
  }

  /** After an extraction pass no plain span holds a match of its
      pattern. */
  lemma {:induction false} SplitNodesPatternExhausted(nodes: seq<TextNode>, p: Pattern)
    ensures Exhausted(SplitNodesPattern(nodes, p), p)
    decreases |nodes|
  {
    if nodes != [] {
      var head := SplitNodePattern(nodes[0], p);
      var rest := SplitNodesPattern(nodes[1..], p);
      assert Exhausted(head, p) by {
        if nodes[0].textType == Text {
          ScanExhausted(nodes[0].text, 0, p);
        }
      }
      assert Exhausted(rest, p) by {
        SplitNodesPatternExhausted(nodes[1..], p);
      }
      AppendExhausted(head, rest, p);
    }
  }

  lemma AppendExhausted(a: seq<TextNode>, b: seq<TextNode>, p: Pattern)
    requires Exhausted(a, p) && Exhausted(b, p)
    ensures Exhausted(a + b, p)
  {
    assert forall k | 0 <= k < |b| :: (a + b)[|a| + k] == b[k];
  }

  /** An extraction pass never changes the markup the spans stand for. */
  lemma {:induction false} SplitNodesPatternMarkdown(nodes: seq<TextNode>, p: Pattern)
    ensures Markdown(SplitNodesPattern(nodes, p)) == Markdown(nodes)
    decreases |nodes|
  {
    if nodes != [] {
      var n := nodes[0];
      if n.textType == Text {
        ScanMarkdown(n.text, 0, p);
      } else {
        MarkdownSingle(n);
      }
      SplitNodesPatternMarkdown(nodes[1..], p);
      MarkdownAppend(SplitNodePattern(n, p), SplitNodesPattern(nodes[1..], p));
    }
  }

  /** An extraction pass keeps every span it does not scan, and makes only
      well-formed plain spans and spans of the pattern's kind. */
  lemma {:induction false} SplitNodesPatternWellFormed(nodes: seq<TextNode>, p: Pattern)
    ensures StyledWellFormed(nodes) ==> AllWellFormed(SplitNodesPattern(nodes, p))
    ensures forall j | 0 <= j < |SplitNodesPattern(nodes, p)| ::
              var n := SplitNodesPattern(nodes, p)[j];
              n in nodes || n.textType == Text || n.textType == PatternKind(p)
    decreases |nodes|
  {
    if nodes != [] {
      var head := SplitNodePattern(nodes[0], p);
      var rest := SplitNodesPattern(nodes[1..], p);
      if nodes[0].textType == Text {
        ScanWellFormed(nodes[0].text, 0, p);
      }
      SplitNodesPatternWellFormed(nodes[1..], p);
      AllWellFormedAppend(head, rest);
      assert StyledWellFormed(nodes) ==> StyledWellFormed(nodes[1..]);
      assert forall j | 0 <= j < |rest| :: (head + rest)[|head| + j] == rest[j];
      assert forall j | 0 <= j < |rest| :: rest[j] in nodes[1..] ==> rest[j] in nodes;
    }
  }

  /** The spans of the pieces, one after the other. */
  function ConcatSpans(parts: seq<seq<TextNode>>): seq<TextNode>
    decreases |parts|
  {
    if parts == [] then [] else parts[0] + ConcatSpans(parts[1..])
  }

  /** One piece per input span: a span that is not plain is its own piece,
      and a plain span's piece is an extraction of its text. */
  predicate PassPieces(nodes: seq<TextNode>, parts: seq<seq<TextNode>>, p: Pattern) {
    && |parts| == |nodes|
    && forall i | 0 <= i < |nodes| ::
         if nodes[i].textType == Text then Extraction(nodes[i].text, 0, parts[i], p) else parts[i] == [nodes[i]]
  }

  /** An extraction pass is made of such pieces. */
  lemma {:induction false} SplitNodesPatternPieces(nodes: seq<TextNode>, p: Pattern) returns (parts: seq<seq<TextNode>>)
    ensures PassPieces(nodes, parts, p) && ConcatSpans(parts) == SplitNodesPattern(nodes, p)
    decreases |nodes|
  {
    if nodes == [] {
      parts := [];
    } else {
      var rest := SplitNodesPatternPieces(nodes[1..], p);
      var head := SplitNodePattern(nodes[0], p);
      if nodes[0].textType == Text {
        ScanExtraction(nodes[0].text, 0, p);
      }
      parts := [head] + rest;
      assert parts[1..] == rest;
      forall i | 1 <= i < |nodes|
        ensures if nodes[i].textType == Text then Extraction(nodes[i].text, 0, parts[i], p) else parts[i] == [nodes[i]]
      {
        assert nodes[i] == nodes[1..][i - 1] && parts[i] == rest[i - 1];
      }
    }
  }

  /** Any such pieces make exactly the pass's result: the pass is pinned
      down span by span. */
  lemma {:induction false} SplitNodesPatternUnique(nodes: seq<TextNode>, parts: seq<seq<TextNode>>, p: Pattern)
    requires PassPieces(nodes, parts, p)
    ensures ConcatSpans(parts) == SplitNodesPattern(nodes, p)
    decreases |nodes|
  {
    if nodes != [] {
      if nodes[0].textType == Text {
        ScanExtraction(nodes[0].text, 0, p);
        ExtractionUnique(nodes[0].text, 0, parts[0], Scan(nodes[0].text, 0, p), p);
      }
      assert PassPieces(nodes[1..], parts[1..], p) by {
        forall i | 0 <= i < |nodes| - 1
          ensures var n := nodes[1..][i];
            if n.textType == Text then Extraction(n.text, 0, parts[1..][i], p) else parts[1..][i] == [n]
        {
          assert nodes[1..][i] == nodes[i + 1] && parts[1..][i] == parts[i + 1];
        }
      }
      SplitNodesPatternUnique(nodes[1..], parts[1..], p);
    }
  }

  /** An extraction pass is pinned down: it is made of one piece per input
      span, and any such pieces make exactly its result. */
  lemma SplitNodesPatternPinned(nodes: seq<TextNode>, p: Pattern)
    ensures exists parts :: PassPieces(nodes, parts, p) && ConcatSpans(parts) == SplitNodesPattern(nodes, p)
    ensures forall parts | PassPieces(nodes, parts, p) :: ConcatSpans(parts) == SplitNodesPattern(nodes, p)
  {
    var parts := SplitNodesPatternPieces(nodes, p);
    forall parts' | PassPieces(nodes, parts', p)
      ensures ConcatSpans(parts') == SplitNodesPattern(nodes, p)
    {
      SplitNodesPatternUnique(nodes, parts', p);
    }
  }

  /** `split_nodes_image`: images are extracted from plain-text spans; the
      markup is unchanged, every new image span has a non-empty alt text and a
      non-empty url free of whitespace and parentheses, no image markup is
      left in any plain span, and each plain input span becomes exactly the
      one `Extraction` of its text. */
  function SplitNodesImage(nodes: seq<TextNode>): (r: seq<TextNode>)
    ensures Markdown(r) == Markdown(nodes)
    ensures StyledWellFormed(nodes) ==> AllWellFormed(r)
    ensures forall j | 0 <= j < |r| :: r[j] in nodes || r[j].textType == Text || r[j].textType == Image
    ensures Exhausted(r, ImagePattern)
    ensures exists parts :: PassPieces(nodes, parts, ImagePattern) && ConcatSpans(parts) == r
    ensures forall parts | PassPieces(nodes, parts, ImagePattern) :: ConcatSpans(parts) == r
  {
    SplitNodesPatternPinned(nodes, ImagePattern);
    SplitNodesPatternExhausted(nodes, ImagePattern);
    SplitNodesPatternMarkdown(nodes, ImagePattern);
    SplitNodesPatternWellFormed(nodes, ImagePattern);
    SplitNodesPattern(nodes, ImagePattern)
  }

  /** `split_nodes_link`: links are extracted from plain-text spans; the
      markup is unchanged, every new link span has a non-empty text and a
      non-empty url free of `)`, no link markup is left in any plain span,
      and each plain input span becomes exactly the one `Extraction` of its
      text. */
  function SplitNodesLink(nodes: seq<TextNode>): (r: seq<TextNode>)
    ensures Markdown(r) == Markdown(nodes)
    ensures StyledWellFormed(nodes) ==> AllWellFormed(r)
    ensures forall j | 0 <= j < |r| :: r[j] in nodes || r[j].textType == Text || r[j].textType == Link
    ensures Exhausted(r, LinkPattern)
    ensures exists parts :: PassPieces(nodes, parts, LinkPattern) && ConcatSpans(parts) == r
    ensures forall parts | PassPieces(nodes, parts, LinkPattern) :: ConcatSpans(parts) == r
  {
    SplitNodesPatternPinned(nodes, LinkPattern);
    SplitNodesPatternExhausted(nodes, LinkPattern);
    SplitNodesPatternMarkdown(nodes, LinkPattern);
    SplitNodesPatternWellFormed(nodes, LinkPattern);
    SplitNodesPattern(nodes, LinkPattern)
  }
}

=== FILE: spans.dfy ===
/** What an inline span stands for in the markup it came from, and what a
    span produced by the tokenizer looks like. */
module Spans {
  import opened Wrappers
  import opened Strings
  import opened TextNodes

  /** The style delimiters, in the order the tokenizer applies them. */
  const AllDelimiters: seq<string> := ["**", "_", "`"]

  predicate IsStyle(k: TextType) {
    k == Bold || k == Italic || k == Code
  }

  function DelimiterOf(k: TextType): (d: string)
    requires IsStyle(k)
    ensures d in AllDelimiters
  {
    match k
    case Bold => "**"
    case Italic => "_"
    case _ => "`"
  }

  /** The two bracketed forms: `![label](url)` and `[label](url)`. */
  datatype Pattern = ImagePattern | LinkPattern

  function PatternKind(p: Pattern): TextType {
    if p == ImagePattern then Image else Link
  }

  /** The markup of one image or link. */
  function PatternText(p: Pattern, text: string, url: string): string {
    (if p == ImagePattern then "!" else "") + "[" + text + "](" + url + ")"
  }

  function PatternPrefix(p: Pattern): string {
    if p == ImagePattern then "![" else "["
  }

  lemma PatternTextParts(p: Pattern, text: string, url: string)
    ensures PatternText(p, text, url) == PatternPrefix(p) + text + "](" + url + ")"
  {
  }

  /** Where each part of an image's or link's markup sits. */
  lemma PatternTextLayout(p: Pattern, text: string, url: string)
    ensures var m, n := PatternText(p, text, url), |PatternPrefix(p)|;
      && |m| == n + |text| + |url| + 3
      && m[..n] == PatternPrefix(p)
      && m[n..n + |text|] == text
      && m[n + |text|] == ']' && m[n + |text| + 1] == '('
      && m[n + |text| + 2..n + |text| + 2 + |url|] == url
      && m[|m| - 1] == ')'
  {
    var m := PatternText(p, text, url);
    assert m == PatternPrefix(p) + text + "](" + url + ")";
  }

  /** A label runs up to the first `]`. */
  predicate IsLabelChar(c: char) {
    c != ']'
  }

  /** An image url holds no parenthesis and no whitespace. */
  predicate IsImageUrlChar(c: char) {
    c != '(' && c != ')' && !IsSpace(c)
  }

  /** A link url runs up to the first `)`. */
  predicate IsLinkUrlChar(c: char) {
    c != ')'
  }

  predicate IsUrlChar(p: Pattern, c: char) {
    if p == ImagePattern then IsImageUrlChar(c) else IsLinkUrlChar(c)
  }

  predicate ValidLabel(s: string) {
    s != [] && forall k | 0 <= k < |s| :: IsLabelChar(s[k])
  }

  predicate ValidUrl(p: Pattern, s: string) {
    s != [] && forall k | 0 <= k < |s| :: IsUrlChar(p, s[k])
  }

  /** A run of plain text as the passes emit it: one plain span, or none
      when it is empty. */
  function PlainOf(a: string): seq<TextNode> {
    if a == [] then [] else [TextNode(a, Text)]
  }

  /** The markup a span stands for: plain text as is, styled text between its
      delimiters, images and links in their bracketed form. */
  function NodeMarkdown(n: TextNode): string {
    match n.textType
    case Text => n.text
    case Bold => DelimiterOf(Bold) + n.text + DelimiterOf(Bold)
    case Italic => DelimiterOf(Italic) + n.text + DelimiterOf(Italic)
    case Code => DelimiterOf(Code) + n.text + DelimiterOf(Code)
    case Link => PatternText(LinkPattern, n.text, n.url.GetOr(""))
    case Image => PatternText(ImagePattern, n.text, n.url.GetOr(""))
  }

  /** The markup a sequence of spans stands for. */
  function Markdown(ns: seq<TextNode>): string
    decreases |ns|
  {
    if ns == [] then "" else NodeMarkdown(ns[0]) + Markdown(ns[1..])
  }

  lemma {:induction false} MarkdownAppend(a: seq<TextNode>, b: seq<TextNode>)
    ensures Markdown(a + b) == Markdown(a) + Markdown(b)
    decreases |a|
  {
    if a == [] {
      assert a + b == b;
    } else {
      assert (a + b)[0] == a[0];
      assert (a + b)[1..] == a[1..] + b;
      MarkdownAppend(a[1..], b);
    }
  }

  /** Text of a styled span that cannot be mistaken for other markup: code
      holds no backtick, bold and italic hold no delimiter at all. */
  predicate StyleClean(k: TextType, text: string)
    requires IsStyle(k)
  {
    if k == Code then !Contains(text, "`")
    else forall i | 0 <= i < |AllDelimiters| :: !Contains(text, AllDelimiters[i])
  }

  /** A span as the tokenizer produces it: plain text is never empty, styled
      text is clean, images and links have a non-empty label and a non-empty
      url of the right characters. */
  predicate WellFormed(n: TextNode) {
    match n.textType
    case Text => n.text != ""
    case Bold => StyleClean(Bold, n.text)
    case Italic => StyleClean(Italic, n.text)
    case Code => StyleClean(Code, n.text)
    case Link => ValidLabel(n.text) && n.url.Some? && ValidUrl(LinkPattern, n.url.value)
    case Image => ValidLabel(n.text) && n.url.Some? && ValidUrl(ImagePattern, n.url.value)
  }

  predicate AllWellFormed(ns: seq<TextNode>) {
    forall i | 0 <= i < |ns| :: WellFormed(ns[i])
  }

  /** Every span that is not plain text is well formed. */
  predicate StyledWellFormed(ns: seq<TextNode>) {
    forall i | 0 <= i < |ns| :: ns[i].textType != Text ==> WellFormed(ns[i])
  }

  lemma AllWellFormedAppend(a: seq<TextNode>, b: seq<TextNode>)
    ensures AllWellFormed(a + b) <==> AllWellFormed(a) && AllWellFormed(b)
  {
    assert forall j | 0 <= j < |a| :: (a + b)[j] == a[j];
    assert forall j | 0 <= j < |b| :: (a + b)[|a| + j] == b[j];
  }

  lemma MarkdownSingle(n: TextNode)
    ensures Markdown([n]) == NodeMarkdown(n)
  {
    assert [n][1..] == [];
  }
}

=== FILE: strings.dfy ===
/** The Python `str` operations the markup pipeline relies on, written out over
    `seq<char>`: substring search, `split`, `join`, `strip`, `splitlines`,
    `str(n)` for naturals and slicing with `[::-1]`. */
module Strings {
  import opened Wrappers

  /** `str.isspace` for one character, which is also what `str.strip()` and
      the regex class `\s` use on `str` values: the controls 9-13 and 28-31,
      space, and the Unicode separators. */
  predicate IsSpace(c: char) {
    var n := c as int;
    || 9 <= n <= 13 || 28 <= n <= 32 || n == 0x85 || n == 0xA0 || n == 0x1680
    || 0x2000 <= n <= 0x200A || n == 0x2028 || n == 0x2029 || n == 0x202F
    || n == 0x205F || n == 0x3000
  }

  /** The characters `str.splitlines` treats as line boundaries (`\r\n` is one
      boundary made of two of them). */
  predicate IsLineBreak(c: char) {
    var n := c as int;
    10 <= n <= 13 || 28 <= n <= 30 || n == 0x85 || n == 0x2028 || n == 0x2029
  }

  predicate NotLineBreak(c: char) {
    !IsLineBreak(c)
  }

  predicate StartsWith(s: string, prefix: string) {
    |prefix| <= |s| && s[..|prefix|] == prefix
  }

  predicate EndsWith(s: string, suffix: string) {
    |suffix| <= |s| && s[|s| - |suffix|..] == suffix
  }

  /** `pat` occurs in `s` starting at index `i`. */
  predicate OccursAt(s: string, pat: string, i: int) {
    0 <= i && i + |pat| <= |s| && s[i..i + |pat|] == pat
  }

  /** Python's `pat in s`. */
  predicate Contains(s: string, pat: string) {
    exists i | 0 <= i <= |s| - |pat| :: OccursAt(s, pat, i)
  }

  lemma OccursInPrefix(s: string, pat: string, i: nat, j: int)
    requires i <= |s|
    requires OccursAt(s[..i], pat, j)
    ensures OccursAt(s, pat, j)
  {
    assert s[..i][j..j + |pat|] == s[j..j + |pat|];
  }

  lemma {:induction false} ContainsTransitive(a: string, b: string, c: string)
    requires Contains(a, b) && Contains(b, c)
    ensures Contains(a, c)
  {
    var i :| 0 <= i <= |a| - |b| && OccursAt(a, b, i);
    var j :| 0 <= j <= |b| - |c| && OccursAt(b, c, j);
    assert forall k | 0 <= k < |c| :: a[i + j + k] == b[j + k] == c[k];
    assert a[i + j..i + j + |c|] == c;
    assert OccursAt(a, c, i + j);
  }

  /** The first index at or after `from` where `pat` occurs (`str.find`). */
  function FindFrom(s: string, pat: string, from: nat): (r: Option<nat>)
    requires |pat| > 0
    ensures r.Some? ==> from <= r.value && OccursAt(s, pat, r.value)
    ensures r.Some? ==> forall j | from <= j < r.value :: !OccursAt(s, pat, j)
    ensures r.None? ==> forall j | from <= j :: !OccursAt(s, pat, j)
    decreases |s| - from
  {
    if from + |pat| > |s| then None
    else if s[from..from + |pat|] == pat then Some(from)
    else FindFrom(s, pat, from + 1)
  }

  /** Python's `sep.join(parts)`. */
  function Join(parts: seq<string>, sep: string): string
    decreases |parts|
  {
    if |parts| == 0 then ""
    else if |parts| == 1 then parts[0]
    else parts[0] + sep + Join(parts[1..], sep)
  }

  /** Python's `s.split(sep)` for a non-empty separator (an empty one makes
      Python raise): cut at every occurrence, scanning left to right without
      overlaps. Joining the parts back reproduces `s`, no part holds the
      separator, and each cut is made at the leftmost possible place. */
  function Split(s: string, sep: string): (parts: seq<string>)
    requires |sep| > 0
    ensures |parts| >= 1
    ensures Join(parts, sep) == s
    ensures forall i | 0 <= i < |parts| :: !Contains(parts[i], sep)
    ensures forall i | 0 <= i < |parts| - 1 :: !Contains(parts[i] + sep[..|sep| - 1], sep)
    decreases |s|
  {
    match FindFrom(s, sep, 0)
    case None =>
      assert !Contains(s, sep);
      [s]
    case Some(i) =>
      var rest := Split(s[i + |sep|..], sep);
      FirstPartClean(s, sep, i);
      assert s == s[..i] + sep + s[i + |sep|..];
      assert ([s[..i]] + rest)[1..] == rest;
      [s[..i]] + rest
  }

  /** When `pat` occurs at `i` and no earlier character opens it, the search
      finds `i`. */
  lemma FindFromFirst(s: string, pat: string, i: nat)
    requires |pat| > 0 && OccursAt(s, pat, i)
    requires forall j | 0 <= j < i :: s[j] != pat[0]
    ensures FindFrom(s, pat, 0) == Some(i)
  {
    forall j | 0 <= j < i && j + |pat| <= |s|
      ensures !OccursAt(s, pat, j)
    {
      assert s[j] == s[j..j + |pat|][0];
    }
  }

  /** A text holding no character that opens `pat` does not contain it. */
  lemma NotContainsChar(s: string, pat: string)
    requires |pat| > 0
    requires pat[0] !in s
    ensures !Contains(s, pat)
  {
    forall j | 0 <= j <= |s| - |pat|
      ensures !OccursAt(s, pat, j)
    {
      assert s[j] == s[j..j + |pat|][0];
    }
  }

  /** One cut of `Split` at the first occurrence of the separator. */
  lemma SplitFirst(s: string, sep: string, i: nat)
    requires |sep| > 0 && OccursAt(s, sep, i)
    requires forall j | 0 <= j < i :: s[j] != sep[0]
    ensures Split(s, sep) == [s[..i]] + Split(s[i + |sep|..], sep)
  {
    FindFromFirst(s, sep, i);
  }

  /** `Split` cuts a text laid out as `a + sep + b` after `a` when `a` holds
      no character that opens the separator. */
  lemma SplitCut(a: string, sep: string, b: string)
    requires |sep| > 0 && sep[0] !in a
    ensures Split(a + sep + b, sep) == [a] + Split(b, sep)
  {
    var s := a + sep + b;
    assert s[..|a|] == a && s[|a|..|a| + |sep|] == sep && s[|a| + |sep|..] == b;
    SplitFirst(s, sep, |a|);
  }

  /** A text without the separator's first character splits into itself. */
  lemma SplitAbsent(s: string, sep: string)
    requires |sep| > 0 && sep[0] !in s
    ensures Split(s, sep) == [s]
  {
    NotContainsChar(s, sep);
  }

  /** A text with one separator splits into the two sides of it. */
  lemma SplitOnce(a: string, sep: string, b: string)
    requires |sep| > 0 && sep[0] !in a && sep[0] !in b
    ensures Split(a + sep + b, sep) == [a, b]
  {
    SplitCut(a, sep, b);
    SplitAbsent(b, sep);
  }

  /** A text with two separators splits into the three pieces between them. */
  lemma SplitTwice(a: string, sep: string, b: string, c: string)
    requires |sep| > 0 && sep[0] !in a && sep[0] !in b && sep[0] !in c
    ensures Split(a + sep + b + sep + c, sep) == [a, b, c]
  {
    var rest := b + sep + c;
    calc {
      Split(a + sep + b + sep + c, sep);
    == { assert a + sep + b + sep + c == a + sep + rest; }
      Split(a + sep + rest, sep);
    == { SplitCut(a, sep, rest); }
      [a] + Split(rest, sep);
    == { SplitOnce(b, sep, c); }
      [a, b, c];
    }
  }

  /** A text with four separators splits into the five pieces between them. */
  lemma SplitFourTimes(a: string, sep: string, b: string, c: string, d: string, e: string)
    requires |sep| > 0 && sep[0] !in a && sep[0] !in b && sep[0] !in c && sep[0] !in d && sep[0] !in e
    ensures Split(a + sep + b + sep + c + sep + d + sep + e, sep) == [a, b, c, d, e]
  {
    var rest := c + sep + d + sep + e;
    calc {
      Split(a + sep + b + sep + c + sep + d + sep + e, sep);
    == { assert a + sep + b + sep + c + sep + d + sep + e == a + sep + (b + sep + rest); }
      Split(a + sep + (b + sep + rest), sep);
    == { SplitCut(a, sep, b + sep + rest); }
      [a] + Split(b + sep + rest, sep);
    == { SplitCut(b, sep, rest); }
      [a] + ([b] + Split(rest, sep));
    == { SplitTwice(c, sep, d, e); }
      [a, b, c, d, e];
    }
  }

  /** The text before the first occurrence of `sep` at `i`, even when extended
      by all but the last character of `sep`, holds no occurrence of `sep`. */
  lemma FirstPartClean(s: string, sep: string, i: nat)
    requires |sep| > 0 && OccursAt(s, sep, i)
    requires forall j | 0 <= j < i :: !OccursAt(s, sep, j)
    ensures !Contains(s[..i], sep)
    ensures !Contains(s[..i] + sep[..|sep| - 1], sep)
  {
    var t := s[..i] + sep[..|sep| - 1];
    assert t == s[..i + |sep| - 1];
    forall j | 0 <= j <= |t| - |sep| && OccursAt(t, sep, j)
      ensures false
    {
      OccursInPrefix(s, sep, i + |sep| - 1, j);
    }
    forall j | 0 <= j <= i - |sep| && OccursAt(s[..i], sep, j)
      ensures false
    {
      OccursInPrefix(s, sep, i, j);
    }
  }

  /** The first index at or after `i` whose character fails `p` (or `|s|`). */
  function SkipWhile(s: string, i: nat, p: char -> bool): (k: nat)
    requires i <= |s|
    ensures i <= k <= |s|
    ensures forall j | i <= j < k :: p(s[j])
    ensures k == |s| || !p(s[k])
    decreases |s| - i
  {
    if i < |s| && p(s[i]) then SkipWhile(s, i + 1, p) else i
  }

  lemma SliceSplit(s: string, a: nat, b: nat, c: nat)
    requires a <= b <= c <= |s|
    ensures s[a..c] == s[a..b] + s[b..c]
  {
  }

  lemma Assoc(a: string, b: string, c: string)
    ensures a + (b + c) == a + b + c
  {
  }

  /** Regrouping four concatenated strings. */
  lemma Assoc3(a: string, b: string, c: string, d: string)
    ensures a + b + c + d == a + (b + c + d)
    ensures a + (b + c) + d == a + b + c + d
  {
  }

  lemma SliceFive(s: string, a: nat, b: nat, c: nat, d: nat, e: nat, f: nat)
    requires a <= b <= c <= d <= e <= f <= |s|
    ensures s[a..f] == s[a..b] + s[b..c] + s[c..d] + s[d..e] + s[e..f]
  {
    SliceSplit(s, a, e, f);
    SliceSplit(s, a, d, e);
    SliceSplit(s, a, c, d);
    SliceSplit(s, a, b, c);
  }

  lemma SliceThree(s: string, i: nat, j: nat)
    requires i <= j <= |s|
    ensures s == s[..i] + s[i..j] + s[j..]
  {
  }

  lemma SliceTail(s: string, a: nat, b: nat)
    requires a <= b <= |s|
    ensures s[a..] == s[a..b] + s[b..]
  {
  }

  lemma SliceOfSlice(s: string, a: nat, b: nat, c: nat, d: nat)
    requires a <= b <= |s| && c <= d <= b - a
    ensures s[a..b][c..d] == s[a + c..a + d]
  {
    assert forall k | 0 <= k < d - c :: s[a..b][c..d][k] == s[a + c + k];
  }

  /** `SkipWhile` stops at the first character that fails `p`. */
  lemma SkipWhileAt(s: string, i: nat, p: char -> bool, k: nat)
    requires i <= k < |s|
    requires forall j | i <= j < k :: p(s[j])
    requires !p(s[k])
    ensures SkipWhile(s, i, p) == k
  {
  }

  /** The end of `s[..hi]` once its trailing whitespace is dropped. */
  function TrimEndAt(s: string, hi: nat): (e: nat)
    requires hi <= |s|
    ensures e <= hi
    ensures forall k | e <= k < hi :: IsSpace(s[k])
    ensures e == 0 || !IsSpace(s[e - 1])
    decreases hi
  {
    if hi > 0 && IsSpace(s[hi - 1]) then TrimEndAt(s, hi - 1) else hi
  }

  predicate AllSpace(s: string) {
    forall k | 0 <= k < |s| :: IsSpace(s[k])
  }

  /** `r` sits at `i` in `s` with only whitespace before and after it. */
  predicate Padded(s: string, r: string, i: nat) {
    && OccursAt(s, r, i)
    && (forall k | 0 <= k < i :: IsSpace(s[k]))
    && (forall k | i + |r| <= k < |s| :: IsSpace(s[k]))
  }

  /** `str.strip()`: the text between the leading and the trailing whitespace.
      It is empty exactly when `s` is all whitespace, and otherwise it starts
      and ends with a non-space. */
  function Strip(s: string): (r: string)
    ensures r == [] <==> AllSpace(s)
    ensures r != [] ==> !IsSpace(r[0]) && !IsSpace(r[|r| - 1])
  {
    var lo := SkipWhile(s, 0, IsSpace);
    var hi := if lo == |s| then lo else TrimEndAt(s, |s|);
    assert lo < |s| ==> lo < hi;
    s[lo..hi]
  }

  /** What `Strip` drops is whitespace, at either end. */
  lemma StripPadded(s: string)
    ensures exists i | 0 <= i <= |s| - |Strip(s)| :: Padded(s, Strip(s), i)
  {
    var lo := SkipWhile(s, 0, IsSpace);
    var hi := if lo == |s| then lo else TrimEndAt(s, |s|);
    assert lo < |s| ==> lo < hi;
    assert Strip(s) == s[lo..hi];
    assert Padded(s, s[lo..hi], lo);
  }

  lemma StripContains(s: string)
    ensures Contains(s, Strip(s))
  {
    StripPadded(s);
    var i :| 0 <= i <= |s| - |Strip(s)| && Padded(s, Strip(s), i);
  }

  /** The whitespace `strip()` removes in front of and behind its result. */
  lemma StripAround(s: string) returns (front: string, back: string)
    ensures AllSpace(front) && AllSpace(back)
    ensures s == front + Strip(s) + back
  {
    StripPadded(s);
    var r := Strip(s);
    var i :| 0 <= i <= |s| - |r| && Padded(s, r, i);
    front, back := s[..i], s[i + |r|..];
    SliceThree(s, i, i + |r|);
  }

  /** The concatenation of `parts`. */
  function Concat(parts: seq<string>): string
    decreases |parts|
  {
    if parts == [] then "" else parts[0] + Concat(parts[1..])
  }

  /** `s` with its line-boundary characters removed. */
  function RemoveBreaks(s: string): string
    decreases |s|
  {
    if s == [] then "" else (if IsLineBreak(s[0]) then "" else [s[0]]) + RemoveBreaks(s[1..])
  }

  lemma {:induction false} RemoveBreaksAppend(a: string, b: string)
    ensures RemoveBreaks(a + b) == RemoveBreaks(a) + RemoveBreaks(b)
    decreases |a|
  {
    if a != [] {
      assert (a + b)[0] == a[0];
      assert (a + b)[1..] == a[1..] + b;
      RemoveBreaksAppend(a[1..], b);
      var h := if IsLineBreak(a[0]) then "" else [a[0]];
      assert RemoveBreaks(a + b) == h + RemoveBreaks(a[1..] + b);
      assert RemoveBreaks(a) == h + RemoveBreaks(a[1..]);
    } else {
      assert a + b == b;
    }
  }

  lemma {:induction false} RemoveBreaksNoBreaks(a: string)
    requires forall k | 0 <= k < |a| :: !IsLineBreak(a[k])
    ensures RemoveBreaks(a) == a
    decreases |a|
  {
    if a != [] {
      RemoveBreaksNoBreaks(a[1..]);
    }
  }

  /** The width of the boundary at the break character `s[k]`: `\r\n` is
      one boundary of two characters. */
  function BreakWidth(s: string, k: nat): (w: nat)
    requires k < |s|
    ensures w == 1 || (w == 2 && k + 1 < |s|)
  {
    if s[k] == '\r' && k + 1 < |s| && s[k + 1] == '\n' then 2 else 1
  }

  /** `str.splitlines()`: cut at every line boundary (`\r\n` counts as one),
      with no empty line after a final boundary; `""` has no lines. The lines
      hold no boundary characters, and together they hold every other
      character of `s`, in order. */
  function SplitLines(s: string): (lines: seq<string>)
    ensures s == [] <==> lines == []
    ensures forall i, j | 0 <= i < |lines| && 0 <= j < |lines[i]| :: !IsLineBreak(lines[i][j])
    ensures Concat(lines) == RemoveBreaks(s)
    decreases |s|
  {
    if s == [] then []
    else
      var k := SkipWhile(s, 0, NotLineBreak);
      if k == |s| then
        RemoveBreaksNoBreaks(s);
        [s]
      else
        var w := BreakWidth(s, k);
        var rest := SplitLines(s[k + w..]);
        RemoveBreaksAtBoundary(s, k, w);
        assert ([s[..k]] + rest)[1..] == rest;
        [s[..k]] + rest
  }

  /** Cutting at a boundary of width `w` after break-free text `s[..k]`. */
  lemma RemoveBreaksAtBoundary(s: string, k: nat, w: nat)
    requires k + w <= |s| && (w == 1 || w == 2)
    requires forall j | 0 <= j < k :: !IsLineBreak(s[j])
    requires IsLineBreak(s[k]) && (w == 2 ==> s[k + 1] == '\n')
    ensures RemoveBreaks(s) == s[..k] + RemoveBreaks(s[k + w..])
  {
    SliceThree(s, k, k + w);
    BreakFreePrefix(s, k);
    BoundaryRemoved(s, k, w);
    RemoveBreaksGlue(s[..k], s[k..k + w], s[k + w..]);
  }

  lemma RemoveBreaksGlue(a: string, b: string, c: string)
    requires RemoveBreaks(a) == a && RemoveBreaks(b) == ""
    ensures RemoveBreaks(a + b + c) == a + RemoveBreaks(c)
  {
    RemoveBreaksAppend(a, b);
    assert a + "" == a;
    RemoveBreaksAppend(a + b, c);
  }

  lemma BreakFreePrefix(s: string, k: nat)
    requires k <= |s|
    requires forall j | 0 <= j < k :: !IsLineBreak(s[j])
    ensures RemoveBreaks(s[..k]) == s[..k]
  {
    var a := s[..k];
    forall j | 0 <= j < |a|
      ensures !IsLineBreak(a[j])
    {
      assert a[j] == s[j];
    }
    RemoveBreaksNoBreaks(a);
  }

  lemma BoundaryRemoved(s: string, k: nat, w: nat)
    requires k + w <= |s| && (w == 1 || w == 2)
    requires IsLineBreak(s[k]) && (w == 2 ==> s[k + 1] == '\n')
    ensures RemoveBreaks(s[k..k + w]) == ""
  {
    var b := s[k..k + w];
    assert b[0] == s[k];
    assert w == 2 ==> b[1] == '\n';
    RemoveBreaksAllBreaks(b);
  }

  lemma {:induction false} RemoveBreaksAllBreaks(b: string)
    requires forall j | 0 <= j < |b| :: IsLineBreak(b[j])
    ensures RemoveBreaks(b) == ""
    decreases |b|
  {
    if b != [] {
      RemoveBreaksAllBreaks(b[1..]);
    }
  }

  /** A line boundary of `str.splitlines`: one break character, or `\r\n`. */
  predicate IsBoundary(b: string) {
    b == "\r\n" || (|b| == 1 && IsLineBreak(b[0]))
  }

  /** `s` is cut into `lines` as `str.splitlines` cuts, `bounds[i]` being the
      boundary that ended `lines[i]`: the text opens with the first line and
      its boundary, and the rest of the text is cut in the same way. Each
      boundary is one break character or `\r\n`, except that the last line
      may end the text without one (it is then non-empty); a `\r` boundary
      is never directly followed by `\n`, which would have made the two one
      boundary; and nothing is left over. */
  predicate CutAtBoundaries(s: string, lines: seq<string>, bounds: seq<string>)
    decreases |lines|
  {
    && |lines| == |bounds|
    && if lines == [] then s == [] else
      var piece := lines[0] + bounds[0];
      && StartsWith(s, piece)
      && (IsBoundary(bounds[0]) || (bounds[0] == [] && |lines| == 1 && lines[0] != []))
      && (bounds[0] == "\r" ==> !StartsWith(s[|piece|..], "\n"))
      && CutAtBoundaries(s[|piece|..], lines[1..], bounds[1..])
  }

  /** The boundary that ends each line `SplitLines` returns (`""` for a last
      line the text ends without a boundary). */
  function LineEnds(s: string): seq<string>
    decreases |s|
  {
    if s == [] then []
    else
      var k := SkipWhile(s, 0, NotLineBreak);
      if k == |s| then [""]
      else
        var w := BreakWidth(s, k);
        [s[k..k + w]] + LineEnds(s[k + w..])
  }

  /** `SplitLines` cuts exactly at the line boundaries. */
  lemma {:induction false} SplitLinesCuts(s: string)
    ensures CutAtBoundaries(s, SplitLines(s), LineEnds(s))
    decreases |s|
  {
    if s != [] {
      var k := SkipWhile(s, 0, NotLineBreak);
      if k == |s| {
        OneLine(s);
        assert s + "" == s && s[|s|..] == [];
      } else {
        var w := BreakWidth(s, k);
        SplitLinesCuts(s[k + w..]);
        CutAtLine(s, k, w);
      }
    }
  }

  /** Conversely, `SplitLines` is the only cut at line boundaries into lines
      free of break characters. */
  lemma {:induction false} CutUnique(s: string, lines: seq<string>, bounds: seq<string>)
    requires CutAtBoundaries(s, lines, bounds)
    requires forall i | 0 <= i < |lines| :: BreakFree(lines[i])
    ensures lines == SplitLines(s) && bounds == LineEnds(s)
    decreases |lines|
  {
    if lines != [] {
      if bounds[0] == [] {
        UniqueLast(s, lines, bounds);
      } else {
        var rest := s[|lines[0] + bounds[0]|..];
        assert forall i | 0 <= i < |lines[1..]| :: lines[1..][i] == lines[i + 1];
        CutUnique(rest, lines[1..], bounds[1..]);
        UniqueStep(s, lines, bounds);
      }
    }
  }

  predicate BreakFree(line: string) {
    forall j | 0 <= j < |line| :: !IsLineBreak(line[j])
  }

  lemma UniqueLast(s: string, lines: seq<string>, bounds: seq<string>)
    requires CutAtBoundaries(s, lines, bounds) && lines != [] && bounds[0] == []
    requires BreakFree(lines[0])
    ensures lines == SplitLines(s) && bounds == LineEnds(s)
  {
    assert s == lines[0] && |lines| == 1 by { LastLine(s, lines, bounds); }
    if s != [] {
      FirstLineEnds(s, lines[0], bounds[0]);
      OneLine(s);
    }
  }

  lemma UniqueStep(s: string, lines: seq<string>, bounds: seq<string>)
    requires |lines| == |bounds| > 0
    requires var piece := lines[0] + bounds[0];
      && StartsWith(s, piece) && BreakFree(lines[0]) && IsBoundary(bounds[0])
      && (bounds[0] == "\r" ==> !StartsWith(s[|piece|..], "\n"))
      && lines[1..] == SplitLines(s[|piece|..]) && bounds[1..] == LineEnds(s[|piece|..])
    ensures lines == SplitLines(s) && bounds == LineEnds(s)
  {
    var line, b := lines[0], bounds[0];
    FirstCut(s, line, b);
    HeadTail(lines, SplitLines(s));
    HeadTail(bounds, LineEnds(s));
  }

  /** Two sequences with the same head and the same tail are equal. */
  lemma HeadTail<T>(xs: seq<T>, ys: seq<T>)
    requires |xs| > 0 && |ys| > 0 && xs[0] == ys[0] && xs[1..] == ys[1..]
    ensures xs == ys
  {
    assert xs == [xs[0]] + xs[1..];
  }

  /** A text that opens with a break-free line and a boundary is cut there
      first. */
  lemma FirstCut(s: string, line: string, b: string)
    requires StartsWith(s, line + b) && BreakFree(line) && IsBoundary(b)
    requires b == "\r" ==> !StartsWith(s[|line + b|..], "\n")
    ensures var rest := s[|line + b|..];
      && |SplitLines(s)| > 0 && SplitLines(s)[0] == line && SplitLines(s)[1..] == SplitLines(rest)
      && |LineEnds(s)| > 0 && LineEnds(s)[0] == b && LineEnds(s)[1..] == LineEnds(rest)
  {
    var k := |line|;
    FirstLineEnds(s, line, b);
    var w := BreakWidth(s, k);
    assert s[..k] == line && b == s[k..k + w] && s[|line + b|..] == s[k + w..];
    CutUnfold(s, k, w);
  }

  /** A last line ended by no boundary is the whole rest of the text. */
  lemma LastLine(s: string, lines: seq<string>, bounds: seq<string>)
    requires CutAtBoundaries(s, lines, bounds) && lines != [] && bounds[0] == []
    ensures s == lines[0] && |lines| == 1
  {
    var piece := lines[0] + bounds[0];
    assert piece == lines[0];
    assert s[|piece|..] == [];
  }

  /** When `s` opens with a break-free line and then a boundary (or ends
      there), that line is where the first cut falls, and the boundary is the
      one `SplitLines` takes. */
  lemma FirstLineEnds(s: string, line: string, b: string)
    requires StartsWith(s, line + b) && BreakFree(line)
    requires IsBoundary(b) || (b == [] && s == line)
    requires b == "\r" ==> !StartsWith(s[|line + b|..], "\n")
    ensures s[..|line|] == line
    ensures s != [] ==> SkipWhile(s, 0, NotLineBreak) == |line|
    ensures b != [] ==> var k := |line|;
      b == s[k..k + BreakWidth(s, k)]
  {
    var k := |line|;
    assert forall j | 0 <= j < k :: s[j] == (line + b)[j] == line[j];
    if b != [] {
      assert s[k] == (line + b)[k] == b[0];
      if b == "\r" && k + 1 < |s| {
        assert s[k + 1] == s[k + 1..][..1][0];
      } else if b == "\r\n" {
        assert s[k + 1] == (line + b)[k + 1];
      }
      assert s[k..k + |b|] == (line + b)[k..];
    }
    if s != [] {
      SkipWhileStops(s, k);
    }
  }

  /** The run of non-break characters from the start ends at the first
      break. */
  lemma SkipWhileStops(s: string, k: nat)
    requires k <= |s| && (k == |s| || IsLineBreak(s[k]))
    requires forall j | 0 <= j < k :: !IsLineBreak(s[j])
    ensures SkipWhile(s, 0, NotLineBreak) == k
  {
    var e := SkipWhile(s, 0, NotLineBreak);
    assert e < k ==> !NotLineBreak(s[e]);
    assert k < e ==> NotLineBreak(s[k]);
  }

  /** The first line of `s` ends at `k` with a boundary of width `w`. */
  lemma CutAtLine(s: string, k: nat, w: nat)
    requires s != [] && k == SkipWhile(s, 0, NotLineBreak) < |s|
    requires w == BreakWidth(s, k)
    requires CutAtBoundaries(s[k + w..], SplitLines(s[k + w..]), LineEnds(s[k + w..]))
    ensures CutAtBoundaries(s, SplitLines(s), LineEnds(s))
  {
    var b, tail := s[k..k + w], s[k + w..];
    BoundaryAt(s, k, w);
    assert CutAtBoundaries(s, [s[..k]] + SplitLines(tail), [b] + LineEnds(tail)) by {
      SliceThree(s, k, k + w);
      CutCons(s, s[..k], b, tail, SplitLines(tail), LineEnds(tail));
    }
    assert SplitLines(s) == [s[..k]] + SplitLines(tail) && LineEnds(s) == [b] + LineEnds(tail) by {
      CutUnfold(s, k, w);
    }
  }

  /** A line and its boundary in front of a text cut at its boundaries. */
  lemma CutCons(s: string, line: string, b: string, tail: string, lines: seq<string>, bounds: seq<string>)
    requires s == line + b + tail && CutAtBoundaries(tail, lines, bounds)
    requires IsBoundary(b) && (b == "\r" ==> !StartsWith(tail, "\n"))
    ensures CutAtBoundaries(s, [line] + lines, [b] + bounds)
  {
    var piece := line + b;
    assert s[..|piece|] == piece && s[|piece|..] == tail;
    assert ([line] + lines)[1..] == lines && ([b] + bounds)[1..] == bounds;
  }

  /** The break at `k`, taken `w` wide, is one boundary, and a lone `\r`
      is not followed by `\n`. */
  lemma BoundaryAt(s: string, k: nat, w: nat)
    requires k < |s| && IsLineBreak(s[k])
    requires w == BreakWidth(s, k)
    ensures IsBoundary(s[k..k + w])
    ensures s[k..k + w] == "\r" ==> !StartsWith(s[k + w..], "\n")
  {
    var b := s[k..k + w];
    assert b[0] == s[k];
    if w == 2 {
      CrLf(b);
    } else if s[k] == '\r' && k + 1 < |s| {
      assert s[k + 1..][..1][0] == s[k + 1];
    }
  }

  lemma CrLf(b: string)
    requires |b| == 2 && b[0] == '\r' && b[1] == '\n'
    ensures b == "\r\n"
  {
  }

  lemma CutUnfold(s: string, k: nat, w: nat)
    requires s != [] && k == SkipWhile(s, 0, NotLineBreak) < |s|
    requires w == BreakWidth(s, k)
    ensures SplitLines(s) == [s[..k]] + SplitLines(s[k + w..])
    ensures LineEnds(s) == [s[k..k + w]] + LineEnds(s[k + w..])
  {
    LinesUnfold(s, k, w);
  }

  lemma OneLine(s: string)
    requires s != [] && SkipWhile(s, 0, NotLineBreak) == |s|
    ensures SplitLines(s) == [s] && LineEnds(s) == [""]
  {
    assert SplitLines(s) == [s] by { OneLineSplit(s); }
  }

  lemma OneLineSplit(s: string)
    requires s != [] && SkipWhile(s, 0, NotLineBreak) == |s|
    ensures SplitLines(s) == [s]
  {
  }

  lemma LinesUnfold(s: string, k: nat, w: nat)
    requires s != [] && k == SkipWhile(s, 0, NotLineBreak) < |s|
    requires w == BreakWidth(s, k)
    ensures SplitLines(s) == [s[..k]] + SplitLines(s[k + w..])
  {
  }

  predicate IsDigit(c: char) {
    '0' <= c <= '9'
  }

  function DigitValue(c: char): int {
    c as int - '0' as int
  }

  /** The number a string of decimal digits denotes. */
  function DigitsValue(s: string): int
    decreases |s|
  {
    if s == [] then 0 else DigitsValue(s[..|s| - 1]) * 10 + DigitValue(s[|s| - 1])
  }

  /** Python's `str(n)` for a natural number: its decimal digits, most
      significant first, with no leading zero. */
  function DecimalString(n: nat): (r: string)
    ensures |r| >= 1
    ensures forall i | 0 <= i < |r| :: IsDigit(r[i])
    ensures DigitsValue(r) == n
    ensures r[0] == '0' ==> n == 0 && r == "0"
    decreases n
  {
    var last := [('0' as int + n % 10) as char];
    if n < 10 then last
    else
      var r := DecimalString(n / 10) + last;
      assert r[..|r| - 1] == DecimalString(n / 10);
      r
  }

  /** Python's `s[::-1]`. */
  function Reverse(s: string): (r: string)
    ensures |r| == |s|
    ensures forall k | 0 <= k < |s| :: r[k] == s[|s| - 1 - k]
    decreases |s|
  {
    if s == [] then [] else Reverse(s[1..]) + [s[0]]
  }

  /** Looking for `pat` in the reversed text is looking for the reversed `pat`
      in the text. */
  lemma ContainsReverse(s: string, pat: string)
    ensures Contains(Reverse(s), pat) <==> Contains(s, Reverse(pat))
  {
    var rs, rp := Reverse(s), Reverse(pat);
    ReverseMirror(s);
    if Contains(rs, pat) {
      var i :| 0 <= i <= |rs| - |pat| && OccursAt(rs, pat, i);
      OccursMirrored(rs, s, pat, rp, i);
    }
    if Contains(s, rp) {
      var j :| 0 <= j <= |s| - |rp| && OccursAt(s, rp, j);
      OccursMirrored(s, rs, rp, pat, j);
    }
  }

  /** Reversal read backwards gives the original back. */
  lemma ReverseMirror(s: string)
    ensures forall k | 0 <= k < |s| :: s[k] == Reverse(s)[|s| - 1 - k]
  {
    var rs := Reverse(s);
    forall k | 0 <= k < |s|
      ensures s[k] == rs[|s| - 1 - k]
    {
      assert rs[|s| - 1 - k] == s[|s| - 1 - (|s| - 1 - k)];
    }
  }

  /** An occurrence of `p` in `a` is an occurrence of the mirror image of `p`
      in the mirror image of `a`. */
  lemma OccursMirrored(a: string, b: string, p: string, q: string, i: nat)
    requires |a| == |b| && |p| == |q|
    requires forall k | 0 <= k < |a| :: a[k] == b[|b| - 1 - k]
    requires forall k | 0 <= k < |p| :: p[k] == q[|q| - 1 - k]
    requires OccursAt(a, p, i)
    ensures OccursAt(b, q, |a| - i - |p|)
  {
    var j := |a| - i - |p|;
    forall k | 0 <= k < |q|
      ensures b[j + k] == q[k]
    {
      var m := |p| - 1 - k;
      assert a[i + m] == b[|b| - 1 - (i + m)];
      assert a[i + m] == a[i..i + |p|][m];
    }
    assert b[j..j + |q|] == q;
  }
}

=== FILE: textnode.dfy ===
/** The inline-span and block kinds, and the text node that carries one span
    of inline markup. */
module TextNodes {
  import opened Wrappers

  /** The six kinds of inline span. */
  datatype TextType = Text | Bold | Italic | Code | Link | Image

  /** The six kinds of block. */
  datatype BlockType =
    | ParagraphBlock
    | HeadingBlock
    | CodeBlock
    | QuoteBlock
    | UnorderedListBlock
    | OrderedListBlock

  /** One inline span: its text (the label, for links and images), its kind,
      and a url that defaults to absent. */
  datatype TextNode = TextNode(text: string, textType: TextType, url: Option<string> := None)

  /** Whatever a text node may be compared with: another text node, or a value
      of some other type. */
  datatype Value = NodeValue(node: TextNode) | OtherValue(description: string)

  /** Text-node equality: field by field against another text node, and never
      equal to a value of another type. It coincides with structural equality. */
  function Equals(self: TextNode, other: Value): (r: bool)
    ensures r <==> other == NodeValue(self)
    ensures r <==> other.NodeValue? && other.node.text == self.text
                   && other.node.textType == self.textType && other.node.url == self.url
  {
    match other
    case OtherValue(_) => false
    case NodeValue(o) => self.text == o.text && self.textType == o.textType && self.url == o.url
  }
}

=== FILE: tokenizer.dfy ===
/** The whole inline tokenizer: the ambiguity guard, then images, links,
    bold, italic and code, in that order. */
module Tokenizer {
  import opened Wrappers
  import opened Strings
  import opened TextNodes
  import opened Spans
  import opened Delimiters
  import opened Patterns
  import opened Convert

  /** The guard of `text_to_textnodes`, as written: the text has both `**`
      and `_`, and `_**` or `**_` occurs in it or in its reversal. */
  predicate AmbiguousEmphasis(text: string) {
    && Contains(text, "**") && Contains(text, "_")
    && (|| Contains(text, "_**") || Contains(text, "**_")
        || Contains(Reverse(text), "_**") || Contains(Reverse(text), "**_"))
  }

  /** The guard only ever needs its forward checks: the reversed checks look
      for the same two strings the other way round, and either string holds
      both `**` and `_`. */
  lemma AmbiguousEmphasisForward(text: string)
    ensures AmbiguousEmphasis(text) <==> Contains(text, "_**") || Contains(text, "**_")
  {
    ReversedChecks(text);
    if Contains(text, "_**") {
      HoldsBoth(text, "_**");
    }
    if Contains(text, "**_") {
      HoldsBoth(text, "**_");
    }
  }

  lemma ReversedChecks(text: string)
    ensures Contains(Reverse(text), "_**") <==> Contains(text, "**_")
    ensures Contains(Reverse(text), "**_") <==> Contains(text, "_**")
  {
    assert Reverse("_**") == "**_";
    assert Reverse("**_") == "_**";
    ContainsReverse(text, "_**");
    ContainsReverse(text, "**_");
  }

  /** A text holding `_**` or `**_` holds both `**` and `_`. */
  lemma HoldsBoth(text: string, pair: string)
    requires pair == "_**" || pair == "**_"
    requires Contains(text, pair)
    ensures Contains(text, "**") && Contains(text, "_")
  {
    if pair == "_**" {
      assert OccursAt(pair, "**", 1) && OccursAt(pair, "_", 0);
    } else {
      assert OccursAt(pair, "**", 0) && OccursAt(pair, "_", 2);
    }
    ContainsTransitive(text, pair, "**");
    ContainsTransitive(text, pair, "_");
  }

  /** The five extraction passes, in the order the tokenizer runs them. */
  function Passes(text: string): seq<TextNode> {
    var n1 := SplitNodesImage([TextNode(text, Text)]);
    var n2 := SplitNodesLink(n1);
    var n3 := SplitNodesDelimiter(n2, "**", Bold);
    var n4 := SplitNodesDelimiter(n3, "_", Italic);
    SplitNodesDelimiter(n4, "`", Code)
  }

  /** The passes keep the markup and leave only well-formed spans. */
  lemma PassesSound(text: string)
    ensures Markdown(Passes(text)) == text
    ensures AllWellFormed(Passes(text))
  {
    MarkdownSingle(TextNode(text, Text));
    var n1 := SplitNodesImage([TextNode(text, Text)]);
    var n2 := SplitNodesLink(n1);
    var n3 := SplitNodesDelimiter(n2, "**", Bold);
    var n4 := SplitNodesDelimiter(n3, "_", Italic);
    StyleStep(n2, Bold);
    StyleStep(n3, Italic);
    StyleStep(n4, Code);
  }

  /** One delimiter pass over well-formed spans. */
  lemma StyleStep(nodes: seq<TextNode>, kind: TextType)
    requires IsStyle(kind) && AllWellFormed(nodes)
    ensures Markdown(SplitNodesDelimiter(nodes, DelimiterOf(kind), kind)) == Markdown(nodes)
    ensures AllWellFormed(SplitNodesDelimiter(nodes, DelimiterOf(kind), kind))
  {
    SplitNodesDelimiterMarkdown(nodes, kind);
    SplitNodesDelimiterWellFormed(nodes, kind);
  }

  /** A text the guard stops is one well-formed plain span. */
  lemma GuardedSpan(text: string)
    requires AmbiguousEmphasis(text)
    ensures Markdown([TextNode(text, Text)]) == text
    ensures AllWellFormed([TextNode(text, Text)])
  {
    MarkdownSingle(TextNode(text, Text));
    var i :| 0 <= i <= |text| - 2 && OccursAt(text, "**", i);
  }

  /** `text_to_textnodes`: ambiguous emphasis leaves the text as one plain
      span; otherwise images, links, bold, italic and code are extracted in
      turn. The spans always stand for exactly the text given, and are well
      formed: no empty plain span, clean styled text, and images and links
      with a non-empty label and url. */
  function TextToTextNodes(text: string): (r: seq<TextNode>)
    ensures Markdown(r) == text
    ensures AllWellFormed(r)
    ensures AmbiguousEmphasis(text) ==> r == [TextNode(text, Text)]
  {
    if AmbiguousEmphasis(text) then
      GuardedSpan(text);
      [TextNode(text, Text)]
    else
      PassesSound(text);
      Passes(text)
  }

  /** Every span the tokenizer produces can be turned into HTML: no link or
      image ever lacks its url. */
  lemma TokensConvert(text: string)
    ensures forall j | 0 <= j < |TextToTextNodes(text)| :: TextNodeToHtml(TextToTextNodes(text)[j]).Success?
  {
    var r := TextToTextNodes(text);
    forall j | 0 <= j < |r|
      ensures TextNodeToHtml(r[j]).Success?
    {
      assert WellFormed(r[j]);
    }
  }
}

=== FILE: wrappers.dfy ===
/** Option and Result: the shapes used for Python's `None` and for the
    `ValueError`s the system raises. */
module Wrappers {

  /** A value that may be absent (Python's `None`). */
  datatype Option<+T> = None | Some(value: T) {

    /** The value if present, `default` otherwise (Python's `x or default`
        when `x` is an optional string). */
    function GetOr(default: T): T {
      match this
      case Some(v) => v
      case None => default
    }
  }

  /** The outcome of an operation that may raise. */
  datatype Result<+R, +E> = Success(value: R) | Failure(error: E)
}
